=== FILE: README.md ===
# crmsh network inventory and helpers, in Dafny

This project models two parts of `crmsh/utils.py`, the utility module of the
crmsh cluster shell. The behaviour modelled is the behaviour that
`test/unittests/test_utils.py` pins down.

**1. Finding the addresses for the cluster rings.**
- `IP`: parsing, `is_valid_ip`, and the loopback, link-local and multicast tests.
- `Interface`: `addr/prefix` parsing, `ip_with_mask`, `network` and `ip_in_network`.
- `InterfacesInfo`:
  - discovery from `ip -4 -o addr show`, including its two errors: "No address configured" and "Cannot configure second heartbeat, since only one address is available";
  - the derived views `nic_list`, `interface_list`, `ip_list`, `network_list` and `_nic_first_ip`;
  - `get_local_ip_list`;
  - the default-route NIC from `ip -o route show`, with its warning fallback;
  - `get_default_ip_list`, with an operator NIC list and a second heartbeat;
  - `ip_in_network`.

**2. Pure helpers.**
- The boolean-word predicates `verify_boolean`, `is_boolean_true`, `is_boolean_false` and `get_boolean`.
- `crm_msec`.
- `nvpairs2dict`.
- `olist`.
- The checks `is_path_sane`, `is_filename_sane`, `is_name_sane` and `is_id_valid`.
- `interface_choice`.

**Modelling choices.**
- Commands are not run. Their results come in as `CommandResult(rc, out, err)` values.
- Python's `ValueError`s are `Failure`s of `Result`, carrying an `Errors.Error` that records the message.
- IPv4 addresses are numbers below 2^32.
- Strings are `seq<char>`.

**Modules, one per file.**
- `Wrappers` (`wrappers.dfy`): `Option` and `Result`.
- `Text` (`text.dfy`): `find`, `split`, `join`, whitespace words and ASCII `lower()`.
- `Decimal` (`decimal.dfy`): decimal numerals.
- `Seqs` (`seqs.dfy`): deduplication and mapping.
- `IPv4` (`ipv4.dfy`): addresses and prefixes.
- `Errors` (`errors.dfy`): failures and their messages.
- `Cidr` (`cidr.dfy`): `Interface`.
- `Inventory` (`inventory.dfy`): the NIC map and its views.
- `Discovery` (`discovery.dfy`): `get_interfaces_info`, `get_local_ip_list` and `ip_in_network`.
- `Selection` (`selection.dfy`): the default route and `get_default_ip_list`.
- `Booleans` (`booleans.dfy`), `TimeUnits` (`timeunits.dfy`), `NvPairs` (`nvpairs.dfy`), `OLists` (`olist.dfy`), `Sanity` (`sanity.dfy`) and `IpLink` (`iplink.dfy`): the helpers.
- `Examples` (`examples.dfy`), `InventoryExamples` (`inventory_examples.dfy`) and `DiscoveryExamples` (`discovery_examples.dfy`): the test cases, restated as lemmas.

`crmsh/utils.py` itself is not part of this model. Where the tests say
nothing, the model follows the behaviour the tests imply, and the choices
are listed under "Left out".

## Model

| member | source | states |
|---|---|---|
| Booleans.VerifyBoolean | test/unittests/test_utils.py:106-125 | `verify_boolean` holds exactly when the text is a true word or a false word; such a text is 2 to 5 characters long |
| Booleans.IsBooleanTrue | test/unittests/test_utils.py:106-125 | a text is a true word exactly when it equals `yes`, `true` or `on` up to letter case |
| Booleans.IsBooleanFalse | test/unittests/test_utils.py:106-125 | a text is a false word exactly when it equals `no`, `false` or `off` up to letter case; a false word is never a true word |
| Booleans.LowerIsWord | test/unittests/test_utils.py:106-125 | a text lower-cases to a lower-case word exactly when the two are equal up to letter case |
| Booleans.BooleanClasses | test/unittests/test_utils.py:106-125 | `verify_boolean` holds exactly when the text is a true word or a false word, and no text is both |
| Booleans.CaseInsensitive | test/unittests/test_utils.py:106-125 | a text and its lower-case form are classified alike by all three predicates |
| Booleans.GetBoolean | test/unittests/test_utils.py:118-125 | an empty option gives the default; a non-empty one reads true only if it is a boolean word |
| Booleans.GetBooleanOfTrue | test/unittests/test_utils.py:114-117 | a true word reads as true whatever the default |
| Booleans.GetBooleanOfNonTrue | test/unittests/test_utils.py:118-125 | a non-empty text that is not a true word reads as false whatever the default, covering false words and non-booleans |
| Examples.TruthySamples | test/unittests/test_utils.py:107-125 | each truthy sample is a boolean, is true, is not false, and reads as true with default false |
| Examples.FalsySamples | test/unittests/test_utils.py:109-121 | each falsy sample is false, not true, and reads false even with default true |
| Examples.EmptyNotBoolean | test/unittests/test_utils.py:110-125 | `''` is not a boolean and `get_boolean('')` is false |
| Examples.NearMissesNotBoolean | test/unittests/test_utils.py:110-125 | `not` and `ONN` are no booleans, neither true nor false, and read as false |
| Examples.ExtendedNotBoolean | test/unittests/test_utils.py:110-125 | `TRUETH` and `yess` are no booleans and read as false |
| TimeUnits.Scan | test/unittests/test_utils.py:196-202 | there is no match exactly when no digit follows the leading blanks; a match splits the text into maximal runs of blanks, digits, blanks and letters, its number and unit being the digit and letter runs |
| TimeUnits.ScanOfParts | test/unittests/test_utils.py:196-202 | a text split into maximal runs of blanks, digits, blanks and letters is read as exactly those digits and that unit: the match is unique |
| TimeUnits.CrmMsec | test/unittests/test_utils.py:196-202 | a text has a value only when it splits into a number and a unit; when it does, the value is that number in the unit, converted to milliseconds, or none for a unit the table does not know |
| TimeUnits.NumeralScans | test/unittests/test_utils.py:196-202 | a decimal number followed by letters splits into that number and those letters as the unit |
| TimeUnits.MsecOfNumeral | test/unittests/test_utils.py:196-202 | a decimal number followed by a known unit, or by none, gives that many units in milliseconds, rounded down |
| TimeUnits.UnknownUnitNoValue | test/unittests/test_utils.py:196-202 | a decimal number followed by letters naming no unit of the table has no value (the source's -1) |
| TimeUnits.LeadingBlanksIgnored | test/unittests/test_utils.py:196-202 | blanks in front of a text do not change its value, whether or not it has one |
| TimeUnits.NoNumberNoValue | test/unittests/test_utils.py:196-202 | a text that does not start with a number (after blanks) has no value |
| Examples.MsecMilli | test/unittests/test_utils.py:197 | `crm_msec('1ms') == 1` |
| Examples.MsecSecond | test/unittests/test_utils.py:198 | `crm_msec('1s') == 1000` |
| Examples.MsecMicro | test/unittests/test_utils.py:199 | `crm_msec('1us') == 0` |
| Examples.MsecBare | test/unittests/test_utils.py:200 | `crm_msec('1') == 1000`: a bare number is seconds |
| Examples.MsecMinute | test/unittests/test_utils.py:201 | `crm_msec('1m') == 60000` |
| Examples.MsecHour | test/unittests/test_utils.py:202 | `crm_msec('1h') == 3600000` |
| NvPairs.SplitPair | test/unittests/test_utils.py:185-188 | the name holds no `=`; there is no value exactly when the text has no `=`, and then the name is the whole text; otherwise the text is `name=value` |
| NvPairs.SplitPairOfJoined | test/unittests/test_utils.py:186-187 | splitting `name=value` gives the name and the whole value back, even when the value holds `=` |
| NvPairs.DictOfSpec | test/unittests/test_utils.py:185-188 | the dictionary's keys are exactly the pair names, and each key maps to the value of the last pair with that name |
| NvPairs.NvPairsToDictSpec | test/unittests/test_utils.py:185-188 | `nvpairs2dict` has as keys exactly the names of the strings, each mapped to the value split from the last string naming it |
| NvPairs.NvPairsToDict | test/unittests/test_utils.py:185-188 | every name a string starts with is a key and nothing else is; the last string naming a key gives its value |
| Examples.NvPairsPlain | test/unittests/test_utils.py:186 | `['a=b', 'c=d']` gives `{'a': 'b', 'c': 'd'}` |
| Examples.NvPairsValueWithEquals | test/unittests/test_utils.py:187 | `['a=b=c', 'c=d']` gives `{'a': 'b=c', 'c': 'd'}` |
| Examples.NvPairsBareName | test/unittests/test_utils.py:188 | `['a']` gives `{'a': None}` |
| OLists.Append | test/unittests/test_utils.py:128-135 | appending adds exactly one lower-case entry at the end and keeps the earlier entries |
| OLists.MakeItems | test/unittests/test_utils.py:128-135 | an olist built from keys holds each key lower-cased, in order, and nothing else |
| OLists.Make | test/unittests/test_utils.py:128-135 | an olist built from keys has one entry per key, each the key lower-cased, in order |
| OLists.Contains | test/unittests/test_utils.py:132-134 | on a list of lower-case entries, as appending keeps it, a key is a member exactly when some entry equals it up to letter case |
| OLists.ContainsIgnoresCase | test/unittests/test_utils.py:133-134 | a key and its lower-case form are members alike |
| OLists.AppendContains | test/unittests/test_utils.py:130-134 | after an append, a key is a member exactly when it was one before or it equals the appended key up to case |
| OLists.MakeContains | test/unittests/test_utils.py:128-135 | a key is a member of a built olist exactly when it equals one of the keys up to case |
| Examples.OListSample | test/unittests/test_utils.py:128-135 | `olist(['B','C','A'])` plus `f`, `aA` and `_` lists `['b','c','a','f','aa','_']` and contains `aa` and `a` |
| Sanity.NoneInIff | test/unittests/test_utils.py:161-183 | the left-to-right scan finds no refused character exactly when none occurs |
| Sanity.IsPathSane | test/unittests/test_utils.py:161-170 | a path is sane exactly when none of its characters is `'`, backquote, `#`, `*`, `?`, `$`, `[`, `]` or `;` |
| Sanity.IsFilenameSane | test/unittests/test_utils.py:171-176 | a file name is sane exactly when none of its characters is refused in a path or is `/` |
| Sanity.IsNameSane | test/unittests/test_utils.py:177-182 | a name is sane exactly when it holds no single quote |
| Sanity.PathSaneIff | test/unittests/test_utils.py:161-172 | a path is sane exactly when it has no refused character, and two pieces joined are sane exactly when both are |
| Sanity.SanityLevels | test/unittests/test_utils.py:161-183 | a file name is sane exactly when it is a sane path without `/`, and every sane path is a sane name |
| Sanity.IsIdValid | test/unittests/test_utils.py:191-193 | a text is a valid id exactly when it matches the XML-name pattern, either whole or all but one final newline (`re.match` with `$`); a valid id is non-empty and does not start with a digit |
| Sanity.AllIdCharsIff | test/unittests/test_utils.py:191-193 | the scan accepts exactly the strings made of `[A-Za-z0-9_.-]` |
| Sanity.IdValidIsSane | test/unittests/test_utils.py:191-193 | a valid id is a sane file name, path and name, and it stays valid when id characters are appended |
| Examples.SanePaths | test/unittests/test_utils.py:162-168 | `foo/bar`, `foo`, `/foo/bar`, `foo0` and `0foo` are sane paths |
| Examples.SanePunctuatedPaths | test/unittests/test_utils.py:162-168 | `foo_bar` and `foo-bar` are sane paths |
| Examples.SaneDottedPaths | test/unittests/test_utils.py:162-168 | `.foo` and `foo.bar` are sane paths |
| Examples.InsanePaths | test/unittests/test_utils.py:164-170 | `#foo`, `foo?`, `foo*`, `foo$` and ``foo` `` are not sane paths |
| Examples.InsaneBracketedPaths | test/unittests/test_utils.py:164-170 | `foo[bar]`, `foo'` and `foo/*` are not sane paths |
| Examples.FileNameSamples | test/unittests/test_utils.py:171-176 | `foo`, `0foo`, `0` and `.foo` are sane file names and `foo/bar` is not |
| Examples.NameSamples | test/unittests/test_utils.py:177-182 | `foo` is a sane name and `f'o` is not |
| Examples.IdSamples | test/unittests/test_utils.py:191-193 | `foo0` is a valid id and `0foo` is not; `foo\n` is valid and `foo\n\n` is not |
| IpLink.FindStop | test/unittests/test_utils.py:377-406 | the capture ends at the first position, at or after the start, where the lookahead `: ` or `@...: ` succeeds, and no earlier |
| IpLink.CaptureIsPlain | test/unittests/test_utils.py:377-406 | a captured name holds no `@` and no `: ` |
| IpLink.HeaderName | test/unittests/test_utils.py:377-406 | a name taken from a header line holds neither `@` nor `: ` |
| IpLink.InterfaceChoice | test/unittests/test_utils.py:377-406 | `lo` is never listed, and no listed name carries an `@peer` suffix or a `: ` |
| IpLink.LinkNamesAppend | test/unittests/test_utils.py:377-406 | the links of two stretches of output are those of the first followed by those of the second |
| IpLink.BlockNames | test/unittests/test_utils.py:380-403 | a header line followed by indented or empty lines yields exactly the header's name |
| IpLink.Without | test/unittests/test_utils.py:377-406 | removing `lo` keeps exactly the other names, and nothing is added |
| IpLink.WithoutAppend | test/unittests/test_utils.py:377-406 | removing a name from two stretches is removing it from each, in order |
| InventoryExamples.InterfaceChoiceSample | test/unittests/test_utils.py:377-406 | output listing `lo`, `enp1s0`, `br-933fa0e1438c` and `veth3fff6e9@if7`, whatever their flags and indented detail lines, gives `enp1s0`, `br-933fa0e1438c` and `veth3fff6e9`, in that order |
| InventoryExamples.LinkBlockName | test/unittests/test_utils.py:380-403 | a header `<index>: <name>: <flags>` or `<index>: <name>@<peer>: <flags>` with indented detail lines yields exactly `<name>` |
| InventoryExamples.JoinedBlocks | test/unittests/test_utils.py:377-406 | four one-link blocks between an empty first and last line offer their four links other than `lo`, in order |
| IpLink.InterfaceChoiceMembers | test/unittests/test_utils.py:377-406 | a name is listed exactly when it is not `lo` and some line of the output is a header naming it |
| IpLink.LinkNamesMembers | test/unittests/test_utils.py:377-406 | a name is collected exactly when some line is a header yielding it |
| IpLink.HeaderNameOfLine | test/unittests/test_utils.py:380-403 | a line `<index>: <name>: ...` or `<index>: <name>@<peer>: ...` yields `<name>` |
| InventoryExamples.PairedLinkHeader | test/unittests/test_utils.py:398-405 | the header of `veth3fff6e9@if7` yields `veth3fff6e9` |
| IPv4.OctetsRoundTrip | test/unittests/test_utils.py:419-440 | four bytes and a 32-bit address correspond one to one |
| IPv4.ParseOctetIff | test/unittests/test_utils.py:466-477 | an octet text is accepted exactly when it is the canonical decimal of a number below 256 |
| IPv4.ParseFormat | test/unittests/test_utils.py:419-440 | parsing the text of an address gives the address back |
| IPv4.Format | test/unittests/test_utils.py:419-440 | the text of an address has four dot-separated pieces, each reading back as the address's byte in that place |
| IPv4.Parse | test/unittests/test_utils.py:419-440 | every text that parses is the canonical text of its address: no second spelling is accepted |
| IPv4.ParseIff | test/unittests/test_utils.py:419-440 | a text parses to an address exactly when it is that address's text |
| IPv4.IsValidIp | test/unittests/test_utils.py:466-477 | `is_valid_ip` holds exactly for the texts of addresses; any other text gives false, not an error |
| InventoryExamples.ValidIpSample | test/unittests/test_utils.py:473-477 | `10.10.10.1` parses to the address with bytes 10, 10, 10, 1, so it is valid |
| IPv4.LoopbackIsFirstOctet | test/unittests/test_utils.py:479-485 | an address is loopback exactly when its first byte is 127 |
| IPv4.LinkLocalIsFirstOctets | test/unittests/test_utils.py:487-493 | an address is link-local exactly when its first bytes are 169.254 |
| IPv4.MulticastIsFirstOctet | test/unittests/test_utils.py:451-457 | an address is multicast exactly when its first byte is 224 to 239 |
| IPv4.IsLoopback | test/unittests/test_utils.py:479-485 | an address is loopback exactly when it lies from 127.0.0.0 to 127.255.255.255 |
| IPv4.IsLinkLocal | test/unittests/test_utils.py:487-493 | an address is link-local exactly when it lies from 169.254.0.0 to 169.254.255.255 |
| IPv4.IsMulticast | test/unittests/test_utils.py:451-457 | an address is multicast exactly when it lies from 224.0.0.0 to 239.255.255.255 |
| IPv4.AlignedBlock | test/unittests/test_utils.py:533-551 | the block of an aligned network address holds exactly the addresses from it up to the next block |
| IPv4.Mask | test/unittests/test_utils.py:533-539 | the network address is the block start at or below the address, aligned to the block size |
| IPv4.MaskIdempotent | test/unittests/test_utils.py:533-539 | masking a network address gives it back |
| IPv4.InNetworkIsRange | test/unittests/test_utils.py:541-551 | an address is in a network exactly when it lies in the network's block |
| Cidr.ParseInterface | test/unittests/test_utils.py:496-524 | an accepted `addr/prefix` text gives a valid interface whose `ip_with_mask` is that text; a rejected one fails naming the text |
| Cidr.ParseWithMask | test/unittests/test_utils.py:523-529 | reading back `ip_with_mask` of a valid interface gives the interface |
| Cidr.WithMask | test/unittests/test_utils.py:523-524 | for a valid interface `ip_with_mask` splits once at `/` into a text reading back as the address and the prefix as written |
| Cidr.NetworkText | test/unittests/test_utils.py:533-539 | the network text reads back as the network address, and that address is in the network |
| InventoryExamples.NetworkSample | test/unittests/test_utils.py:510-538 | the network of `10.10.10.123/24` is `10.10.10.0` |
| Cidr.IpInNetwork | test/unittests/test_utils.py:541-551 | a text is in the network exactly when it is an address from the network address up to the end of its block |
| Cidr.IpInNetworkIff | test/unittests/test_utils.py:541-551 | `ip_in_network` holds for an address text exactly when the address lies in the interface's network |
| Cidr.InvalidNotInNetwork | test/unittests/test_utils.py:541-551 | a text that is not an address is in no network |
| Cidr.OwnAddressesInNetwork | test/unittests/test_utils.py:541-551 | an interface's own address and its network address are in its network |
| Cidr.SameNetworkSameMembers | test/unittests/test_utils.py:533-551 | interfaces with the same network and prefix contain the same addresses |
| Inventory.InsertNames | test/unittests/test_utils.py:594-619 | filing an interface adds its NIC at the end of `nic_list` if new, and otherwise keeps `nic_list` |
| Inventory.InsertInterfacesOf | test/unittests/test_utils.py:594-619 | filing an interface appends it to its own NIC's list only |
| Inventory.GroupNames | test/unittests/test_utils.py:594-619 | `nic_list` after discovery is the distinct NICs in order of first appearance |
| Inventory.GroupWellFormed | test/unittests/test_utils.py:594-619 | after discovery each NIC appears once and has at least one interface |
| Inventory.GroupInterfacesOf | test/unittests/test_utils.py:594-619 | a NIC's list after discovery is its lines' interfaces in order |
| Inventory.GroupMembers | test/unittests/test_utils.py:594-623 | discovery keeps exactly the interfaces it was given, as many as given |
| Inventory.Names | test/unittests/test_utils.py:577-656 | `nic_list` lists the keys, one per NIC, in order |
| Inventory.InterfaceList | test/unittests/test_utils.py:621-623 | the length of `interface_list` is the sum of the NICs' list lengths, and it holds exactly the interfaces some NIC holds |
| Inventory.InterfaceListAppend | test/unittests/test_utils.py:621-623 | flattening keeps NIC order: the interfaces of two stretches of the map are those of the first followed by those of the second |
| Inventory.InterfaceListOne | test/unittests/test_utils.py:621-623 | a single NIC contributes exactly its own list, in its own order |
| InventoryExamples.NicMapSample | test/unittests/test_utils.py:577-623 | two NICs with two and one interfaces give three interfaces in NIC order, and `eth0`'s first address is its first interface's |
| InventoryExamples.IpListSample | test/unittests/test_utils.py:577-633 | the same map gives `ip_list` as its three interfaces' addresses, NIC by NIC |
| Inventory.IpList | test/unittests/test_utils.py:625-633 | `ip_list` has one entry per interface, in order, each the text of that interface's address |
| Inventory.NetworkList | test/unittests/test_utils.py:644-652 | `network_list` has no duplicates |
| Inventory.NetworkListCovers | test/unittests/test_utils.py:644-652 | every interface's network text is in `network_list` |
| Inventory.NetworkListOnly | test/unittests/test_utils.py:644-652 | every entry of `network_list` is the network text of some interface |
| Inventory.NicFirstIp | test/unittests/test_utils.py:654-656 | a NIC has a first address exactly when it has interfaces |
| Inventory.FirstIpIsListed | test/unittests/test_utils.py:654-656 | a detected NIC's first address is its first interface's address and is in `ip_list` |
| Discovery.AddressFields | test/unittests/test_utils.py:594-619 | every field comes from an address line (its 2nd and 4th words), and every address line gives its field |
| Discovery.AddressFieldsAppend | test/unittests/test_utils.py:594-619 | the fields of two stretches of output are those of the first followed by those of the second: line order is kept |
| Discovery.AddressFieldsOne | test/unittests/test_utils.py:594-619 | a single line gives its field when it is an address line, and nothing otherwise |
| Discovery.AllAddressRows | test/unittests/test_utils.py:594-619 | when every line is an address line, the fields are the lines' 2nd and 4th words, line by line |
| Discovery.ReadFields | test/unittests/test_utils.py:603-619 | the reading loop succeeds exactly when the reader accepts every field, giving one result per field in order; otherwise it fails with the error of the first field the reader rejects |
| Discovery.ParseFields | test/unittests/test_utils.py:603-619 | every field becomes a valid interface whose `ip_with_mask` is the field's text; otherwise reading fails naming the text of the first bad field |
| Discovery.ParseFieldsSucceeds | test/unittests/test_utils.py:603-619 | reading succeeds exactly when every field is a valid `addr/prefix` |
| Discovery.SurvivorsMembers | test/unittests/test_utils.py:594-619 | exactly the interfaces that are neither loopback nor link-local are kept |
| Discovery.SurvivorsAppend | test/unittests/test_utils.py:594-619 | the kept interfaces of two stretches of output are those of the first followed by those of the second: order is kept |
| Discovery.UsableSelectFirst | test/unittests/test_utils.py:594-619 | a NIC has usable interfaces exactly when some line gives it a usable one, and the first is that of the first such line |
| Discovery.SelectSurvivors | test/unittests/test_utils.py:594-619 | filing after filtering gives each NIC its usable interfaces in line order |
| Discovery.Discover | test/unittests/test_utils.py:594-619 | a failed command reports its stderr, and an unreadable table its error; with no usable address it is "No address configured"; with one usable address and a second heartbeat it is "Cannot configure second heartbeat"; it succeeds exactly when none of these holds, and then the map is well formed, non-empty and all usable, with two or more interfaces when a second heartbeat is wanted |
| Discovery.DiscoverInterfacesOf | test/unittests/test_utils.py:594-619 | after a successful discovery a NIC's interfaces are its usable ones, in line order |
| Discovery.DiscoverFirstIp | test/unittests/test_utils.py:594-619 | after a successful discovery a NIC has a first address exactly when some line gives it a usable interface, and it is that of the first such line |
| DiscoveryExamples.ReadCidr | test/unittests/test_utils.py:594-619 | any address and prefix written out read back as that interface |
| DiscoveryExamples.RenderedTable | test/unittests/test_utils.py:594-619 | address lines whose 2nd and 4th words name the NIC and address of each entry are read as that table |
| DiscoveryExamples.LoopbackAddress | test/unittests/test_utils.py:594-601 | `127.0.0.1/8` reads as an interface that is not usable |
| DiscoveryExamples.EnpAddress | test/unittests/test_utils.py:603-619 | `192.168.122.241/24` reads as a usable interface |
| DiscoveryExamples.NoAddressSample | test/unittests/test_utils.py:594-601 | the only-`lo` output fails with "No address configured" |
| DiscoveryExamples.OneAddressSample | test/unittests/test_utils.py:559-619 | the `lo` plus `enp1s0` output with a second heartbeat fails with "Cannot configure second heartbeat, since only one address is available" |
| Discovery.TableRows | test/unittests/test_utils.py:603-619 | an interface is read from a NIC's line exactly when it is valid and its `ip_with_mask` is that line's address text |
| Discovery.DiscoverKeepsUsable | test/unittests/test_utils.py:594-619 | a NIC's stored interfaces are exactly its usable parsed ones |
| Discovery.DiscoverStoresUsableRows | test/unittests/test_utils.py:594-619 | a NIC's stored interfaces are exactly the valid, usable interfaces whose `ip_with_mask` is one of that NIC's address texts |
| Discovery.LocalIpList | test/unittests/test_utils.py:635-642 | `get_local_ip_list` succeeds exactly when discovery does, giving its `ip_list` |
| Discovery.LocalIpsUsable | test/unittests/test_utils.py:635-642 | every local address parses and is neither loopback nor link-local |
| Discovery.AnyContains | test/unittests/test_utils.py:710-750 | true exactly when some interface of the list has the address in its network |
| Discovery.IpInLocalNetwork | test/unittests/test_utils.py:710-750 | a text that is not an address fails; otherwise it succeeds exactly when discovery does, and is true exactly when some discovered interface's network holds the address |
| Selection.DevNic | test/unittests/test_utils.py:658-686 | a NIC is found exactly when a `dev` word followed by another word occurs, and it is the word after the first such `dev` |
| Selection.RouteDefaultNic | test/unittests/test_utils.py:658-686 | a default NIC is found exactly when some line names one, and it is the first such line's |
| Selection.DefaultLineNamesNic | test/unittests/test_utils.py:675-686 | a line `default via <gw> dev <nic> ...` names `<nic>` |
| DiscoveryExamples.RouteSample | test/unittests/test_utils.py:675-686 | the route table with a default line through `eth8` gives `eth8`, with no warning |
| DiscoveryExamples.NoDefaultRouteSample | test/unittests/test_utils.py:658-673 | the route table without a default line gives the first discovered NIC, with the warning |
| Selection.NicsFromRoute | test/unittests/test_utils.py:658-686 | a failed route command reports its stderr. When a line names a default, the result is exactly the first such line's NIC, with no warning. Any success is one NIC: without a warning it is the first default line's; with the warning "No default route configured. Using the first found nic" it is the first discovered NIC, and only when no line names a default. A failure after a good route command is the discovery's failure |
| Selection.OtherNic | test/unittests/test_utils.py:698-708 | there is no other NIC exactly when every detected NIC is a candidate; otherwise the first detected NIC that is not a candidate |
| Selection.LookupAllSpec | test/unittests/test_utils.py:688-708 | the lookup succeeds exactly when every candidate is detected, giving each candidate's first address in order; otherwise it fails naming the first undetected candidate |
| Selection.PickSpec | test/unittests/test_utils.py:688-708 | on top of the lookup, one more address is added exactly when a second heartbeat is wanted, there is one candidate and another NIC was detected; that address is the first such NIC's |
| Selection.PickedAreLookups | test/unittests/test_utils.py:698-708 | every picked address is the lookup of some detected NIC |
| Selection.Resolve | test/unittests/test_utils.py:688-708 | for a discovered map, resolution fails exactly when a candidate is not detected, naming the first such NIC; otherwise it gives each candidate's first address in order, plus the first other NIC's for a second heartbeat with one candidate, and only then |
| InventoryExamples.OverrideWithSecondHeartbeat | test/unittests/test_utils.py:698-708 | override `eth1` with a second heartbeat resolves `eth1` and then `eth0`, in that order |
| InventoryExamples.OverrideNotDetected | test/unittests/test_utils.py:688-696 | override `eth7` fails with "Failed to detect IP address for eth7" |
| Errors.NicNotDetectedMessageNamesNic | test/unittests/test_utils.py:688-696 | two missing-NIC messages are equal exactly when they name the same NIC |
| Selection.DefaultNics | test/unittests/test_utils.py:688-708 | a non-empty operator list is used as given; without one, the candidates are exactly the one NIC the route table gives, and a route failure is reported unchanged; any candidate list is non-empty |
| Selection.DefaultIpList | test/unittests/test_utils.py:688-708 | a failed discovery is reported first, unchanged, then a failed candidate list; after both succeed the result is the resolution of the candidates: the first addresses of the candidates in order, plus the other NIC's for a second heartbeat, or the first undetected candidate named |
| InventoryExamples.DefaultListWithSecondHeartbeat | test/unittests/test_utils.py:698-708 | with the override `eth1`, a second heartbeat and any successful discovery detecting exactly `eth0` and `eth1`, whatever the route table, the default list is `eth1`'s first address and then `eth0`'s |
| InventoryExamples.DefaultListNotDetected | test/unittests/test_utils.py:688-696 | with the override `eth7` and any successful discovery detecting exactly `eth0` and `eth1`, the default list fails with "Failed to detect IP address for eth7" |
| Selection.DefaultIpListSpec | test/unittests/test_utils.py:688-708 | a successful default list follows a successful discovery and is non-empty; every address in it is the first address of a detected NIC and is in `ip_list` |
| Selection.DefaultIpsListed | test/unittests/test_utils.py:698-708 | every resolved address is a detected NIC's first address and is in `ip_list` |

## Left out

- Everything else in `crmsh/utils.py` is out of scope:
  - cloud detection;
  - the systemd service wrapper;
  - remote execution;
  - file and sysconfig I/O;
  - user, home and temp-dir lookups;
  - the shadow-CIB global;
  - `add_sudo`;
  - `get_iplist_from_name`;
  - the `memoize` decorator.
- Running `ip -4 -o addr show`, `ip -o route show` and `ip a`: their results are inputs.
- Logging: the "No default route configured. Using the first found nic" warning is not logged. `Selection.NicsFromRoute` returns it, as the constant `Selection.NoDefaultRouteWarning`, in the `warning` field of its result.
- Caching: `_nic_info_dict` and `_default_nic_list` are recomputed on every call, not cached. So `get_default_ip_list` always runs discovery before route detection. A discovery failure is therefore reported before any route failure.
- IPv6 and `is_ipv6`: only IPv4 is modelled. The address-family check of `ip_in_network` becomes "the text must be an IPv4 address", and any other text fails.
- The prefix: Python also accepts a netmask (`/255.255.255.0`) after the slash. The model accepts only a prefix length (leading zeros allowed). Python 3.9.5 or later rejects octets with leading zeros; the model does too.
- Error messages: the wording of `ipaddress`'s own `ValueError`s is not modelled. `InvalidAddress` carries the rejected text instead.
- Lines: output is split on `\n` only. Python's `splitlines` also splits on other line separators.
- Characters: `lower()`, `\s`, `\d` and `\w` are taken over ASCII only. Python's `\s` and `split()` also match non-ASCII whitespace, which the model treats as an ordinary character.
- `Booleans.VerifyBoolean`: only `yes`/`true`/`on` and `no`/`false`/`off` are words, as the tests use. Non-string options (`None`, `True`, `False`) are not modelled.
- `TimeUnits.CrmMsec`: the unit table follows Pacemaker's `crm_get_msec`:
  - `ms`/`msec`: milliseconds;
  - `us`/`usec`: microseconds;
  - none, `s` or `sec`: seconds;
  - `m`/`min`: minutes;
  - `h`/`hr`: hours.

  An unreadable text gives `None` where the source returns -1.
- `Sanity.IsPathSane`: the refused set includes `;`, which the tests do not pin; a path holding `;` is refused.
- `Sanity.IsFilenameSane`: a file name refuses every character a path refuses, plus `/`; the tests pin only `/` (`foo/bar`) among those.
- `Discovery.Discover`: both discovery errors count surviving interfaces, not NICs. The tests cannot tell the two apart.
- `Discovery.AddressFields`: an address line is any line of at least four words, with the NIC as the 2nd word and `addr/prefix` as the 4th. A shorter line is skipped.
- `Selection.RouteDefaultNic`: the route regular expression is approximated word by word. The model takes the first line whose words start with `default via` and the word after that line's first `dev` at or after the fourth word.
- `IpLink.InterfaceChoice`: the `findall` pattern is approximated line by line, and only a line starting with `<digits>: ` is a header.
- `Inventory.NetworkList`: Python returns `list(set(...))`, whose order is unspecified. The model lists each network at its first occurrence and promises only that it holds each interface's network once, and nothing else.

=== FILE: booleans.dfy ===
/** Boolean option values as the shell accepts them: `yes`, `true`, `on`
    and `no`, `false`, `off`, in any letter case. */
module Booleans {
  import opened Text

  const TrueWords: seq<string> := ["yes", "true", "on"]
  const FalseWords: seq<string> := ["no", "false", "off"]

  /** `a` and `b` are the same text up to ASCII letter case. */
  predicate SameUpToCase(a: string, b: string) {
    |a| == |b| && forall i :: 0 <= i < |a| ==> LowerChar(a[i]) == LowerChar(b[i])
  }

  /** Lower-casing `s` gives the lower-case word `w` exactly when `s` is `w`
      up to case. */
  lemma LowerIsWord(s: string, w: string)
    requires IsLower(w)
    ensures Lower(s) == w <==> SameUpToCase(s, w)
  {
    if SameUpToCase(s, w) {
      assert forall i :: 0 <= i < |w| ==> LowerChar(w[i]) == w[i];
      assert Lower(s) == w;
    }
  }

  /** Every boolean word is written in lower case. */
  lemma WordsAreLower()
    ensures forall k :: 0 <= k < |TrueWords| ==> IsLower(TrueWords[k])
    ensures forall k :: 0 <= k < |FalseWords| ==> IsLower(FalseWords[k])
  {
  }

  /** `is_boolean_true(opt)`: the lower-cased text is a true word, that is,
      the text is one of `yes`, `true`, `on` in any letter case. */
  function IsBooleanTrue(s: string): (b: bool)
    ensures b <==> exists k :: 0 <= k < |TrueWords| && SameUpToCase(s, TrueWords[k])
  {
    WordsAreLower();
    forall k | 0 <= k < |TrueWords| ensures Lower(s) == TrueWords[k] <==> SameUpToCase(s, TrueWords[k]) {
      LowerIsWord(s, TrueWords[k]);
    }
    Lower(s) in TrueWords
  }

  /** `is_boolean_false(opt)`: the lower-cased text is a false word, that
      is, one of `no`, `false`, `off` in any letter case. No text is both
      true and false. */
  function IsBooleanFalse(s: string): (b: bool)
    ensures b <==> exists k :: 0 <= k < |FalseWords| && SameUpToCase(s, FalseWords[k])
    ensures b ==> !IsBooleanTrue(s)
  {
    WordsAreLower();
    forall k | 0 <= k < |FalseWords| ensures Lower(s) == FalseWords[k] <==> SameUpToCase(s, FalseWords[k]) {
      LowerIsWord(s, FalseWords[k]);
    }
    Lower(s) in FalseWords
  }

  /** `verify_boolean(opt)`: whether the text is any boolean word. */
  function VerifyBoolean(s: string): (b: bool)
    ensures b <==> IsBooleanTrue(s) || IsBooleanFalse(s)
    ensures b ==> 2 <= |s| <= 5
  {
    Lower(s) in TrueWords + FalseWords
  }

  /** `get_boolean(opt, dflt)`: an empty option gives the default, any other
      text is true exactly when it is a true word. */
  function GetBoolean(s: string, dflt: bool): (b: bool)
    ensures s == [] ==> b == dflt
    ensures s != [] && b ==> VerifyBoolean(s)
  {
    if s == [] then dflt else IsBooleanTrue(s)
  }

  /** The two classes partition the boolean words: a text is a boolean
      exactly when it is true or false, and never both. */
  lemma BooleanClasses(s: string)
    ensures VerifyBoolean(s) <==> IsBooleanTrue(s) || IsBooleanFalse(s)
    ensures !(IsBooleanTrue(s) && IsBooleanFalse(s))
  {
  }

  /** Letter case does not matter: a text and its lower-case form are
      classified alike. */
  lemma CaseInsensitive(s: string)
    ensures IsBooleanTrue(Lower(s)) == IsBooleanTrue(s)
    ensures IsBooleanFalse(Lower(s)) == IsBooleanFalse(s)
    ensures VerifyBoolean(Lower(s)) == VerifyBoolean(s)
  {
    LowerIsLower(s);
  }

  /** A false word never reads as true, whatever the default; a text that
      is no boolean word reads as false unless it is empty. */
  lemma GetBooleanOfNonTrue(s: string, dflt: bool)
    requires s != [] && !IsBooleanTrue(s)
    ensures !GetBoolean(s, dflt)
  {
  }

  /** A true word reads as true, whatever the default. */
  lemma GetBooleanOfTrue(s: string, dflt: bool)
    requires IsBooleanTrue(s)
    ensures GetBoolean(s, dflt)
  {
  }
}

=== FILE: cidr.dfy ===
/** The source's `Interface`: one configured `address/prefix` of a NIC, as
    `ipaddress.ip_interface` reads it, with the derived address, network
    and membership test. */
module Cidr {
  import opened Wrappers
  import Text
  import Decimal
  import IPv4
  import opened Errors

  /** An address with its prefix length. `maskText` keeps the prefix as it
      was written (Python accepts `/024` for `/24`), so that `ip_with_mask`
      reproduces the input verbatim. */
  datatype Interface = Interface(ip: IPv4.Addr, prefix: IPv4.Prefix, maskText: string)

  /** A prefix written as a decimal number of at most 32; leading zeros are
      accepted, as by `ipaddress`. */
  function ParsePrefix(s: string): (r: Option<IPv4.Prefix>)
  {
    if s == [] || !Decimal.AllDigits(s) || Decimal.Value(s) > 32 then None
    else Some(Decimal.Value(s))
  }

  /** An interface whose prefix text reads as its prefix length. */
  predicate Valid(i: Interface) {
    ParsePrefix(i.maskText) == Some(i.prefix)
  }

  /** `Interface.ip_with_mask`: for a valid interface, a text with one `/`
      whose first half reads as the address and whose second half is the
      prefix as written. */
  function WithMask(i: Interface): (r: string)
    ensures Valid(i) ==> |Text.SplitOn(r, '/')| == 2
    ensures Valid(i) ==> IPv4.Parse(Text.SplitOn(r, '/')[0]) == Some(i.ip)
    ensures Valid(i) ==> Text.SplitOn(r, '/')[1] == i.maskText
  {
    var a := IPv4.Format(i.ip);
    if !Valid(i) then a + "/" + i.maskText
    else
      FormatHasNoSlash(i.ip);
      assert '/' !in i.maskText;
      assert a + "/" + i.maskText == Text.Join([a, i.maskText], '/');
      Text.SplitJoin([a, i.maskText], '/');
      IPv4.ParseFormat(i.ip);
      a + "/" + i.maskText
  }

  /** `Interface.ip`: the address part as text. */
  function IpText(i: Interface): string {
    IPv4.Format(i.ip)
  }

  /** `Interface(text)`: the text split once at `/` into an address and a
      prefix; any other shape, or either half unreadable, is `ValueError`.
      Whatever it accepts, `ip_with_mask` gives back verbatim. */
  function ParseInterface(s: string): (r: Result<Interface, Error>)
    ensures r.Success? ==> Valid(r.value) && WithMask(r.value) == s
    ensures r.Failure? ==> r.error == InvalidAddress(s)
  {
    var parts := Text.SplitOn(s, '/');
    if |parts| != 2 then Failure(InvalidAddress(s))
    else
      match (IPv4.Parse(parts[0]), ParsePrefix(parts[1]))
      case (Some(ip), Some(p)) =>
        Text.JoinSplit(s, '/');
        Success(Interface(ip, p, parts[1]))
      case _ => Failure(InvalidAddress(s))
  }

  /** Reading back the text of a valid interface gives the interface. */
  lemma ParseWithMask(i: Interface)
    requires Valid(i)
    ensures ParseInterface(WithMask(i)) == Success(i)
  {
    var a := IPv4.Format(i.ip);
    assert '/' !in a by {
      IPv4.ParseFormat(i.ip);
      assert '/' !in i.maskText;
      FormatHasNoSlash(i.ip);
    }
    assert '/' !in i.maskText;
    assert WithMask(i) == Text.Join([a, i.maskText], '/');
    Text.SplitJoin([a, i.maskText], '/');
    IPv4.ParseFormat(i.ip);
  }

  /** The text of an address is digits and dots only. */
  lemma FormatHasNoSlash(x: IPv4.Addr)
    ensures '/' !in IPv4.Format(x)
  {
    var o := IPv4.OctetsOf(x);
    var parts := [Decimal.FromNat(o[0]), Decimal.FromNat(o[1]), Decimal.FromNat(o[2]), Decimal.FromNat(o[3])];
    JoinKeepsOut(parts, '.', '/');
  }

  /** Joining pieces free of `c` with a separator other than `c` keeps `c` out. */
  lemma {:induction false} JoinKeepsOut(parts: seq<string>, sep: char, c: char)
    requires |parts| >= 1 && sep != c
    requires forall i :: 0 <= i < |parts| ==> Decimal.AllDigits(parts[i])
    requires !Decimal.IsDigit(c)
    ensures c !in Text.Join(parts, sep)
    decreases |parts|
  {
    if |parts| > 1 {
      JoinKeepsOut(parts[1..], sep, c);
    }
  }

  /** `Interface.network`: the address with its host bits cleared. */
  function Network(i: Interface): IPv4.Addr {
    IPv4.Mask(i.ip, i.prefix)
  }

  /** `Interface.ip_in_network(addr)`: whether the text is an address from
      the network address up to the end of its block; a text that is not an
      address lies in no network. */
  function IpInNetwork(i: Interface, addr: string): (b: bool)
    ensures b <==> IPv4.Parse(addr).Some? &&
                   Network(i) <= IPv4.Parse(addr).value < Network(i) + IPv4.BlockSize(i.prefix)
  {
    match IPv4.Parse(addr)
    case None => false
    case Some(x) =>
      IPv4.InNetworkIsRange(x, i.ip, i.prefix);
      IPv4.InNetwork(x, i.ip, i.prefix)
  }

  /** `Interface.network` as text, e.g. `10.10.10.0` for `10.10.10.123/24`:
      it reads back as the network address, which is in the network. */
  function NetworkText(i: Interface): (r: string)
    ensures IPv4.Parse(r) == Some(Network(i))
    ensures IpInNetwork(i, r)
  {
    IPv4.ParseFormat(Network(i));
    IPv4.Format(Network(i))
  }

  /** Membership holds exactly for the texts of the addresses from the
      network address up to the end of its block. */
  lemma IpInNetworkIff(i: Interface, x: IPv4.Addr)
    ensures IpInNetwork(i, IPv4.Format(x)) <==> Network(i) <= x < Network(i) + IPv4.BlockSize(i.prefix)
  {
    IPv4.ParseFormat(x);
    IPv4.InNetworkIsRange(x, i.ip, i.prefix);
  }

  /** A text that is not an address is in no network. */
  lemma InvalidNotInNetwork(i: Interface, addr: string)
    requires !IPv4.IsValidIp(addr)
    ensures !IpInNetwork(i, addr)
  {
  }

  /** An interface's own address, and its network address, are in its network. */
  lemma OwnAddressesInNetwork(i: Interface)
    ensures IpInNetwork(i, IpText(i))
    ensures IpInNetwork(i, NetworkText(i))
  {
    IPv4.ParseFormat(i.ip);
    IPv4.ParseFormat(Network(i));
    IPv4.MaskIdempotent(i.ip, i.prefix);
  }

  /** Interfaces with the same network and prefix contain the same addresses. */
  lemma SameNetworkSameMembers(i: Interface, j: Interface, addr: string)
    requires i.prefix == j.prefix && Network(i) == Network(j)
    ensures IpInNetwork(i, addr) == IpInNetwork(j, addr)
  {
  }
}

=== FILE: decimal.dfy ===
/** Unsigned decimal numerals: Python's `int(text)` on a run of ASCII digits
    and `str(n)` for a natural number. */
module Decimal {

  predicate IsDigit(c: char) {
    '0' <= c <= '9'
  }

  predicate AllDigits(s: string) {
    forall i :: 0 <= i < |s| ==> IsDigit(s[i])
  }

  function DigitValue(c: char): nat
    requires IsDigit(c)
  {
    c as int - '0' as int
  }

  function DigitChar(d: nat): char
    requires d < 10
  {
    ('0' as int + d) as char
  }

  /** `int(s)` for a string of digits (leading zeros allowed, as in Python). */
  function Value(s: string): nat
    requires AllDigits(s)
  {
    if s == [] then 0 else Value(s[..|s| - 1]) * 10 + DigitValue(s[|s| - 1])
  }

  /** The way `str(n)` writes a number: at least one digit and no leading
      zero unless the number is zero itself. */
  predicate IsCanonical(s: string) {
    s != [] && AllDigits(s) && (s[0] == '0' ==> |s| == 1)
  }

  /** `str(n)` for a natural number. */
  function FromNat(n: nat): (s: string)
    ensures IsCanonical(s)
    ensures s[0] == '0' <==> n == 0
    decreases n
  {
    if n < 10 then [DigitChar(n)] else FromNat(n / 10) + [DigitChar(n % 10)]
  }

  /** Reading back a written number gives the number. */
  lemma {:induction false} ValueFromNat(n: nat)
    ensures Value(FromNat(n)) == n
    decreases n
  {
    if n >= 10 {
      var p := FromNat(n / 10);
      var s := FromNat(n);
      assert s == p + [DigitChar(n % 10)];
      assert s[..|s| - 1] == p;
      ValueFromNat(n / 10);
    }
  }

  /** A numeral without leading zero has a positive value. */
  lemma {:induction false} ValuePositive(s: string)
    requires s != [] && AllDigits(s) && s[0] != '0'
    ensures Value(s) > 0
    decreases |s|
  {
    if |s| > 1 {
      ValuePositive(s[..|s| - 1]);
    }
  }

  /** Writing the value of a canonical numeral gives the numeral back, so
      canonical numerals and natural numbers correspond one to one. */
  lemma {:induction false} FromNatValue(s: string)
    requires IsCanonical(s)
    ensures FromNat(Value(s)) == s
    decreases |s|
  {
    if |s| == 1 {
      assert s == [s[0]];
    } else {
      var p := s[..|s| - 1];
      ValuePositive(p);
      FromNatValue(p);
      assert s == p + [s[|s| - 1]];
    }
  }

  /** Numbers below 1000 take at most three digits. */
  lemma FromNatLength(n: nat)
    ensures n < 10 ==> |FromNat(n)| == 1
    ensures n < 100 ==> |FromNat(n)| <= 2
    ensures n < 1000 ==> |FromNat(n)| <= 3
  {
    if n >= 10 {
      FromNatLength(n / 10);
    }
  }

  /** Length of the leading run of digits, what the pattern `\d+` consumes
      at the start of a string. */
  function LeadingDigits(s: string): (k: nat)
    ensures k <= |s|
    ensures AllDigits(s[..k])
    ensures k < |s| ==> !IsDigit(s[k])
  {
    if s == [] || !IsDigit(s[0]) then 0 else 1 + LeadingDigits(s[1..])
  }

  /** The leading digit run of a numeral followed by a non-digit suffix is
      the numeral itself. */
  lemma {:induction false} LeadingDigitsOfNumeral(digits: string, rest: string)
    requires AllDigits(digits)
    requires rest == [] || !IsDigit(rest[0])
    ensures LeadingDigits(digits + rest) == |digits|
    ensures (digits + rest)[..|digits|] == digits
    decreases |digits|
  {
    var s := digits + rest;
    if digits == [] {
      assert s == rest;
    } else {
      assert s[0] == digits[0];
      assert s[1..] == digits[1..] + rest;
      LeadingDigitsOfNumeral(digits[1..], rest);
      assert LeadingDigits(s) == 1 + LeadingDigits(s[1..]);
    }
  }
}

=== FILE: discovery.dfy ===
/** `InterfacesInfo.get_interfaces_info` and the class-level queries built on
    it: reading the output of `ip -4 -o addr show` into the NIC map,
    `get_local_ip_list` and `ip_in_network`. The command itself is not run:
    its exit code and output are inputs. */
module Discovery {
  import opened Wrappers
  import opened Seqs
  import Text
  import IPv4
  import opened Cidr
  import opened Errors
  import opened Inventory

  /** What a command execution returns: exit code, standard output and
      standard error. */
  datatype CommandResult = CommandResult(rc: int, out: string, err: string)

  /** The constructor arguments of `InterfacesInfo` the core uses: whether a
      second heartbeat is wanted, and the operator's NIC list (`[]` when none
      was given). */
  datatype Config = Config(secondHeartbeat: bool, customNics: seq<string>)

  /** The two words discovery takes from one line: the NIC name and the
      `address/prefix` text. */
  datatype Field = Field(nic: string, text: string)

  /** A line of `ip -4 -o addr show` has the shape
      `<index>: <nic> inet <address>/<prefix> ...`; it is read when it has at
      least four words. */
  predicate IsAddressRow(w: seq<string>) {
    |w| >= 4
  }

  /** The NIC (second word) and address (fourth word) of every address line,
      in output order; shorter lines are skipped. */
  function AddressFields(rows: seq<seq<string>>): (r: seq<Field>)
    ensures forall k :: 0 <= k < |r| ==>
              exists j :: 0 <= j < |rows| && IsAddressRow(rows[j]) && r[k] == Field(rows[j][1], rows[j][3])
    ensures forall j :: 0 <= j < |rows| && IsAddressRow(rows[j]) ==> Field(rows[j][1], rows[j][3]) in r
  {
    if rows == [] then []
    else
      var rest := AddressFields(rows[1..]);
      var r := if IsAddressRow(rows[0]) then [Field(rows[0][1], rows[0][3])] + rest else rest;
      assert forall j :: 1 <= j < |rows| ==> rows[j] == rows[1..][j - 1];
      assert forall k :: 0 <= k < |r| ==>
               exists j :: 0 <= j < |rows| && IsAddressRow(rows[j]) && r[k] == Field(rows[j][1], rows[j][3]) by {
        forall k | 0 <= k < |r|
          ensures exists j :: 0 <= j < |rows| && IsAddressRow(rows[j]) && r[k] == Field(rows[j][1], rows[j][3])
        {
          if IsAddressRow(rows[0]) && k == 0 {
            assert r[k] == Field(rows[0][1], rows[0][3]);
          } else {
            var t := if IsAddressRow(rows[0]) then k - 1 else k;
            assert r[k] == rest[t];
            var j :| 0 <= j < |rows[1..]| && IsAddressRow(rows[1..][j]) && rest[t] == Field(rows[1..][j][1], rows[1..][j][3]);
            assert rows[j + 1] == rows[1..][j];
          }
        }
      }
      r
  }

  /** Fields are taken line by line: those of two stretches of output are
      the fields of the first followed by those of the second. */
  lemma {:induction false} AddressFieldsAppend(a: seq<seq<string>>, b: seq<seq<string>>)
    ensures AddressFields(a + b) == AddressFields(a) + AddressFields(b)
    decreases |a|
  {
    if a == [] {
      assert a + b == b;
    } else {
      assert (a + b)[0] == a[0] && (a + b)[1..] == a[1..] + b;
      AddressFieldsAppend(a[1..], b);
    }
  }

  /** One line gives its field when it is an address line, and nothing
      otherwise. */
  lemma AddressFieldsOne(w: seq<string>)
    ensures AddressFields([w]) == if IsAddressRow(w) then [Field(w[1], w[3])] else []
  {
    assert [w][1..] == [];
  }

  /** With every line long enough, there is one field per line, in order. */
  lemma {:induction false} AllAddressRows(rows: seq<seq<string>>)
    requires forall r :: 0 <= r < |rows| ==> |rows[r]| >= 4
    ensures AddressFields(rows) == seq(|rows|, r requires 0 <= r < |rows| => Field(rows[r][1], rows[r][3]))
  {
    if rows != [] {
      AllAddressRows(rows[1..]);
    }
  }

  /** `fs[k]` is the first field the reader rejects. */
  predicate FirstRejectedAt(fs: seq<Field>, read: string -> Result<Interface, Error>, k: int) {
    0 <= k < |fs| && read(fs[k].text).Failure? && forall j :: 0 <= j < k ==> read(fs[j].text).Success?
  }

  /** The discovery loop over the address fields with a given reader for
      the address text: every field read in order, the first failure
      stopping the loop with its error. A complete result holds each
      field's reading under the field's NIC. */
  function ReadFields(fs: seq<Field>, read: string -> Result<Interface, Error>): (r: Result<seq<Addressed>, Error>)
    ensures r.Failure? ==>
              exists k :: FirstRejectedAt(fs, read, k) && r.error == read(fs[k].text).error
    ensures r.Success? ==> |r.value| == |fs|
    ensures r.Success? ==>
              forall k :: 0 <= k < |fs| ==>
                r.value[k].nic == fs[k].nic && read(fs[k].text) == Success(r.value[k].iface)
  {
    if fs == [] then Success([])
    else
      var head := read(fs[0].text);
      if head.Failure? then
        assert FirstRejectedAt(fs, read, 0);
        Failure(head.error)
      else
        var rest := ReadFields(fs[1..], read);
        if rest.Failure? then
          assert exists k :: FirstRejectedAt(fs, read, k) && rest.error == read(fs[k].text).error by {
            var k :| FirstRejectedAt(fs[1..], read, k) && rest.error == read(fs[1..][k].text).error;
            assert forall j :: 1 <= j <= k + 1 ==> fs[j] == fs[1..][j - 1];
            assert FirstRejectedAt(fs, read, k + 1);
          }
          Failure(rest.error)
        else
          var r := [Addressed(fs[0].nic, head.value)] + rest.value;
          assert forall k :: 1 <= k < |fs| ==> fs[k] == fs[1..][k - 1] && r[k] == rest.value[k - 1];
          Success(r)
  }

  /** The loop completes exactly when every field can be read. */
  lemma {:induction false} ReadFieldsSucceeds(fs: seq<Field>, read: string -> Result<Interface, Error>)
    ensures ReadFields(fs, read).Success? <==> forall k :: 0 <= k < |fs| ==> read(fs[k].text).Success?
  {
    if fs != [] {
      var tail := fs[1..];
      ReadFieldsSucceeds(tail, read);
      assert forall k :: 1 <= k < |fs| ==> fs[k] == tail[k - 1];
    }
  }

  /** `Interface(ip_with_mask)` for every field, in order; the first text
      that is not an `address/prefix` stops discovery with its error. A
      complete table holds, for each field in order, a valid interface
      under the field's NIC whose `ip_with_mask` is the field's text. */
  function ParseFields(fs: seq<Field>): (r: Result<seq<Addressed>, Error>)
    ensures r.Failure? ==> exists k :: FirstRejectedAt(fs, ParseInterface, k) && r.error == InvalidAddress(fs[k].text)
    ensures r.Success? ==> |r.value| == |fs|
    ensures r.Success? ==>
              forall k :: 0 <= k < |fs| ==>
                r.value[k].nic == fs[k].nic && Valid(r.value[k].iface) && WithMask(r.value[k].iface) == fs[k].text
  {
    ReadFields(fs, ParseInterface)
  }

  /** The table is read completely exactly when every field is an
      `address/prefix`. */
  lemma ParseFieldsSucceeds(fs: seq<Field>)
    ensures ParseFields(fs).Success? <==> forall k :: 0 <= k < |fs| ==> ParseInterface(fs[k].text).Success?
  {
    ReadFieldsSucceeds(fs, ParseInterface);
  }

  /** An address that can carry cluster traffic: neither loopback nor
      link-local. */
  predicate Usable(i: Interface) {
    !IPv4.IsLoopback(i.ip) && !IPv4.IsLinkLocal(i.ip)
  }

  /** The discovered addresses that are kept, in order. */
  function Survivors(es: seq<Addressed>): (r: seq<Addressed>)
    ensures |r| <= |es|
  {
    if es == [] then []
    else
      var rest := Survivors(es[1..]);
      if Usable(es[0].iface) then [es[0]] + rest else rest
  }

  /** Exactly the usable addresses survive. */
  lemma {:induction false} SurvivorsMembers(es: seq<Addressed>)
    ensures forall e :: e in Survivors(es) <==> e in es && Usable(e.iface)
  {
    if es != [] {
      SurvivorsMembers(es[1..]);
      assert forall e :: e in es <==> e == es[0] || e in es[1..];
    }
  }

  /** One step of the filter: the first address is kept or dropped on its
      own merit. */
  lemma SurvivorsCons(x: Addressed, rest: seq<Addressed>)
    ensures Survivors([x] + rest) == (if Usable(x.iface) then [x] else []) + Survivors(rest)
  {
    assert ([x] + rest)[1..] == rest;
  }

  /** Filtering keeps order: the survivors of two stretches of output are
      the survivors of the first followed by those of the second. */
  lemma {:induction false} SurvivorsAppend(a: seq<Addressed>, b: seq<Addressed>)
    ensures Survivors(a + b) == Survivors(a) + Survivors(b)
    decreases |a|
  {
    if a == [] {
      assert a + b == b;
    } else {
      var head := if Usable(a[0].iface) then [a[0]] else [];
      assert (a + b)[0] == a[0] && (a + b)[1..] == a[1..] + b;
      SurvivorsAppend(a[1..], b);
      var x, y := Survivors(a[1..]), Survivors(b);
      assert Survivors(a + b) == head + (x + y);
      assert Survivors(a) == head + x;
      assert head + (x + y) == (head + x) + y;
    }
  }

  /** `es[k]` is a usable address listed under `nic`. */
  predicate UsableRow(es: seq<Addressed>, nic: string, k: int) {
    0 <= k < |es| && es[k].nic == nic && Usable(es[k].iface)
  }

  /** `es[k]` is the first usable address listed under `nic`. */
  predicate FirstUsableAt(es: seq<Addressed>, nic: string, k: int) {
    UsableRow(es, nic, k) && forall j :: 0 <= j < k ==> !UsableRow(es, nic, j)
  }

  /** The usable interfaces listed under `nic`, in output order: the
      reference meaning of one dictionary entry after discovery. */
  function UsableSelect(es: seq<Addressed>, nic: string): seq<Interface>
    decreases |es|
  {
    if es == [] then []
    else
      var e := es[|es| - 1];
      UsableSelect(es[..|es| - 1], nic) + (if e.nic == nic && Usable(e.iface) then [e.iface] else [])
  }

  /** A NIC has usable interfaces exactly when some usable line names it,
      and the first of them is that of the first such line. */
  lemma {:induction false} UsableSelectFirst(es: seq<Addressed>, nic: string)
    ensures UsableSelect(es, nic) == [] <==> forall k :: 0 <= k < |es| ==> !UsableRow(es, nic, k)
    ensures UsableSelect(es, nic) != [] ==>
              exists k :: FirstUsableAt(es, nic, k) && UsableSelect(es, nic)[0] == es[k].iface
    decreases |es|
  {
    if es != [] {
      var n := |es| - 1;
      var p := es[..n];
      var last := if UsableRow(es, nic, n) then [es[n].iface] else [];
      assert UsableSelect(es, nic) == UsableSelect(p, nic) + last;
      UsableSelectFirst(p, nic);
      UsableRowPrefix(es, nic, n);
      if UsableSelect(p, nic) != [] {
        var k :| FirstUsableAt(p, nic, k) && UsableSelect(p, nic)[0] == p[k].iface;
        assert FirstUsableAt(es, nic, k);
      } else if UsableRow(es, nic, n) {
        assert FirstUsableAt(es, nic, n);
      }
    }
  }

  /** A prefix has the same usable rows, at the same places. */
  lemma UsableRowPrefix(es: seq<Addressed>, nic: string, n: nat)
    requires n <= |es|
    ensures forall k :: 0 <= k < n ==> (UsableRow(es[..n], nic, k) <==> UsableRow(es, nic, k))
  {
  }

  /** One more address files its interface under its own NIC only. */
  lemma SelectSnoc(p: seq<Addressed>, e: Addressed, nic: string)
    ensures Select(p + [e], nic) == Select(p, nic) + (if e.nic == nic then [e.iface] else [])
  {
    assert (p + [e])[..|p|] == p;
  }

  /** Filing the survivors under a NIC gives that NIC's usable interfaces
      in output order. */
  lemma {:induction false} SelectSurvivors(es: seq<Addressed>, nic: string)
    ensures Select(Survivors(es), nic) == UsableSelect(es, nic)
    decreases |es|
  {
    if es != [] {
      var n := |es| - 1;
      var p := es[..n];
      var e := es[n];
      assert es == p + [e];
      SurvivorsAppend(p, [e]);
      SelectSurvivors(p, nic);
      SurvivorsCons(e, []);
      assert [e] + [] == [e];
      if Usable(e.iface) {
        SelectSnoc(Survivors(p), e, nic);
      } else {
        assert Survivors(p) + [] == Survivors(p);
      }
    }
  }

  /** The parsed address table of a command's output, before filtering. */
  function Table(cmd: CommandResult): Result<seq<Addressed>, Error> {
    ParseFields(AddressFields(Text.Tokenize(cmd.out)))
  }

  /** `get_interfaces_info()`: a failed command reports its standard error;
      otherwise every address line becomes an `Interface`, loopback and
      link-local ones are dropped, the rest are filed by NIC. Nothing left
      is "No address configured"; exactly one address left when a second
      heartbeat is wanted is "Cannot configure second heartbeat, ...". */
  function Discover(config: Config, cmd: CommandResult): (r: Result<NicMap, Error>)
    ensures cmd.rc != 0 ==> r == Failure(CommandFailed(cmd.err))
    ensures cmd.rc == 0 && Table(cmd).Failure? ==> r == Failure(Table(cmd).error)
    ensures cmd.rc == 0 && Table(cmd).Success? ==>
              (r == Failure(NoAddressConfigured) <==> Survivors(Table(cmd).value) == [])
    ensures cmd.rc == 0 && Table(cmd).Success? ==>
              (r == Failure(SecondHeartbeatUnavailable) <==>
                 config.secondHeartbeat && |Survivors(Table(cmd).value)| == 1)
    ensures r.Success? ==> WellFormed(r.value) && r.value != []
    ensures r.Success? ==> forall i :: i in InterfaceList(r.value) ==> Usable(i)
    ensures r.Success? && config.secondHeartbeat ==> |InterfaceList(r.value)| >= 2
    ensures r.Success? <==>
              cmd.rc == 0 && Table(cmd).Success? && Survivors(Table(cmd).value) != [] &&
              !(config.secondHeartbeat && |Survivors(Table(cmd).value)| == 1)
  {
    if cmd.rc != 0 then Failure(CommandFailed(cmd.err))
    else
      match Table(cmd)
      case Failure(e) => Failure(e)
      case Success(es) =>
        var kept := Survivors(es);
        SurvivorsMembers(es);
        if kept == [] then Failure(NoAddressConfigured)
        else if config.secondHeartbeat && |kept| == 1 then Failure(SecondHeartbeatUnavailable)
        else
          GroupMembers(kept);
          GroupWellFormed(kept);
          Success(Group(kept))
  }

  /** Membership in a discovery sequence filed under one NIC. */
  lemma {:induction false} SelectMembers(es: seq<Addressed>, nic: string, i: Interface)
    ensures i in Select(es, nic) <==> Addressed(nic, i) in es
    decreases |es|
  {
    if es != [] {
      var p := es[..|es| - 1];
      assert es == p + [es[|es| - 1]];
      SelectMembers(p, nic, i);
    }
  }

  /** An interface is parsed from a NIC's line exactly when it is valid
      and its `ip_with_mask` is that line's address text. */
  lemma TableRows(cmd: CommandResult, nic: string, i: Interface)
    requires Table(cmd).Success?
    ensures Addressed(nic, i) in Table(cmd).value <==>
              Valid(i) && Field(nic, WithMask(i)) in AddressFields(Text.Tokenize(cmd.out))
  {
    var fs := AddressFields(Text.Tokenize(cmd.out));
    var es := Table(cmd).value;
    var a := Addressed(nic, i);
    if a in es {
      var k :| 0 <= k < |es| && es[k] == a;
      assert fs[k] == Field(nic, WithMask(i));
    }
    if Valid(i) && Field(nic, WithMask(i)) in fs {
      var k :| 0 <= k < |fs| && fs[k] == Field(nic, WithMask(i));
      ParseWithMask(i);
      ParseWithMask(es[k].iface);
      assert es[k] == a;
    }
  }

  /** What discovery stores under a NIC is exactly the usable interfaces
      parsed from that NIC's lines. */
  lemma DiscoverKeepsUsable(config: Config, cmd: CommandResult, nic: string, i: Interface)
    requires Discover(config, cmd).Success?
    ensures Table(cmd).Success?
    ensures i in InterfacesOf(Discover(config, cmd).value, nic) <==>
              Addressed(nic, i) in Table(cmd).value && Usable(i)
  {
    var kept := Survivors(Table(cmd).value);
    assert Discover(config, cmd).value == Group(kept);
    GroupInterfacesOf(kept, nic);
    SelectMembers(kept, nic, i);
    SurvivorsMembers(Table(cmd).value);
  }

  /** What discovery stores under a NIC is exactly the valid, usable
      interfaces whose `ip_with_mask` is the address text of one of that
      NIC's lines. */
  lemma DiscoverStoresUsableRows(config: Config, cmd: CommandResult, nic: string, i: Interface)
    requires Discover(config, cmd).Success?
    ensures i in InterfacesOf(Discover(config, cmd).value, nic) <==>
              Valid(i) && Usable(i) && Field(nic, WithMask(i)) in AddressFields(Text.Tokenize(cmd.out))
  {
    DiscoverKeepsUsable(config, cmd, nic, i);
    TableRows(cmd, nic, i);
  }

  /** What discovery stores under a NIC is its usable interfaces in the
      order the output lists them. */
  lemma DiscoverInterfacesOf(config: Config, cmd: CommandResult, nic: string)
    requires Discover(config, cmd).Success?
    ensures Table(cmd).Success?
    ensures InterfacesOf(Discover(config, cmd).value, nic) == UsableSelect(Table(cmd).value, nic)
  {
    var kept := Survivors(Table(cmd).value);
    assert Discover(config, cmd).value == Group(kept);
    GroupInterfacesOf(kept, nic);
    SelectSurvivors(Table(cmd).value, nic);
  }

  /** `_nic_first_ip(nic)` after discovery: there is one exactly when some
      usable line names the NIC, and it is the address of the first such
      line. */
  lemma DiscoverFirstIp(config: Config, cmd: CommandResult, nic: string)
    requires Discover(config, cmd).Success?
    ensures Table(cmd).Success?
    ensures NicFirstIp(Discover(config, cmd).value, nic).Some? <==>
              exists k :: UsableRow(Table(cmd).value, nic, k)
    ensures NicFirstIp(Discover(config, cmd).value, nic).Some? ==>
              exists k :: FirstUsableAt(Table(cmd).value, nic, k) &&
                NicFirstIp(Discover(config, cmd).value, nic).value == IpText(Table(cmd).value[k].iface)
  {
    DiscoverInterfacesOf(config, cmd, nic);
    UsableSelectFirst(Table(cmd).value, nic);
  }

  /** `get_local_ip_list()`: the `ip_list` of a fresh discovery. */
  function LocalIpList(cmd: CommandResult): (r: Result<seq<string>, Error>)
    ensures r.Success? <==> Discover(Config(false, []), cmd).Success?
    ensures r.Success? ==> r.value == IpList(Discover(Config(false, []), cmd).value)
  {
    var m :- Discover(Config(false, []), cmd);
    Success(IpList(m))
  }

  /** Every entry of the local address list is the text of an address that
      is neither loopback nor link-local. */
  lemma LocalIpsUsable(cmd: CommandResult, k: nat)
    requires LocalIpList(cmd).Success? && k < |LocalIpList(cmd).value|
    ensures IPv4.Parse(LocalIpList(cmd).value[k]).Some?
    ensures !IPv4.IsLoopback(IPv4.Parse(LocalIpList(cmd).value[k]).value)
    ensures !IPv4.IsLinkLocal(IPv4.Parse(LocalIpList(cmd).value[k]).value)
  {
    var m := Discover(Config(false, []), cmd).value;
    assert InterfaceList(m)[k] in InterfaceList(m);
  }

  /** Whether some interface of `l` has `addr` in its network. */
  function AnyContains(l: seq<Interface>, addr: string): (b: bool)
    ensures b <==> exists i :: i in l && IpInNetwork(i, addr)
  {
    if l == [] then false
    else
      assert forall i :: i in l <==> i == l[0] || i in l[1..];
      IpInNetwork(l[0], addr) || AnyContains(l[1..], addr)
  }

  /** `InterfacesInfo.ip_in_network(addr)`: a fresh discovery, then whether
      any discovered interface's network holds the address. A text that is
      not an address fails, as the address-family check raises. */
  function IpInLocalNetwork(addr: string, cmd: CommandResult): (r: Result<bool, Error>)
    ensures !IPv4.IsValidIp(addr) ==> r == Failure(InvalidAddress(addr))
    ensures IPv4.IsValidIp(addr) ==> (r.Success? <==> Discover(Config(false, []), cmd).Success?)
    ensures r.Success? ==>
              (r.value <==> exists i :: i in InterfaceList(Discover(Config(false, []), cmd).value) &&
                                         IpInNetwork(i, addr))
  {
    if !IPv4.IsValidIp(addr) then Failure(InvalidAddress(addr))
    else
      var m :- Discover(Config(false, []), cmd);
      Success(AnyContains(InterfaceList(m), addr))
  }
}

=== FILE: discovery_examples.dfy ===
/** The cases the unit tests of `get_interfaces_info` and
    `get_default_nic_list_from_route` check, stated about the text of the
    commands' output. Tokenizing ignores the width of the gaps between
    words, so each sample is written with single spaces. */
module DiscoveryExamples {
  import opened Wrappers
  import Text
  import Decimal
  import opened IPv4
  import opened Cidr
  import opened Errors
  import opened Inventory
  import opened Discovery
  import opened Selection

  /** The text `a.b.c.d/p` as `str` writes an address and a prefix. */
  function CidrText(o: seq<nat>, p: nat): string
    requires IsOctets(o)
  {
    Text.Join([Decimal.FromNat(o[0]), Decimal.FromNat(o[1]), Decimal.FromNat(o[2]), Decimal.FromNat(o[3])], '.') +
    "/" + Decimal.FromNat(p)
  }

  /** Any address and prefix written out read back as that interface. */
  lemma ReadCidr(o: seq<nat>, p: nat)
    requires IsOctets(o) && p <= 32
    ensures ParseInterface(CidrText(o, p)) == Success(Interface(FromOctets(o), p, Decimal.FromNat(p)))
  {
    var i := Interface(FromOctets(o), p, Decimal.FromNat(p));
    OctetsRoundTrip(0, o);
    Decimal.ValueFromNat(p);
    assert Valid(i);
    assert WithMask(i) == CidrText(o, p);
    ParseWithMask(i);
  }

  /** The only line of `test_get_interfaces_info_no_address`. Python keeps
      the backslash of `lo\ `, so `lo\` is a word of its own. */
  const LoopbackRow: seq<string> :=
    ["1:", "lo", "inet", "127.0.0.1/8", "scope", "host", "lo\\", "valid_lft", "forever", "preferred_lft", "forever"]

  /** The second line of `network_output_error`. */
  const EnpRow: seq<string> :=
    ["2:", "enp1s0", "inet", "192.168.122.241/24", "brd", "192.168.122.255", "scope", "global", "enp1s0"]

  /** The loopback address of the samples, written out. */
  lemma LoopbackText()
    ensures CidrText([127, 0, 0, 1], 8) == "127.0.0.1/8"
  {
    assert Decimal.FromNat(127) == "127" && Decimal.FromNat(0) == "0";
    assert Decimal.FromNat(1) == "1" && Decimal.FromNat(8) == "8";
    assert Text.Join(["127", "0", "0", "1"], '.') == "127.0.0.1";
  }

  /** The usable address of the samples, written out. */
  lemma EnpText()
    ensures CidrText([192, 168, 122, 241], 24) == "192.168.122.241/24"
  {
    EnpNumerals();
    assert Text.Join(["192", "168", "122", "241"], '.') == "192.168.122.241";
  }

  /** The numerals of `192.168.122.241/24`. */
  lemma EnpNumerals()
    ensures Decimal.FromNat(192) == "192" && Decimal.FromNat(168) == "168"
    ensures Decimal.FromNat(122) == "122" && Decimal.FromNat(241) == "241"
    ensures Decimal.FromNat(24) == "24"
  {
  }

  /** `127.0.0.1/8` reads as a loopback interface. */
  lemma LoopbackAddress()
    ensures ParseInterface("127.0.0.1/8") == Success(LoInterface)
    ensures !Usable(LoInterface)
  {
    LoopbackText();
    ReadCidr([127, 0, 0, 1], 8);
    assert !Usable(LoInterface) by {
      LoopbackKind();
    }
  }

  /** 127.0.0.1 is a loopback address. */
  lemma LoopbackKind()
    ensures IsLoopback(FromOctets([127, 0, 0, 1]))
  {
    assert FromOctets([127, 0, 0, 1]) == 127 * 0x100_0000 + 1;
  }

  /** `192.168.122.241/24` reads as a usable interface. */
  lemma EnpAddress()
    ensures ParseInterface("192.168.122.241/24") == Success(EnpInterface)
    ensures Usable(EnpInterface)
  {
    EnpText();
    EnpNumerals();
    ReadCidr([192, 168, 122, 241], 24);
    assert Usable(EnpInterface) by {
      EnpKind();
    }
  }

  /** 192.168.122.241 is neither loopback nor link-local. */
  lemma EnpKind()
    ensures !IsLoopback(FromOctets([192, 168, 122, 241]))
    ensures !IsLinkLocal(FromOctets([192, 168, 122, 241]))
  {
    assert FromOctets([192, 168, 122, 241]) == 192 * 0x100_0000 + 168 * 0x1_0000 + 122 * 0x100 + 241;
  }

  /** Line `r` of `rows` is an address line naming the NIC and the
      address text of entry `r` of `table`. */
  predicate NamesEntries(rows: seq<seq<string>>, table: seq<Addressed>) {
    |table| == |rows| && forall r :: 0 <= r < |rows| ==> NamesEntry(rows[r], table[r])
  }

  /** An address line naming the NIC and the address text of an entry. */
  predicate NamesEntry(row: seq<string>, e: Addressed) {
    |row| >= 4 && row[1] == e.nic && ParseInterface(row[3]) == Success(e.iface)
  }

  /** Every entry of every line is a word. */
  predicate AllWords(rows: seq<seq<string>>) {
    forall r, i :: 0 <= r < |rows| && 0 <= i < |rows[r]| ==> Text.IsWord(rows[r][i])
  }

  /** `rows` are address lines of words that read as `table`. */
  predicate ReadsAs(rows: seq<seq<string>>, table: seq<Addressed>) {
    |rows| >= 1 && NamesEntries(rows, table) && AllWords(rows)
  }

  /** The fields of the rendered text of address lines are the lines' NIC
      and address words, in order. */
  lemma RenderedFields(rows: seq<seq<string>>)
    requires |rows| >= 1 && AllWords(rows)
    requires forall r :: 0 <= r < |rows| ==> |rows[r]| >= 4
    ensures |AddressFields(Text.Tokenize(Text.Render(rows)))| == |rows|
    ensures forall r :: 0 <= r < |rows| ==>
              AddressFields(Text.Tokenize(Text.Render(rows)))[r] == Field(rows[r][1], rows[r][3])
  {
    Text.TokenizeRender(rows);
    AllAddressRows(rows);
  }

  /** Fields whose texts read as the interfaces of a table read as that
      table. */
  lemma ReadTable(fs: seq<Field>, table: seq<Addressed>)
    requires |fs| == |table|
    requires forall r :: 0 <= r < |fs| ==> fs[r].nic == table[r].nic && ParseInterface(fs[r].text) == Success(table[r].iface)
    ensures ParseFields(fs) == Success(table)
  {
    ParseFieldsSucceeds(fs);
    var p := ReadFields(fs, ParseInterface);
    assert ParseFields(fs) == p;
    var v := p.value;
    assert |v| == |fs|;
    forall r | 0 <= r < |fs| ensures v[r] == table[r] {
      assert ParseInterface(fs[r].text) == Success(v[r].iface);
    }
    assert v == table;
  }

  /** The table of the rendered text of such lines is that table. */
  lemma RenderedTable(rows: seq<seq<string>>, table: seq<Addressed>)
    requires ReadsAs(rows, table)
    ensures Table(CommandResult(0, Text.Render(rows), "")) == Success(table)
  {
    assert forall r :: 0 <= r < |rows| ==> NamesEntry(rows[r], table[r]);
    RenderedFields(rows);
    ReadTable(AddressFields(Text.Tokenize(Text.Render(rows))), table);
  }

  /** The interface `127.0.0.1/8`. */
  const LoInterface := Interface(FromOctets([127, 0, 0, 1]), 8, "8")

  /** The interface `192.168.122.241/24`. */
  const EnpInterface := Interface(FromOctets([192, 168, 122, 241]), 24, "24")

  /** Every entry of the loopback line is a word. */
  lemma LoopbackWords()
    ensures forall i :: 0 <= i < |LoopbackRow| ==> Text.IsWord(LoopbackRow[i])
  {
  }

  /** Every entry of the second line of `network_output_error` is a word. */
  lemma EnpWords()
    ensures forall i :: 0 <= i < |EnpRow| ==> Text.IsWord(EnpRow[i])
  {
  }

  /** The loopback line names `lo` and `127.0.0.1/8`. */
  lemma LoopbackEntry()
    ensures NamesEntry(LoopbackRow, Addressed("lo", LoInterface))
  {
    assert LoopbackRow[1] == "lo" && LoopbackRow[3] == "127.0.0.1/8";
    LoopbackAddress();
  }

  /** The second line of `network_output_error` names `enp1s0` and
      `192.168.122.241/24`. */
  lemma EnpEntry()
    ensures NamesEntry(EnpRow, Addressed("enp1s0", EnpInterface))
  {
    assert EnpRow[1] == "enp1s0" && EnpRow[3] == "192.168.122.241/24";
    EnpAddress();
  }

  /** The loopback line reads as `lo`'s `127.0.0.1/8`. */
  lemma LoopbackReads(rows: seq<seq<string>>)
    requires rows == [LoopbackRow]
    ensures ReadsAs(rows, [Addressed("lo", LoInterface)])
  {
    LoopbackEntry();
    LoopbackWords();
    assert rows[0] == LoopbackRow;
  }

  /** The lines of `network_output_error` read as `lo`'s `127.0.0.1/8` and
      `enp1s0`'s `192.168.122.241/24`. */
  lemma OneAddressReads(rows: seq<seq<string>>)
    requires rows == [LoopbackRow, EnpRow]
    ensures ReadsAs(rows, [Addressed("lo", LoInterface), Addressed("enp1s0", EnpInterface)])
  {
    var table := [Addressed("lo", LoInterface), Addressed("enp1s0", EnpInterface)];
    forall r | 0 <= r < 2 ensures NamesEntry(rows[r], table[r]) {
      if r == 0 {
        LoopbackEntry();
      } else {
        EnpEntry();
      }
    }
    forall r, i | 0 <= r < 2 && 0 <= i < |rows[r]| ensures Text.IsWord(rows[r][i]) {
      if r == 0 {
        LoopbackWords();
      } else {
        EnpWords();
      }
    }
  }

  /** `test_get_interfaces_info_no_address`: a loopback address alone is
      "No address configured". */
  lemma NoAddressSample()
    ensures Discover(Config(false, []), CommandResult(0, Text.Render([LoopbackRow]), "")) ==
              Failure(NoAddressConfigured)
  {
    LoopbackReads([LoopbackRow]);
    RenderedTable([LoopbackRow], [Addressed("lo", LoInterface)]);
    LoopbackAddress();
    SurvivorsCons(Addressed("lo", LoInterface), []);
  }

  /** `test_get_interfaces_info_one_addr`: a loopback and one usable address
      cannot give a second heartbeat. */
  lemma OneAddressSample()
    ensures Discover(Config(true, []), CommandResult(0, Text.Render([LoopbackRow, EnpRow]), "")) ==
              Failure(SecondHeartbeatUnavailable)
  {
    OneAddressReads([LoopbackRow, EnpRow]);
    RenderedTable([LoopbackRow, EnpRow], [Addressed("lo", LoInterface), Addressed("enp1s0", EnpInterface)]);
    LoopbackAddress();
    EnpAddress();
    var lo := Addressed("lo", LoInterface);
    var enp := Addressed("enp1s0", EnpInterface);
    SurvivorsCons(lo, [enp]);
    SurvivorsCons(enp, []);
    assert Survivors([lo, enp]) == [enp];
  }

  /** The four lines of `test_get_default_nic_list_from_route`. */
  const DefaultRoute: seq<string> := ["default", "via", "192.168.122.1", "dev", "eth8", "proto", "dhcp"]
  const Eth1Route: seq<string> :=
    ["10.10.10.0/24", "dev", "eth1", "proto", "kernel", "scope", "link", "src", "10.10.10.51"]
  const Eth2Route: seq<string> :=
    ["20.20.20.0/24", "dev", "eth2", "proto", "kernel", "scope", "link", "src", "20.20.20.51"]
  const Eth8Route: seq<string> :=
    ["192.168.122.0/24", "dev", "eth8", "proto", "kernel", "scope", "link", "src", "192.168.122.120"]

  lemma DefaultRouteWords()
    ensures forall i :: 0 <= i < |DefaultRoute| ==> Text.IsWord(DefaultRoute[i])
  {
  }

  lemma Eth1RouteWords()
    ensures forall i :: 0 <= i < |Eth1Route| ==> Text.IsWord(Eth1Route[i])
  {
  }

  lemma Eth2RouteWords()
    ensures forall i :: 0 <= i < |Eth2Route| ==> Text.IsWord(Eth2Route[i])
  {
  }

  lemma Eth8RouteWords()
    ensures forall i :: 0 <= i < |Eth8Route| ==> Text.IsWord(Eth8Route[i])
  {
  }

  /** The rendered route table reads back as its lines. */
  lemma RouteRows(rows: seq<seq<string>>)
    requires rows == [DefaultRoute, Eth1Route, Eth2Route, Eth8Route] || rows == [Eth1Route, Eth2Route]
    ensures forall r :: 0 <= r < |rows| ==> rows[r] != []
    ensures Text.Tokenize(Text.Render(rows)) == rows
  {
    forall r, i | 0 <= r < |rows| && 0 <= i < |rows[r]| ensures Text.IsWord(rows[r][i]) {
      if rows[r] == DefaultRoute {
        DefaultRouteWords();
      } else if rows[r] == Eth1Route {
        Eth1RouteWords();
      } else if rows[r] == Eth2Route {
        Eth2RouteWords();
      } else {
        assert rows[r] == Eth8Route;
        Eth8RouteWords();
      }
    }
    Text.TokenizeRender(rows);
  }

  /** `test_get_default_nic_list_from_route`: the `default via ... dev eth8`
      line, first of four, gives `eth8` without a warning, whatever the
      address dump holds. */
  lemma RouteSample(config: Config, addrCmd: CommandResult)
    ensures NicsFromRoute(config, addrCmd,
              CommandResult(0, Text.Render([DefaultRoute, Eth1Route, Eth2Route, Eth8Route]), "")) ==
            Success(NicChoice(["eth8"], None))
  {
    var rows := [DefaultRoute, Eth1Route, Eth2Route, Eth8Route];
    RouteRows(rows);
    DefaultLineNamesNic("192.168.122.1", "eth8", ["proto", "dhcp"]);
    assert ["default", "via", "192.168.122.1", "dev", "eth8"] + ["proto", "dhcp"] == DefaultRoute;
    assert RouteDefaultNic(rows) == Some("eth8");
  }

  /** `test_get_default_nic_list_from_route_no_default`: with no `default`
      line, the first discovered NIC is used and the warning given. */
  lemma NoDefaultRouteSample(config: Config, addrCmd: CommandResult, m: NicMap, rows: seq<seq<string>>)
    requires rows == [Eth1Route, Eth2Route]
    requires Discover(config, addrCmd) == Success(m)
    ensures m != [] && forall r :: 0 <= r < |rows| ==> rows[r] != []
    ensures NicsFromRoute(config, addrCmd, CommandResult(0, Text.Render(rows), "")) ==
            Success(NicChoice([Names(m)[0]], Some(NoDefaultRouteWarning)))
  {
    RouteRows(rows);
    NoDefaultRows(rows);
  }

  /** Neither line of the no-default table is a default route. */
  lemma NoDefaultRows(rows: seq<seq<string>>)
    requires rows == [Eth1Route, Eth2Route]
    ensures Text.Tokenize(Text.Render(rows)) == rows
    ensures RouteDefaultNic(rows).None?
  {
    RouteRows(rows);
    assert Eth1Route[0] != "default" && Eth2Route[0] != "default";
    assert DefaultRouteNic(rows[0]).None? && DefaultRouteNic(rows[1]).None?;
  }
}

=== FILE: errors.dfy ===
/** The failures the inventory code raises as `ValueError`, one constructor
    per distinct cause, with the message text the caller sees. */
module Errors {

  datatype Error =
    | CommandFailed(stderr: string)
      // a command exited non-zero; its standard error is the message
    | InvalidAddress(text: string)
      // `ipaddress` or the `addr/prefix` split rejected this text
    | NoAddressConfigured
    | SecondHeartbeatUnavailable
    | NicNotDetected(nic: string)

  const NoAddressMessage := "No address configured"
  const SecondHeartbeatMessage := "Cannot configure second heartbeat, since only one address is available"
  const NicNotDetectedPrefix := "Failed to detect IP address for "

  /** `str(err.exception)` for each failure. The wording `ipaddress` uses for
      a rejected address is not modelled: the message is the rejected text. */
  function Message(e: Error): (m: string)
    ensures e.NicNotDetected? ==> NicNotDetectedPrefix <= m
  {
    match e
    case CommandFailed(err) => err
    case InvalidAddress(text) => text
    case NoAddressConfigured => NoAddressMessage
    case SecondHeartbeatUnavailable => SecondHeartbeatMessage
    case NicNotDetected(nic) => NicNotDetectedPrefix + nic
  }

  /** The message of a missing-NIC failure names the NIC, and only that NIC. */
  lemma NicNotDetectedMessageNamesNic(a: string, b: string)
    ensures Message(NicNotDetected(a)) == Message(NicNotDetected(b)) <==> a == b
  {
    var n := |NicNotDetectedPrefix|;
    if Message(NicNotDetected(a)) == Message(NicNotDetected(b)) {
      assert a == Message(NicNotDetected(a))[n..];
      assert b == Message(NicNotDetected(b))[n..];
    }
  }
}

=== FILE: examples.dfy ===
/** The cases the unit tests of `crmsh/utils.py` check, stated about the
    model. */
module Examples {
  import opened Wrappers
  import opened Text
  import opened Decimal
  import opened Booleans
  import opened TimeUnits
  import opened NvPairs
  import opened OLists
  import opened Sanity
  import Seqs

  /** A text whose lower-case form is a false word. */
  lemma Falsy(s: string)
    requires Lower(s) in FalseWords
    ensures VerifyBoolean(s) && !IsBooleanTrue(s) && IsBooleanFalse(s) && !GetBoolean(s, true)
  {
    BooleanClasses(s);
    assert s != [];
  }

  /** A text whose lower-case form is no boolean word. */
  lemma NotBoolean(s: string)
    requires Lower(s) !in TrueWords + FalseWords
    ensures !VerifyBoolean(s) && !IsBooleanTrue(s) && !IsBooleanFalse(s) && !GetBoolean(s, false)
  {
  }

  /** A text lower-casing to a true word is a boolean, true, not false, and
      reads as true even with default false. */
  lemma TrueWord(s: string)
    requires Lower(s) in TrueWords
    ensures VerifyBoolean(s) && IsBooleanTrue(s) && !IsBooleanFalse(s) && GetBoolean(s, false)
  {
  }

  /** `test_booleans`, the truthy samples: each is a boolean, true, not
      false, and reads as true with default false. */
  lemma TruthySamples()
    ensures VerifyBoolean("yes") && IsBooleanTrue("yes") && !IsBooleanFalse("yes") && GetBoolean("yes", false)
    ensures VerifyBoolean("Yes") && IsBooleanTrue("Yes") && !IsBooleanFalse("Yes") && GetBoolean("Yes", false)
    ensures VerifyBoolean("True") && IsBooleanTrue("True") && !IsBooleanFalse("True") && GetBoolean("True", false)
    ensures VerifyBoolean("true") && IsBooleanTrue("true") && !IsBooleanFalse("true") && GetBoolean("true", false)
    ensures VerifyBoolean("TRUE") && IsBooleanTrue("TRUE") && !IsBooleanFalse("TRUE") && GetBoolean("TRUE", false)
    ensures VerifyBoolean("YES") && IsBooleanTrue("YES") && !IsBooleanFalse("YES") && GetBoolean("YES", false)
    ensures VerifyBoolean("on") && IsBooleanTrue("on") && !IsBooleanFalse("on") && GetBoolean("on", false)
    ensures VerifyBoolean("On") && IsBooleanTrue("On") && !IsBooleanFalse("On") && GetBoolean("On", false)
    ensures VerifyBoolean("ON") && IsBooleanTrue("ON") && !IsBooleanFalse("ON") && GetBoolean("ON", false)
  {
    assert Lower("yes") == "yes" && Lower("Yes") == "yes" && Lower("YES") == "yes";
    assert Lower("True") == "true" && Lower("true") == "true" && Lower("TRUE") == "true";
    assert Lower("on") == "on" && Lower("On") == "on" && Lower("ON") == "on";
    TrueWord("yes");
    TrueWord("Yes");
    TrueWord("True");
    TrueWord("true");
    TrueWord("TRUE");
    TrueWord("YES");
    TrueWord("on");
    TrueWord("On");
    TrueWord("ON");
  }

  /** `test_booleans`, the falsy samples: false, and not true whatever the
      default. */
  lemma FalsySamples()
    ensures IsBooleanFalse("no") && !IsBooleanTrue("no") && !GetBoolean("no", true)
    ensures IsBooleanFalse("false") && !IsBooleanTrue("false") && !GetBoolean("false", true)
    ensures IsBooleanFalse("off") && !IsBooleanTrue("off") && !GetBoolean("off", true)
    ensures IsBooleanFalse("OFF") && !IsBooleanTrue("OFF") && !GetBoolean("OFF", true)
    ensures IsBooleanFalse("FALSE") && !IsBooleanTrue("FALSE") && !GetBoolean("FALSE", true)
    ensures IsBooleanFalse("nO") && !IsBooleanTrue("nO") && !GetBoolean("nO", true)
  {
    assert Lower("no") == "no" && Lower("nO") == "no";
    assert Lower("false") == "false" && Lower("FALSE") == "false";
    assert Lower("off") == "off" && Lower("OFF") == "off";
    Falsy("no");
    Falsy("false");
    Falsy("off");
    Falsy("OFF");
    Falsy("FALSE");
    Falsy("nO");
  }

  /** `test_booleans`: the empty text is no boolean, and `get_boolean`
      gives the default. */
  lemma EmptyNotBoolean()
    ensures !VerifyBoolean("") && !IsBooleanTrue("") && !IsBooleanFalse("") && !GetBoolean("", false)
  {
    NotBoolean("");
  }

  /** `test_booleans`: near misses of the words are no booleans. */
  lemma NearMissesNotBoolean()
    ensures !VerifyBoolean("not") && !IsBooleanTrue("not") && !IsBooleanFalse("not") && !GetBoolean("not", false)
    ensures !VerifyBoolean("ONN") && !IsBooleanTrue("ONN") && !IsBooleanFalse("ONN") && !GetBoolean("ONN", false)
  {
    assert Lower("not") == "not";
    assert Lower("ONN") == "onn";
    NotBoolean("not");
    NotBoolean("ONN");
  }

  /** `test_booleans`: extended words are no booleans. */
  lemma ExtendedNotBoolean()
    ensures !VerifyBoolean("TRUETH") && !GetBoolean("TRUETH", false)
    ensures !VerifyBoolean("yess") && !GetBoolean("yess", false)
  {
    assert Lower("TRUETH") == "trueth";
    assert Lower("yess") == "yess";
    NotBoolean("TRUETH");
    NotBoolean("yess");
  }

  /** One of a unit, written `1<unit>`, is the unit's rate in
      milliseconds. */
  lemma MsecOfOne(unit: string, rate: Rate, t: string)
    requires forall i :: 0 <= i < |unit| ==> IsLetter(unit[i])
    requires IsLower(unit) && RateOf(unit) == Some(rate)
    requires t == "1" + unit
    ensures CrmMsec(t) == Some(rate.mult / rate.div)
  {
    LowerOfLower(unit);
    assert FromNat(1) == "1";
    MsecOfNumeral(1, unit);
  }

  /** `test_msec`: `1ms` is one millisecond. */
  lemma MsecMilli()
    ensures CrmMsec("1ms") == Some(1)
  {
    assert "1" + "ms" == "1ms";
    MsecOfOne("ms", Rate(1, 1), "1ms");
  }

  /** `test_msec`: `1us` rounds down to nothing. */
  lemma MsecMicro()
    ensures CrmMsec("1us") == Some(0)
  {
    assert "1" + "us" == "1us";
    MsecOfOne("us", Rate(1, 1000), "1us");
    assert 1 / 1000 == 0;
  }

  /** `test_msec`: a bare number is seconds. */
  lemma MsecBare()
    ensures CrmMsec("1") == Some(1000)
  {
    assert "1" + "" == "1";
    MsecOfOne("", Rate(1000, 1), "1");
  }

  /** `test_msec`: `1s` is a second. */
  lemma MsecSecond()
    ensures CrmMsec("1s") == Some(1000)
  {
    assert "1" + "s" == "1s";
    MsecOfOne("s", Rate(1000, 1), "1s");
  }

  /** `test_msec`: `1m` is a minute. */
  lemma MsecMinute()
    ensures CrmMsec("1m") == Some(60000)
  {
    assert "1" + "m" == "1m";
    MsecOfOne("m", Rate(60000, 1), "1m");
  }

  /** `test_msec`: `1h` is an hour. */
  lemma MsecHour()
    ensures CrmMsec("1h") == Some(3600000)
  {
    assert "1" + "h" == "1h";
    MsecOfOne("h", Rate(3600000, 1), "1h");
  }

  /** Mapping over one or two elements. */
  lemma MapShort<A, B>(a: A, b: A, f: A -> B)
    ensures Seqs.Map([a], f) == [f(a)]
    ensures Seqs.Map([a, b], f) == [f(a), f(b)]
  {
  }

  /** A dictionary built from one or two pairs. */
  lemma DictOfShort(p: Pair, q: Pair)
    ensures DictOf([p]) == map[p.name := p.value]
    ensures DictOf([p, q]) == map[p.name := p.value][q.name := q.value]
  {
    assert [p][..0] == [];
    assert [p, q][..1] == [p];
  }

  /** `test_nvpairs2dict`: two plain pairs. */
  lemma NvPairsPlain()
    ensures NvPairsToDict(["a=b", "c=d"]) == map["a" := Some("b"), "c" := Some("d")]
  {
    SplitPairOfJoined("a", "b");
    SplitPairOfJoined("c", "d");
    assert "a" + "=" + "b" == "a=b" && "c" + "=" + "d" == "c=d";
    MapShort("a=b", "c=d", SplitPair);
    DictOfShort(Pair("a", Some("b")), Pair("c", Some("d")));
  }

  /** `test_nvpairs2dict`: a value holding `=` is kept whole. */
  lemma NvPairsValueWithEquals()
    ensures NvPairsToDict(["a=b=c", "c=d"]) == map["a" := Some("b=c"), "c" := Some("d")]
  {
    SplitPairOfJoined("a", "b=c");
    SplitPairOfJoined("c", "d");
    assert "a" + "=" + "b=c" == "a=b=c" && "c" + "=" + "d" == "c=d";
    MapShort("a=b=c", "c=d", SplitPair);
    DictOfShort(Pair("a", Some("b=c")), Pair("c", Some("d")));
  }

  /** `test_nvpairs2dict`: a name without `=` maps to `None`. */
  lemma NvPairsBareName()
    ensures NvPairsToDict(["a"]) == map["a" := None]
  {
    assert '=' !in "a";
    MapShort("a", "a", SplitPair);
    DictOfShort(Pair("a", None), Pair("a", None));
  }

  /** `test_olist`: entries are stored lower-cased in order, and membership
      ignores case. */
  lemma OListSample()
    ensures Append(Append(Append(Make(["B", "C", "A"]), "f"), "aA"), "_").items ==
              ["b", "c", "a", "f", "aa", "_"]
    ensures Contains(Append(Append(Append(Make(["B", "C", "A"]), "f"), "aA"), "_"), "aa")
    ensures Contains(Append(Append(Append(Make(["B", "C", "A"]), "f"), "aA"), "_"), "a")
  {
    var keys := ["B", "C", "A"];
    MakeItems(keys);
    assert Lower("B") == "b" && Lower("C") == "c" && Lower("A") == "a";
    assert Make(keys).items == ["b", "c", "a"];
    assert Lower("f") == "f" && Lower("aA") == "aa" && Lower("_") == "_";
    assert Lower("aa") == "aa" && Lower("a") == "a";
  }

  /** `test_sanity`: sane paths, with and without slashes and digits. */
  lemma SanePaths()
    ensures IsPathSane("foo/bar") && IsPathSane("foo") && IsPathSane("/foo/bar")
    ensures IsPathSane("foo0") && IsPathSane("0foo")
  {
  }

  /** `test_sanity`: sane paths with `_` or `-`. */
  lemma SanePunctuatedPaths()
    ensures IsPathSane("foo_bar") && IsPathSane("foo-bar")
  {
  }

  /** `test_sanity`: sane paths with a dot. */
  lemma SaneDottedPaths()
    ensures IsPathSane(".foo") && IsPathSane("foo.bar")
  {
  }

  /** `test_sanity`: paths with a refused character. */
  lemma InsanePaths()
    ensures !IsPathSane("#foo") && !IsPathSane("foo?") && !IsPathSane("foo*")
    ensures !IsPathSane("foo$") && !IsPathSane("foo`")
  {
  }

  /** `test_sanity`: paths with a refused bracket, quote or star after a
      slash. */
  lemma InsaneBracketedPaths()
    ensures !IsPathSane("foo[bar]") && !IsPathSane("foo'") && !IsPathSane("foo/*")
  {
  }

  /** `test_sanity`: a file name may start with a dot or a digit, but
      holds no `/`. */
  lemma FileNameSamples()
    ensures IsFilenameSane("foo") && IsFilenameSane("0foo")
    ensures IsFilenameSane("0") && IsFilenameSane(".foo")
    ensures !IsFilenameSane("foo/bar")
  {
    assert "foo/bar"[3] == '/';
  }

  /** `test_sanity`: names. */
  lemma NameSamples()
    ensures IsNameSane("foo") && !IsNameSane("f'o")
  {
  }

  /** `test_validity`. */
  lemma IdSamples()
    ensures IsIdValid("foo0") && !IsIdValid("0foo")
    ensures IsIdValid("foo\n") && !IsIdValid("foo\n\n")
  {
    assert IdUpTo("foo0", 4);
    assert IdUpTo("foo\n", 3);
    assert !IdUpTo("foo\n\n", 5) && !IdUpTo("foo\n\n", 4) by {
      assert !IsIdChar("foo\n\n"[3]);
    }
  }
}

=== FILE: inventory.dfy ===
/** The NIC map of `InterfacesInfo` (`_nic_info_dict`: NIC name to the
    ordered list of its `Interface`s, in discovery order) and the views
    derived from it: `nic_list`, `interface_list`, `ip_list`,
    `network_list` and `_nic_first_ip`. */
module Inventory {
  import opened Wrappers
  import opened Seqs
  import IPv4
  import opened Cidr

  /** One discovered address with the NIC it was listed under. */
  datatype Addressed = Addressed(nic: string, iface: Interface)

  /** One dictionary item: a NIC and its interfaces in discovery order. */
  datatype NicEntry = NicEntry(name: string, interfaces: seq<Interface>)

  /** The dictionary as its items in insertion order. */
  type NicMap = seq<NicEntry>

  /** `nic_list`: the dictionary's keys in insertion order. */
  function Names(m: NicMap): (r: seq<string>)
    ensures |r| == |m|
    ensures forall k :: 0 <= k < |m| ==> r[k] == m[k].name
  {
    if m == [] then [] else [m[0].name] + Names(m[1..])
  }

  /** What a dictionary built by the discovery loop looks like: each NIC
      once, and only NICs with at least one interface. */
  predicate WellFormed(m: NicMap) {
    NoDuplicates(Names(m)) && forall k :: 0 <= k < |m| ==> m[k].interfaces != []
  }

  /** `_nic_info_dict.get(nic, [])`. */
  function InterfacesOf(m: NicMap, nic: string): seq<Interface> {
    if m == [] then []
    else if m[0].name == nic then m[0].interfaces
    else InterfacesOf(m[1..], nic)
  }

  /** Total number of interfaces over all NICs. */
  function Count(m: NicMap): nat {
    if m == [] then 0 else |m[0].interfaces| + Count(m[1..])
  }

  /** `interface_list`: the interfaces of every NIC, NIC by NIC; its length
      is the sum of the per-NIC list lengths, and it holds exactly the
      interfaces some NIC holds. */
  function InterfaceList(m: NicMap): (r: seq<Interface>)
    ensures |r| == Count(m)
    ensures forall i :: i in r <==> exists k :: 0 <= k < |m| && i in m[k].interfaces
  {
    if m == [] then []
    else
      var rest := InterfaceList(m[1..]);
      assert forall i :: (exists k :: 0 <= k < |m| && i in m[k].interfaces) <==>
                         i in m[0].interfaces || exists k :: 0 <= k < |m[1..]| && i in m[1..][k].interfaces by {
        forall i | exists k :: 0 <= k < |m| && i in m[k].interfaces
          ensures i in m[0].interfaces || exists k :: 0 <= k < |m[1..]| && i in m[1..][k].interfaces
        {
          var k :| 0 <= k < |m| && i in m[k].interfaces;
          if k > 0 {
            assert m[1..][k - 1] == m[k];
          }
        }
      }
      m[0].interfaces + rest
  }

  /** A single NIC contributes exactly its own list. */
  lemma InterfaceListOne(e: NicEntry)
    ensures InterfaceList([e]) == e.interfaces
  {
    assert [e][1..] == [];
  }

  /** Flattening keeps NIC order: the interfaces of two stretches of the map
      are those of the first followed by those of the second. */
  lemma {:induction false} InterfaceListAppend(a: NicMap, b: NicMap)
    ensures InterfaceList(a + b) == InterfaceList(a) + InterfaceList(b)
    decreases |a|
  {
    if a == [] {
      assert a + b == b;
    } else {
      assert (a + b)[0] == a[0] && (a + b)[1..] == a[1..] + b;
      InterfaceListAppend(a[1..], b);
      var x, y := InterfaceList(a[1..]), InterfaceList(b);
      assert InterfaceList(a + b) == a[0].interfaces + (x + y);
      assert a[0].interfaces + (x + y) == (a[0].interfaces + x) + y;
    }
  }

  /** The loop body of discovery: create the NIC's list on first sight,
      then append the interface to it. */
  function Insert(m: NicMap, nic: string, i: Interface): NicMap {
    if m == [] then [NicEntry(nic, [i])]
    else if m[0].name == nic then [NicEntry(nic, m[0].interfaces + [i])] + m[1..]
    else [m[0]] + Insert(m[1..], nic, i)
  }

  /** A new NIC goes to the end of the keys; a known one keeps its place. */
  lemma {:induction false} InsertNames(m: NicMap, nic: string, i: Interface)
    ensures Names(Insert(m, nic, i)) == if nic in Names(m) then Names(m) else Names(m) + [nic]
  {
    if m != [] {
      var r := Insert(m, nic, i);
      assert Names(m) == [m[0].name] + Names(m[1..]);
      if m[0].name == nic {
        assert r[1..] == m[1..];
      } else {
        assert r[1..] == Insert(m[1..], nic, i);
        InsertNames(m[1..], nic, i);
      }
    }
  }

  /** Exactly one NIC's list grows, by exactly this interface at its end. */
  lemma {:induction false} InsertInterfacesOf(m: NicMap, nic: string, i: Interface, n: string)
    ensures InterfacesOf(Insert(m, nic, i), n) == InterfacesOf(m, n) + (if n == nic then [i] else [])
  {
    if m != [] {
      var r := Insert(m, nic, i);
      if m[0].name == nic {
        assert r[1..] == m[1..];
      } else {
        assert r[1..] == Insert(m[1..], nic, i);
        InsertInterfacesOf(m[1..], nic, i, n);
      }
    }
  }

  /** No interface is gained or lost other than the inserted one. */
  lemma {:induction false} InsertInterfaceList(m: NicMap, nic: string, i: Interface)
    ensures multiset(InterfaceList(Insert(m, nic, i))) == multiset(InterfaceList(m)) + multiset{i}
  {
    if m != [] {
      var r := Insert(m, nic, i);
      if m[0].name == nic {
        assert r[1..] == m[1..];
        assert InterfaceList(r) == m[0].interfaces + [i] + InterfaceList(m[1..]);
      } else {
        assert r[1..] == Insert(m[1..], nic, i);
        assert InterfaceList(r) == m[0].interfaces + InterfaceList(r[1..]);
        InsertInterfaceList(m[1..], nic, i);
      }
    }
  }

  /** Inserting never leaves a NIC with an empty list. */
  lemma {:induction false} InsertNonEmpty(m: NicMap, nic: string, i: Interface)
    requires forall k :: 0 <= k < |m| ==> m[k].interfaces != []
    ensures forall k :: 0 <= k < |Insert(m, nic, i)| ==> Insert(m, nic, i)[k].interfaces != []
  {
    if m != [] && m[0].name != nic {
      var r := Insert(m, nic, i);
      assert r[1..] == Insert(m[1..], nic, i);
      InsertNonEmpty(m[1..], nic, i);
      assert forall k :: 1 <= k < |r| ==> r[k] == r[1..][k - 1];
    }
  }

  /** The NICs of a discovery sequence, in order. */
  function NicsOf(es: seq<Addressed>): (r: seq<string>)
    ensures |r| == |es|
    ensures forall j :: 0 <= j < |es| ==> r[j] == es[j].nic
  {
    seq(|es|, j requires 0 <= j < |es| => es[j].nic)
  }

  /** The interfaces of a discovery sequence, in order. */
  function IfacesOf(es: seq<Addressed>): (r: seq<Interface>)
    ensures |r| == |es|
    ensures forall j :: 0 <= j < |es| ==> r[j] == es[j].iface
  {
    seq(|es|, j requires 0 <= j < |es| => es[j].iface)
  }

  lemma NicsOfSnoc(p: seq<Addressed>, e: Addressed)
    ensures NicsOf(p + [e]) == NicsOf(p) + [e.nic]
  {
    var a := NicsOf(p + [e]);
    var b := NicsOf(p) + [e.nic];
    assert |a| == |b|;
    forall j | 0 <= j < |a|
      ensures a[j] == b[j]
    {
      if j < |p| {
        assert (p + [e])[j] == p[j];
      }
    }
  }

  lemma IfacesOfSnoc(p: seq<Addressed>, e: Addressed)
    ensures IfacesOf(p + [e]) == IfacesOf(p) + [e.iface]
  {
    var a := IfacesOf(p + [e]);
    var b := IfacesOf(p) + [e.iface];
    assert |a| == |b|;
    forall j | 0 <= j < |a|
      ensures a[j] == b[j]
    {
      if j < |p| {
        assert (p + [e])[j] == p[j];
      }
    }
  }

  /** The interfaces listed under `nic`, in discovery order: the reference
      meaning of one dictionary entry. */
  function Select(es: seq<Addressed>, nic: string): seq<Interface>
    decreases |es|
  {
    if es == [] then []
    else
      var e := es[|es| - 1];
      Select(es[..|es| - 1], nic) + (if e.nic == nic then [e.iface] else [])
  }

  /** The dictionary the discovery loop builds from a sequence of
      addresses, one insertion per address in order. */
  function Group(es: seq<Addressed>): NicMap
    decreases |es|
  {
    if es == [] then [] else Insert(Group(es[..|es| - 1]), es[|es| - 1].nic, es[|es| - 1].iface)
  }

  /** The keys of the grouped dictionary are the NICs in order of first
      appearance. */
  lemma {:induction false} GroupNames(es: seq<Addressed>)
    ensures Names(Group(es)) == Dedup(NicsOf(es))
    decreases |es|
  {
    if es != [] {
      var p := es[..|es| - 1];
      var e := es[|es| - 1];
      assert es == p + [e];
      NicsOfSnoc(p, e);
      assert NicsOf(es)[..|es| - 1] == NicsOf(p);
      GroupNames(p);
      InsertNames(Group(p), e.nic, e.iface);
    }
  }

  /** The grouped dictionary is well formed. */
  lemma {:induction false} GroupWellFormed(es: seq<Addressed>)
    ensures WellFormed(Group(es))
    decreases |es|
  {
    if es != [] {
      var p := es[..|es| - 1];
      var e := es[|es| - 1];
      var g := Group(p);
      GroupWellFormed(p);
      InsertNames(g, e.nic, e.iface);
      InsertNonEmpty(g, e.nic, e.iface);
    }
  }

  /** Every NIC's list is exactly the addresses listed under it, in order. */
  lemma {:induction false} GroupInterfacesOf(es: seq<Addressed>, n: string)
    ensures InterfacesOf(Group(es), n) == Select(es, n)
    decreases |es|
  {
    if es != [] {
      var p := es[..|es| - 1];
      var e := es[|es| - 1];
      GroupInterfacesOf(p, n);
      InsertInterfacesOf(Group(p), e.nic, e.iface, n);
    }
  }

  /** No address is gained or lost by grouping. */
  lemma {:induction false} GroupInterfaceList(es: seq<Addressed>)
    ensures multiset(InterfaceList(Group(es))) == multiset(IfacesOf(es))
    decreases |es|
  {
    if es != [] {
      var p := es[..|es| - 1];
      var e := es[|es| - 1];
      assert es == p + [e];
      IfacesOfSnoc(p, e);
      GroupInterfaceList(p);
      InsertInterfaceList(Group(p), e.nic, e.iface);
    }
  }

  /** The grouped dictionary holds exactly the interfaces of the sequence,
      and has a key as soon as the sequence is not empty. */
  lemma GroupMembers(es: seq<Addressed>)
    ensures forall i :: i in InterfaceList(Group(es)) ==> exists e :: e in es && e.iface == i
    ensures forall e :: e in es ==> e.iface in InterfaceList(Group(es))
    ensures es != [] ==> Group(es) != []
    ensures |InterfaceList(Group(es))| == |es|
  {
    var m := Group(es);
    var l := InterfaceList(m);
    GroupInterfaceList(es);
    assert multiset(l) == multiset(IfacesOf(es));
    assert |l| == |multiset(l)|;
    forall i | i in l
      ensures exists e :: e in es && e.iface == i
    {
      assert i in multiset(IfacesOf(es));
      var j :| 0 <= j < |es| && IfacesOf(es)[j] == i;
      assert es[j] in es;
    }
    forall e | e in es
      ensures e.iface in l
    {
      var j :| 0 <= j < |es| && es[j] == e;
      assert IfacesOf(es)[j] == e.iface;
      assert e.iface in multiset(IfacesOf(es));
    }
    if es != [] {
      assert es[0].iface in l;
    }
  }

  /** Every interface the map files under a NIC is in `interface_list`. */
  lemma {:induction false} InterfacesOfInList(m: NicMap, nic: string, i: Interface)
    requires i in InterfacesOf(m, nic)
    ensures i in InterfaceList(m)
  {
    if m[0].name != nic {
      InterfacesOfInList(m[1..], nic, i);
    }
  }

  /** In a well-formed map a NIC has interfaces exactly when it is a key. */
  lemma {:induction false} InterfacesOfPresent(m: NicMap, nic: string)
    requires WellFormed(m)
    ensures InterfacesOf(m, nic) != [] <==> nic in Names(m)
  {
    if m != [] {
      assert Names(m) == [m[0].name] + Names(m[1..]);
      assert WellFormed(m[1..]) by {
        assert Names(m[1..]) == Names(m)[1..];
      }
      InterfacesOfPresent(m[1..], nic);
    }
  }

  /** `ip_list`: the address text of every interface of `interface_list`,
      in the same order; each entry reads back as that interface's address. */
  function IpList(m: NicMap): (r: seq<string>)
    ensures |r| == |InterfaceList(m)|
    ensures forall k :: 0 <= k < |r| ==> IPv4.Parse(r[k]) == Some(InterfaceList(m)[k].ip)
  {
    var l := InterfaceList(m);
    forall k | 0 <= k < |l| ensures IPv4.Parse(IpText(l[k])) == Some(l[k].ip) {
      IPv4.ParseFormat(l[k].ip);
    }
    seq(|l|, k requires 0 <= k < |l| => IpText(l[k]))
  }

  /** The distinct network addresses of `interface_list`. */
  function NetworkAddrs(m: NicMap): seq<IPv4.Addr> {
    Dedup(Map(InterfaceList(m), Network))
  }

  /** `network_list`: the text of every interface's network, once each.
      Python builds it through a `set`, so only membership and the absence
      of duplicates are promised, not the order. */
  function NetworkList(m: NicMap): (r: seq<string>)
    ensures NoDuplicates(r)
  {
    var a := NetworkAddrs(m);
    forall i, j | 0 <= i < j < |a| ensures IPv4.Format(a[i]) != IPv4.Format(a[j]) {
      IPv4.ParseFormat(a[i]);
      IPv4.ParseFormat(a[j]);
    }
    Map(a, IPv4.Format)
  }

  /** Every interface's network is listed. */
  lemma NetworkListCovers(m: NicMap)
    ensures forall i :: i in InterfaceList(m) ==> NetworkText(i) in NetworkList(m)
  {
    var l := InterfaceList(m);
    var a := NetworkAddrs(m);
    DedupMap(l, Network);
    forall i | i in l ensures NetworkText(i) in NetworkList(m) {
      var j :| 0 <= j < |l| && l[j] == i;
      var k :| 0 <= k < |a| && a[k] == Network(i);
      assert NetworkList(m)[k] == NetworkText(i);
    }
  }

  /** `t` is the network text of some interface of the map. */
  predicate IsNetworkOf(m: NicMap, t: string) {
    exists i :: i in InterfaceList(m) && t == NetworkText(i)
  }

  /** Only networks of the map's interfaces are listed. */
  lemma NetworkListOnly(m: NicMap)
    ensures forall k :: 0 <= k < |NetworkList(m)| ==> IsNetworkOf(m, NetworkList(m)[k])
  {
    var l := InterfaceList(m);
    var a := NetworkAddrs(m);
    var r := NetworkList(m);
    DedupMap(l, Network);
    forall k | 0 <= k < |r| ensures IsNetworkOf(m, r[k]) {
      var j :| 0 <= j < |l| && a[k] == Network(l[j]);
      assert r[k] == IPv4.Format(a[k]);
      assert l[j] in l;
    }
  }

  /** `_nic_first_ip(nic)`: the address of the first interface filed under
      the NIC; None where Python raises `KeyError` or `IndexError`. */
  function NicFirstIp(m: NicMap, nic: string): (r: Option<string>)
    ensures r.Some? <==> InterfacesOf(m, nic) != []
  {
    var l := InterfacesOf(m, nic);
    if l == [] then None else Some(IpText(l[0]))
  }

  /** For a NIC of a well-formed map the first address exists, is the
      first interface's address, and is one of `ip_list`. */
  lemma FirstIpIsListed(m: NicMap, nic: string)
    requires WellFormed(m) && nic in Names(m)
    ensures NicFirstIp(m, nic).Some?
    ensures IPv4.Parse(NicFirstIp(m, nic).value) == Some(InterfacesOf(m, nic)[0].ip)
    ensures NicFirstIp(m, nic).value in IpList(m)
  {
    InterfacesOfPresent(m, nic);
    var i := InterfacesOf(m, nic)[0];
    InterfacesOfInList(m, nic, i);
    var l := InterfaceList(m);
    var k :| 0 <= k < |l| && l[k] == i;
    assert IpList(m)[k] == IpText(i);
    IPv4.ParseFormat(i.ip);
  }
}

=== FILE: inventory_examples.dfy ===
/** The cases the unit tests of `IP`, `Interface`, `InterfacesInfo` and
    `interface_choice` check, stated about the model. */
module InventoryExamples {
  import opened Wrappers
  import Text
  import Decimal
  import opened IPv4
  import opened Cidr
  import opened Errors
  import opened Inventory
  import opened Discovery
  import opened Selection
  import IpLink

  /** A number below 256 written in decimal reads back as an octet. */
  lemma OctetText(n: nat, s: string)
    requires n < 256 && s == Decimal.FromNat(n)
    ensures ParseOctet(s) == Some(n)
  {
    ParseOctetIff(s, n);
  }

  /** `test_is_valid_ip`: `10.10.10.1` is an address. */
  lemma ValidIpSample()
    ensures Parse("10.10.10.1") == Some(FromOctets([10, 10, 10, 1]))
    ensures IsValidIp("10.10.10.1")
  {
    assert Decimal.FromNat(10) == "10";
    assert Decimal.FromNat(1) == "1";
    OctetText(10, "10");
    OctetText(1, "1");
    Text.SplitJoin(["10", "10", "10", "1"], '.');
    assert Text.Join(["10", "10", "10", "1"], '.') == "10.10.10.1";
  }

  /** `test_interface_list` and `test_nic_first_ip`: two NICs holding two
      and one interfaces give three interfaces, listed NIC by NIC, and the
      first address of `eth0` is that of its first interface. */
  lemma NicMapSample(a: Interface, b: Interface, c: Interface)
    ensures |InterfaceList([NicEntry("eth0", [a, b]), NicEntry("eth1", [c])])| == 3
    ensures InterfaceList([NicEntry("eth0", [a, b]), NicEntry("eth1", [c])]) == [a, b, c]
    ensures NicFirstIp([NicEntry("eth0", [a, b]), NicEntry("eth1", [c])], "eth0") == Some(IpText(a))
  {
    var m := [NicEntry("eth0", [a, b]), NicEntry("eth1", [c])];
    assert m[1..] == [NicEntry("eth1", [c])];
    assert m[1..][1..] == [];
    assert InterfaceList(m[1..]) == [c] + InterfaceList([]);
    assert InterfaceList(m) == [a, b] + [c];
    assert [a, b] + [c] == [a, b, c];
  }

  /** `ip_list` of the same map: the three interfaces' addresses, NIC by
      NIC. */
  lemma IpListSample(m: NicMap, a: Interface, b: Interface, c: Interface)
    requires m == [NicEntry("eth0", [a, b]), NicEntry("eth1", [c])]
    ensures IpList(m) == [IpText(a), IpText(b), IpText(c)]
  {
    NicMapSample(a, b, c);
    var l := IpList(m);
    assert |l| == 3;
    ParseIff(l[0], a.ip);
    ParseIff(l[1], b.ip);
    ParseIff(l[2], c.ip);
  }

  /** `test_network`: the network of `10.10.10.123/24` is `10.10.10.0`. */
  lemma NetworkSample()
    ensures NetworkText(Interface(FromOctets([10, 10, 10, 123]), 24, "24")) == "10.10.10.0"
  {
    var i := Interface(FromOctets([10, 10, 10, 123]), 24, "24");
    assert BlockSize(24) == 256 by {
      assert Pow2(8) == 256;
    }
    assert Network(i) == FromOctets([10, 10, 10, 0]);
    OctetsRoundTrip(0, [10, 10, 10, 0]);
    assert Decimal.FromNat(10) == "10";
    assert Decimal.FromNat(0) == "0";
    assert Text.Join(["10", "10", "10", "0"], '.') == "10.10.10.0";
  }

  /** `test_get_default_ip_list`: with the override `eth1` and a second
      heartbeat, `eth1`'s first address comes first, then that of the other
      detected NIC `eth0`, whatever those addresses are. */
  lemma OverrideWithSecondHeartbeat(first: string -> Option<string>)
    requires first("eth0").Some? && first("eth1").Some?
    ensures Pick(true, ["eth0", "eth1"], ["eth1"], first) ==
              Success([first("eth1").value, first("eth0").value])
  {
    var known := ["eth0", "eth1"];
    var nics := ["eth1"];
    assert known[1] == "eth1" && known[0] !in nics;
    assert OtherNic(known, nics) == Some("eth0");
    PickSpec(true, known, nics, first);
    var r := Pick(true, known, nics, first).value;
    assert |r| == 2 && r[0] == first("eth1").value && r[1] == first("eth0").value;
    assert r == [first("eth1").value, first("eth0").value];
    assert Pick(true, known, nics, first) == Success(r);
  }

  /** `test_get_default_ip_list_failed_detect`: an override NIC that was not
      detected fails, and the message names it. */
  lemma OverrideNotDetected(first: string -> Option<string>)
    requires first("eth0").Some? && first("eth1").Some?
    ensures Pick(false, ["eth0", "eth1"], ["eth7"], first) == Failure(NicNotDetected("eth7"))
    ensures Message(NicNotDetected("eth7")) == "Failed to detect IP address for eth7"
  {
    var known := ["eth0", "eth1"];
    assert forall n :: n in known ==> first(n).Some?;
    assert "eth7" !in known;
  }

  /** `test_get_default_ip_list` on the whole operation: whenever discovery
      finds exactly `eth0` and `eth1`, the override `eth1` with a second
      heartbeat gives `eth1`'s first address, then `eth0`'s, whatever the
      route table says. */
  lemma DefaultListWithSecondHeartbeat(addrCmd: CommandResult, routeCmd: CommandResult)
    requires Discover(Config(true, ["eth1"]), addrCmd).Success?
    requires Names(Discover(Config(true, ["eth1"]), addrCmd).value) == ["eth0", "eth1"]
    ensures var m := Discover(Config(true, ["eth1"]), addrCmd).value;
            var r := DefaultIpList(Config(true, ["eth1"]), addrCmd, routeCmd);
            r.Success? && |r.value| == 2 && IsFirstIpOf(m, "eth1", r.value[0]) && IsFirstIpOf(m, "eth0", r.value[1])
  {
    var config := Config(true, ["eth1"]);
    var known := ["eth0", "eth1"];
    assert known[1] == "eth1" && known[0] !in config.customNics;
    assert OtherNic(known, config.customNics) == Some("eth0");
    assert DefaultNics(config, addrCmd, routeCmd) == Success(["eth1"]);
  }

  /** `test_get_default_ip_list_failed_detect` on the whole operation:
      whenever discovery finds exactly `eth0` and `eth1`, the override
      `eth7` fails, and the message names it. */
  lemma DefaultListNotDetected(addrCmd: CommandResult, routeCmd: CommandResult)
    requires Discover(Config(false, ["eth7"]), addrCmd).Success?
    requires Names(Discover(Config(false, ["eth7"]), addrCmd).value) == ["eth0", "eth1"]
    ensures DefaultIpList(Config(false, ["eth7"]), addrCmd, routeCmd) == Failure(NicNotDetected("eth7"))
    ensures Message(DefaultIpList(Config(false, ["eth7"]), addrCmd, routeCmd).error) ==
              "Failed to detect IP address for eth7"
  {
    var config := Config(false, ["eth7"]);
    var r := DefaultIpList(config, addrCmd, routeCmd);
    assert r == Failure(NicNotDetected("eth7")) by {
      var m := Discover(config, addrCmd).value;
      assert DefaultNics(config, addrCmd, routeCmd) == Success(["eth7"]);
      assert Resolution(config, m, ["eth7"], r);
      assert "eth7" !in Names(m);
      var k :| FirstMissingAt(Names(m), ["eth7"], k) && r.error == NicNotDetected(["eth7"][k]);
      assert k == 0;
    }
    Eth7Message();
  }

  /** The message for the undetected `eth7`. */
  lemma Eth7Message()
    ensures Message(NicNotDetected("eth7")) == "Failed to detect IP address for eth7"
  {
  }

  /** No line holds a newline, so the lines can be joined with newlines
      and split back. */
  predicate Unbroken(lines: seq<string>) {
    forall j :: 0 <= j < |lines| ==> '\n' !in lines[j]
  }

  lemma UnbrokenAppend(a: seq<string>, b: seq<string>)
    requires Unbroken(a) && Unbroken(b)
    ensures Unbroken(a + b)
  {
    assert forall j :: |a| <= j < |a + b| ==> (a + b)[j] == b[j - |a|];
  }

  /** Four blocks of one link each, between an empty first line and an
      empty last line, yield the four names in order. */
  lemma FourBlocks(b1: seq<string>, b2: seq<string>, b3: seq<string>, b4: seq<string>,
                   n1: string, n2: string, n3: string, n4: string)
    requires IpLink.LinkNames(b1) == [n1] && IpLink.LinkNames(b2) == [n2]
    requires IpLink.LinkNames(b3) == [n3] && IpLink.LinkNames(b4) == [n4]
    ensures IpLink.LinkNames([""] + b1 + b2 + b3 + b4 + [""]) == [n1, n2, n3, n4]
  {
    IpLink.NotHeader("");
    assert IpLink.LinkNames([""]) == [];
    IpLink.LinkNamesAppend([""], b1);
    IpLink.LinkNamesAppend([""] + b1, b2);
    IpLink.LinkNamesAppend([""] + b1 + b2, b3);
    IpLink.LinkNamesAppend([""] + b1 + b2 + b3, b4);
    IpLink.LinkNamesAppend([""] + b1 + b2 + b3 + b4, [""]);
  }

  /** `test_interface_choice`: a paired link's header yields the name
      before `@`. */
  lemma PairedLinkHeader()
    ensures IpLink.HeaderName("4: " + IpLink.LinkText("veth3fff6e9", Some("if7"), "<BROADCAST,MULTICAST,UP,LOWER_UP>")) ==
              Some("veth3fff6e9")
  {
    assert Decimal.FromNat(4) == "4";
    IpLink.HeaderNameOfLine(4, "veth3fff6e9", Some("if7"), "<BROADCAST,MULTICAST,UP,LOWER_UP>");
    assert "4" + ": " == "4: ";
  }

  /** One link block of `ip a`: the header `<index>: <name>[@<peer>]: <flags>`
      and the indented detail lines under it. */
  function LinkBlock(index: nat, name: string, peer: Option<string>, flags: string, details: seq<string>): seq<string> {
    [Decimal.FromNat(index) + ": " + IpLink.LinkText(name, peer, flags)] + details
  }

  /** A link name with no `@`, colon or newline in it. */
  predicate PlainName(n: string) {
    '@' !in n && ':' !in n && '\n' !in n
  }

  /** Detail lines are indented (or empty), and no line holds a newline. */
  predicate IndentedLines(flags: string, details: seq<string>) {
    '\n' !in flags &&
    forall j :: 0 <= j < |details| ==> '\n' !in details[j] && (details[j] == [] || details[j][0] == ' ')
  }

  /** A block yields its link's name, and none of its lines holds a
      newline. */
  lemma LinkBlockName(index: nat, name: string, peer: Option<string>, flags: string, details: seq<string>)
    requires PlainName(name)
    requires peer.Some? ==> '\n' !in peer.value
    requires IndentedLines(flags, details)
    ensures IpLink.LinkNames(LinkBlock(index, name, peer, flags, details)) == [name]
    ensures Unbroken(LinkBlock(index, name, peer, flags, details))
  {
    var header := Decimal.FromNat(index) + ": " + IpLink.LinkText(name, peer, flags);
    IpLink.HeaderNameOfLine(index, name, peer, flags);
    IpLink.BlockNames(header, name, details);
    assert '\n' !in Decimal.FromNat(index) by {
      var d := Decimal.FromNat(index);
      assert forall i :: 0 <= i < |d| ==> Decimal.IsDigit(d[i]);
    }
    assert '\n' !in header;
    var b := LinkBlock(index, name, peer, flags, details);
    assert forall j :: 1 <= j < |b| ==> b[j] == details[j - 1];
  }

  /** `test_interface_choice`: output listing `lo`, `enp1s0`,
      `br-933fa0e1438c` and the paired `veth3fff6e9@if7`, with a leading
      empty line and a final newline as in the test, gives the three links
      other than `lo`, in the order listed. The flags after each header and
      the indented detail lines are left open: the test's are one instance. */
  lemma InterfaceChoiceSample(flags: seq<string>, details: seq<seq<string>>)
    requires |flags| == 4 && |details| == 4
    requires forall k :: 0 <= k < 4 ==> IndentedLines(flags[k], details[k])
    ensures IpLink.InterfaceChoice(Text.Join([""] +
              LinkBlock(1, "lo", None, flags[0], details[0]) +
              LinkBlock(2, "enp1s0", None, flags[1], details[1]) +
              LinkBlock(3, "br-933fa0e1438c", None, flags[2], details[2]) +
              LinkBlock(4, "veth3fff6e9", Some("if7"), flags[3], details[3]) + [""], '\n')) ==
            ["enp1s0", "br-933fa0e1438c", "veth3fff6e9"]
  {
    assert IndentedLines(flags[0], details[0]) && IndentedLines(flags[1], details[1]);
    assert IndentedLines(flags[2], details[2]) && IndentedLines(flags[3], details[3]);
    SampleNames();
    LinkBlockName(1, "lo", None, flags[0], details[0]);
    LinkBlockName(2, "enp1s0", None, flags[1], details[1]);
    LinkBlockName(3, "br-933fa0e1438c", None, flags[2], details[2]);
    LinkBlockName(4, "veth3fff6e9", Some("if7"), flags[3], details[3]);
    JoinedBlocks(LinkBlock(1, "lo", None, flags[0], details[0]),
                 LinkBlock(2, "enp1s0", None, flags[1], details[1]),
                 LinkBlock(3, "br-933fa0e1438c", None, flags[2], details[2]),
                 LinkBlock(4, "veth3fff6e9", Some("if7"), flags[3], details[3]),
                 "lo", "enp1s0", "br-933fa0e1438c", "veth3fff6e9");
  }

  /** Four blocks of one link each, joined into one output between an
      empty first and last line, offer their links other than `lo`. */
  lemma JoinedBlocks(b1: seq<string>, b2: seq<string>, b3: seq<string>, b4: seq<string>,
                     n1: string, n2: string, n3: string, n4: string)
    requires IpLink.LinkNames(b1) == [n1] && IpLink.LinkNames(b2) == [n2]
    requires IpLink.LinkNames(b3) == [n3] && IpLink.LinkNames(b4) == [n4]
    requires Unbroken(b1) && Unbroken(b2) && Unbroken(b3) && Unbroken(b4)
    ensures IpLink.InterfaceChoice(Text.Join([""] + b1 + b2 + b3 + b4 + [""], '\n')) ==
            IpLink.Without([n1, n2, n3, n4], IpLink.Loopback)
  {
    var lines := [""] + b1 + b2 + b3 + b4 + [""];
    FourBlocks(b1, b2, b3, b4, n1, n2, n3, n4);
    assert Unbroken([""]);
    UnbrokenAppend([""], b1);
    UnbrokenAppend([""] + b1, b2);
    UnbrokenAppend([""] + b1 + b2, b3);
    UnbrokenAppend([""] + b1 + b2 + b3, b4);
    UnbrokenAppend([""] + b1 + b2 + b3 + b4, [""]);
    Text.SplitJoin(lines, '\n');
  }

  /** The link names of the sample are plain names, and removing `lo` from
      them leaves the other three in order. */
  lemma SampleNames()
    ensures PlainName("lo") && PlainName("enp1s0") && PlainName("br-933fa0e1438c") && PlainName("veth3fff6e9")
    ensures '\n' !in "if7"
    ensures IpLink.Without(["lo", "enp1s0", "br-933fa0e1438c", "veth3fff6e9"], IpLink.Loopback) ==
            ["enp1s0", "br-933fa0e1438c", "veth3fff6e9"]
  {
    var names := ["lo", "enp1s0", "br-933fa0e1438c", "veth3fff6e9"];
    assert names[1..] == ["enp1s0", "br-933fa0e1438c", "veth3fff6e9"];
  }
}

=== FILE: iplink.dfy ===
/** `interface_choice()`: the NIC names listed by `ip a`, without the
    loopback `lo`. Each link header line reads `<index>: <name>: <flags> ...`,
    or `<index>: <name>@<peer>: ...` for a paired link; the name is what
    `(?:[0-9]+:) (.*?)(?=: |@.*?: )` captures: the shortest text after the
    index that is followed by `: `, or by `@` and later `: `. */
module IpLink {
  import opened Wrappers
  import opened Text
  import opened Decimal

  /** `s[j..]` starts with `: `. */
  predicate ColonSpaceAt(s: string, j: int) {
    0 <= j && j + 1 < |s| && s[j] == ':' && s[j + 1] == ' '
  }

  /** `s` holds `: ` somewhere. */
  predicate HasColonSpace(s: string) {
    exists j :: 0 <= j < |s| - 1 && ColonSpaceAt(s, j)
  }

  /** The lookahead `(?=: |@.*?: )` succeeds at position `j` of `s`. */
  predicate StopsAt(s: string, j: int) {
    ColonSpaceAt(s, j) || (0 <= j < |s| && s[j] == '@' && HasColonSpace(s[j + 1..]))
  }

  /** The first position at or after `j` where the lookahead succeeds: the
      end of the lazy capture. */
  function FindStop(s: string, j: nat): (r: Option<nat>)
    ensures r.Some? ==> j <= r.value < |s| && StopsAt(s, r.value)
    ensures r.Some? ==> forall i :: j <= i < r.value ==> !StopsAt(s, i)
    ensures r.None? ==> forall i :: j <= i < |s| ==> !StopsAt(s, i)
    decreases |s| - j
  {
    if j >= |s| then None
    else if StopsAt(s, j) then Some(j)
    else FindStop(s, j + 1)
  }

  /** Where the lookahead succeeds a `: ` follows, at once or later. */
  lemma ColonSpaceFrom(s: string, j: int)
    requires StopsAt(s, j)
    ensures exists p :: j <= p && ColonSpaceAt(s, p)
  {
    if !ColonSpaceAt(s, j) {
      var q :| 0 <= q < |s[j + 1..]| - 1 && ColonSpaceAt(s[j + 1..], q);
      assert ColonSpaceAt(s, j + 1 + q);
    }
  }

  /** Before the end of the capture there is no `@` and no `: `, since
      either would have ended it earlier. */
  lemma {:induction false} CaptureIsPlain(s: string, stop: nat)
    requires stop < |s| && StopsAt(s, stop)
    requires forall i :: 0 <= i < stop ==> !StopsAt(s, i)
    ensures '@' !in s[..stop]
    ensures !HasColonSpace(s[..stop])
  {
    ColonSpaceFrom(s, stop);
    var p :| stop <= p && ColonSpaceAt(s, p);
    forall i | 0 <= i < stop ensures s[i] != '@' {
      if s[i] == '@' {
        assert ColonSpaceAt(s[i + 1..], p - i - 1);
        assert StopsAt(s, i);
      }
    }
    forall q | 0 <= q < stop - 1 ensures !ColonSpaceAt(s[..stop], q) {
      assert !StopsAt(s, q);
      assert s[..stop][q] == s[q] && s[..stop][q + 1] == s[q + 1];
    }
  }

  /** The name a header line yields, or `None` when the line is not a link
      header. */
  function HeaderName(line: string): (r: Option<string>)
    ensures r.Some? ==> '@' !in r.value && !HasColonSpace(r.value)
  {
    var n := LeadingDigits(line);
    if n == 0 || !ColonSpaceAt(line, n) then None
    else
      var rest := line[n + 2..];
      var stop := FindStop(rest, 0);
      if stop.None? then None
      else
        CaptureIsPlain(rest, stop.value);
        Some(rest[..stop.value])
  }

  /** The names of the header lines, in order. */
  function LinkNames(lines: seq<string>): (r: seq<string>)
    decreases |lines|
  {
    if lines == [] then []
    else
      var h := HeaderName(lines[0]);
      (if h.Some? then [h.value] else []) + LinkNames(lines[1..])
  }

  /** The names of two runs of lines are those of the first run followed by
      those of the second: order and repetitions are kept. */
  lemma {:induction false} LinkNamesAppend(a: seq<string>, b: seq<string>)
    ensures LinkNames(a + b) == LinkNames(a) + LinkNames(b)
    decreases |a|
  {
    if a == [] {
      assert a + b == b;
    } else {
      assert (a + b)[0] == a[0];
      assert (a + b)[1..] == a[1..] + b;
      LinkNamesAppend(a[1..], b);
    }
  }

  /** A line that starts with a blank, or is empty, is no link header. */
  lemma NotHeader(line: string)
    requires line == [] || line[0] == ' '
    ensures HeaderName(line).None?
  {
  }

  /** A link block: its header line names the link, and the indented lines
      under it name nothing. */
  lemma {:induction false} BlockNames(header: string, name: string, body: seq<string>)
    requires HeaderName(header) == Some(name)
    requires forall k :: 0 <= k < |body| ==> body[k] == [] || body[k][0] == ' '
    ensures LinkNames([header] + body) == [name]
    decreases |body|
  {
    if body == [] {
      assert ([header] + body)[1..] == [];
    } else {
      var p := body[..|body| - 1];
      assert forall k :: 0 <= k < |p| ==> p[k] == body[k];
      BlockNames(header, name, p);
      assert [header] + body == ([header] + p) + [body[|body| - 1]];
      LinkNamesAppend([header] + p, [body[|body| - 1]]);
      NotHeader(body[|body| - 1]);
      assert [body[|body| - 1]][1..] == [];
    }
  }

  /** `[nic for nic in names if nic != x]`. */
  function Without(names: seq<string>, x: string): (r: seq<string>)
    ensures x !in r
    ensures forall n :: n in r <==> n in names && n != x
    ensures |r| <= |names|
  {
    if names == [] then []
    else (if names[0] == x then [] else [names[0]]) + Without(names[1..], x)
  }

  /** Filtering keeps order: filtering two runs of names is filtering each
      and putting the results together. */
  lemma {:induction false} WithoutAppend(a: seq<string>, b: seq<string>, x: string)
    ensures Without(a + b, x) == Without(a, x) + Without(b, x)
    decreases |a|
  {
    if a == [] {
      assert a + b == b;
    } else {
      assert (a + b)[0] == a[0];
      assert (a + b)[1..] == a[1..] + b;
      WithoutAppend(a[1..], b, x);
    }
  }

  const Loopback := "lo"

  /** `interface_choice()` on the output of `ip a`. */
  function InterfaceChoice(out: string): (r: seq<string>)
    ensures Loopback !in r
    ensures forall k :: 0 <= k < |r| ==> '@' !in r[k] && !HasColonSpace(r[k])
  {
    var names := LinkNames(SplitOn(out, '\n'));
    LinkNamesPlain(SplitOn(out, '\n'));
    Without(names, Loopback)
  }

  /** Every collected name is free of `@` and `: `. */
  lemma {:induction false} LinkNamesPlain(lines: seq<string>)
    ensures forall n :: n in LinkNames(lines) ==> '@' !in n && !HasColonSpace(n)
    decreases |lines|
  {
    if lines != [] {
      LinkNamesPlain(lines[1..]);
    }
  }

  /** A name is collected exactly when some line is a header naming it. */
  lemma {:induction false} LinkNamesMembers(lines: seq<string>, n: string)
    ensures n in LinkNames(lines) <==> exists k :: 0 <= k < |lines| && HeaderName(lines[k]) == Some(n)
    decreases |lines|
  {
    if lines != [] {
      LinkNamesMembers(lines[1..], n);
      assert forall k :: 1 <= k < |lines| ==> lines[k] == lines[1..][k - 1];
      if n in LinkNames(lines[1..]) {
        var k :| 0 <= k < |lines[1..]| && HeaderName(lines[1..][k]) == Some(n);
        assert HeaderName(lines[k + 1]) == Some(n);
      }
    }
  }

  /** `interface_choice()` lists exactly the names of header lines other
      than `lo`. */
  lemma InterfaceChoiceMembers(out: string, n: string)
    ensures n in InterfaceChoice(out) <==>
              n != Loopback && exists k :: 0 <= k < |SplitOn(out, '\n')| && HeaderName(SplitOn(out, '\n')[k]) == Some(n)
  {
    var lines := SplitOn(out, '\n');
    LinkNamesMembers(lines, n);
    assert InterfaceChoice(out) == Without(LinkNames(lines), Loopback);
    assert n in InterfaceChoice(out) <==> n in LinkNames(lines) && n != Loopback;
    if n in InterfaceChoice(out) {
      var k :| 0 <= k < |lines| && HeaderName(lines[k]) == Some(n);
      assert HeaderName(SplitOn(out, '\n')[k]) == Some(n);
    }
  }

  /** What follows `<index>: ` on a header line: the name, `@<peer>` for a
      paired link, then `: ` and the rest of the line. */
  function LinkText(name: string, peer: Option<string>, rest: string): string {
    name + (if peer.Some? then "@" + peer.value else "") + ": " + rest
  }

  /** The capture of a link text ends right after a name without `@` and
      `:`. */
  lemma CaptureOfLink(name: string, peer: Option<string>, rest: string)
    requires '@' !in name && ':' !in name
    ensures FindStop(LinkText(name, peer, rest), 0) == Some(|name|)
    ensures LinkText(name, peer, rest)[..|name|] == name
  {
    var link := LinkText(name, peer, rest);
    var stop := |name|;
    assert link[..stop] == name;
    forall i | 0 <= i < stop ensures !StopsAt(link, i) {
      assert link[i] == name[i];
    }
    if peer.Some? {
      var after := peer.value + ": " + rest;
      assert link[stop + 1..] == after;
      assert ColonSpaceAt(after, |peer.value|);
    } else {
      assert ColonSpaceAt(link, stop);
    }
    assert StopsAt(link, stop);
  }

  /** A header line `<index>: <name>: <rest>` or `<index>: <name>@<peer>: <rest>`
      yields `<name>`, provided the name holds neither `@` nor `:`. */
  lemma HeaderNameOfLine(index: nat, name: string, peer: Option<string>, rest: string)
    requires '@' !in name && ':' !in name
    ensures HeaderName(FromNat(index) + ": " + LinkText(name, peer, rest)) == Some(name)
  {
    var link := LinkText(name, peer, rest);
    var line := FromNat(index) + ": " + link;
    assert line == FromNat(index) + (": " + link);
    LeadingDigitsOfNumeral(FromNat(index), ": " + link);
    var n := |FromNat(index)|;
    assert ColonSpaceAt(line, n);
    assert line[n + 2..] == link;
    CaptureOfLink(name, peer, rest);
  }
}

=== FILE: ipv4.dfy ===
/** IPv4 addresses as 32-bit numbers: the part of Python's `ipaddress`
    module the source's `IP` class relies on (parsing a dotted quad,
    writing it back, and the loopback, link-local and multicast tests),
    plus the prefix arithmetic of CIDR (section 3.1 of RFC 4632). */
module IPv4 {
  import opened Wrappers
  import Text
  import Decimal

  /** An IPv4 address as an unsigned 32-bit number. */
  type Addr = x: nat | x < 0x1_0000_0000

  /** A CIDR prefix length. */
  type Prefix = p: nat | p <= 32

  // ---------------------------------------------------------------------------
  // Octets
  // ---------------------------------------------------------------------------

  predicate IsOctets(o: seq<nat>) {
    |o| == 4 && forall i :: 0 <= i < 4 ==> o[i] < 256
  }

  /** The address whose four bytes, most significant first, are `o`. */
  function FromOctets(o: seq<nat>): Addr
    requires IsOctets(o)
  {
    ((o[0] * 0x100 + o[1]) * 0x100 + o[2]) * 0x100 + o[3]
  }

  /** The four bytes of an address, most significant first. */
  function OctetsOf(x: Addr): (o: seq<nat>)
    ensures IsOctets(o)
  {
    [x / 0x100 / 0x100 / 0x100, x / 0x100 / 0x100 % 0x100, x / 0x100 % 0x100, x % 0x100]
  }

  /** Bytes and addresses correspond one to one. */
  lemma OctetsRoundTrip(x: Addr, o: seq<nat>)
    requires IsOctets(o)
    ensures FromOctets(OctetsOf(x)) == x
    ensures OctetsOf(FromOctets(o)) == o
  {
    var x1 := x / 0x100;
    var x2 := x1 / 0x100;
    assert x == x1 * 0x100 + x % 0x100;
    assert x1 == x2 * 0x100 + x1 % 0x100;
    assert x2 == x2 / 0x100 * 0x100 + x2 % 0x100;
    var y2 := o[0] * 0x100 + o[1];
    var y1 := y2 * 0x100 + o[2];
    var y := y1 * 0x100 + o[3];
    assert y / 0x100 == y1;
    assert y1 / 0x100 == y2;
    assert y2 / 0x100 == o[0];
  }

  /** The first byte is the quotient by 2^24, the first two bytes the
      quotient by 2^16. */
  lemma LeadingOctets(x: Addr)
    ensures x / 0x100_0000 == OctetsOf(x)[0]
    ensures x / 0x1_0000 == OctetsOf(x)[0] * 0x100 + OctetsOf(x)[1]
    ensures x / 0x1000_0000 == OctetsOf(x)[0] / 0x10
  {
    var x1 := x / 0x100;
    var x2 := x1 / 0x100;
    var x3 := x2 / 0x100;
    assert x == x1 * 0x100 + x % 0x100;
    assert x1 == x2 * 0x100 + x1 % 0x100;
    assert x2 == x3 * 0x100 + x2 % 0x100;
    DivInBlock(x, x3, 0x100_0000);
    DivInBlock(x, x2, 0x1_0000);
    DivInBlock(x, x3 / 0x10, 0x1000_0000);
  }

  // ---------------------------------------------------------------------------
  // Dotted-quad text
  // ---------------------------------------------------------------------------

  /** One byte of a dotted quad as Python's `ipaddress` reads it: one to three
      ASCII digits, no leading zero, at most 255. */
  function ParseOctet(s: string): (r: Option<nat>)
    ensures r.Some? ==> r.value < 256
  {
    if s == [] || |s| > 3 || !Decimal.AllDigits(s) || (s[0] == '0' && |s| > 1) then None
    else if Decimal.Value(s) > 255 then None
    else Some(Decimal.Value(s))
  }

  /** Reading a byte accepts exactly the way `str` writes a byte. */
  lemma ParseOctetIff(s: string, v: nat)
    requires v < 256
    ensures ParseOctet(s) == Some(v) <==> s == Decimal.FromNat(v)
  {
    Decimal.FromNatLength(v);
    Decimal.ValueFromNat(v);
    if ParseOctet(s) == Some(v) {
      Decimal.FromNatValue(s);
    }
  }

  /** `ipaddress.IPv4Address(text)`: four bytes separated by dots, or None
      where Python raises `ValueError`. Every text it accepts is the
      canonical text of its address: the parser admits no second spelling
      of an address. */
  function Parse(text: string): (r: Option<Addr>)
    ensures r.Some? ==> Format(r.value) == text
  {
    var parts := Text.SplitOn(text, '.');
    if |parts| != 4 then None
    else
      var a :- ParseOctet(parts[0]);
      var b :- ParseOctet(parts[1]);
      var c :- ParseOctet(parts[2]);
      var d :- ParseOctet(parts[3]);
      var o := [a, b, c, d];
      OctetsRoundTrip(0, o);
      forall i | 0 <= i < 4
        ensures Decimal.FromNat(o[i]) == parts[i]
      {
        ParseOctetIff(parts[i], o[i]);
      }
      assert parts == [parts[0], parts[1], parts[2], parts[3]];
      Text.JoinSplit(text, '.');
      Some(FromOctets(o))
  }

  /** `str(address)`: the dotted quad, whose four dot-separated pieces read
      back as the address's bytes. */
  function Format(x: Addr): (r: string)
    ensures |Text.SplitOn(r, '.')| == 4
    ensures forall i :: 0 <= i < 4 ==> ParseOctet(Text.SplitOn(r, '.')[i]) == Some(OctetsOf(x)[i])
  {
    var o := OctetsOf(x);
    var parts := [Decimal.FromNat(o[0]), Decimal.FromNat(o[1]), Decimal.FromNat(o[2]), Decimal.FromNat(o[3])];
    forall i | 0 <= i < 4
      ensures '.' !in parts[i] && ParseOctet(parts[i]) == Some(o[i])
    {
      ParseOctetIff(parts[i], o[i]);
    }
    Text.SplitJoin(parts, '.');
    Text.Join(parts, '.')
  }

  /** Parsing the text of an address gives the address back. */
  lemma ParseFormat(x: Addr)
    ensures Parse(Format(x)) == Some(x)
  {
    var o := OctetsOf(x);
    var parts := Text.SplitOn(Format(x), '.');
    assert parts == [parts[0], parts[1], parts[2], parts[3]];
    OctetsRoundTrip(x, o);
  }

  /** The text round trip in both directions at once. */
  lemma ParseIff(text: string, x: Addr)
    ensures Parse(text) == Some(x) <==> text == Format(x)
  {
    ParseFormat(x);
  }

  /** `IP.is_valid_ip`: true exactly for the texts of addresses; any other
      text gives false, never an error. */
  function IsValidIp(text: string): (b: bool)
    ensures b <==> exists x: Addr :: text == Format(x)
  {
    if Parse(text).Some? then true
    else
      assert forall x: Addr :: text != Format(x) by {
        forall x: Addr ensures text != Format(x) {
          ParseFormat(x);
        }
      }
      false
  }

  // ---------------------------------------------------------------------------
  // Prefixes
  // ---------------------------------------------------------------------------

  function Pow2(n: nat): (r: nat)
    ensures r >= 1
  {
    if n == 0 then 1 else 2 * Pow2(n - 1)
  }

  /** Number of addresses in a block with prefix length `p`. */
  function BlockSize(p: Prefix): (r: nat)
    ensures 1 <= r <= 0x1_0000_0000
  {
    Pow2Bound(32 - p);
    Pow2(32 - p)
  }

  lemma Pow2Bound(n: nat)
    requires n <= 32
    ensures Pow2(n) <= 0x1_0000_0000
  {
    if n < 32 {
      Pow2Monotone(n, 32);
    }
    Pow2Values();
  }

  lemma {:induction false} Pow2Monotone(m: nat, n: nat)
    requires m <= n
    ensures Pow2(m) <= Pow2(n)
    decreases n
  {
    if m < n {
      Pow2Monotone(m, n - 1);
    }
  }

  lemma Pow2Values()
    ensures Pow2(8) == 0x100
    ensures Pow2(16) == 0x1_0000
    ensures Pow2(24) == 0x100_0000
    ensures Pow2(28) == 0x1000_0000
    ensures Pow2(32) == 0x1_0000_0000
  {
    assert Pow2(8) == 0x100;
    assert Pow2(16) == 0x1_0000;
    assert Pow2(24) == 0x100_0000;
    assert Pow2(28) == 0x1000_0000;
  }

  /** The network address of `x` under prefix `p`: `x` with its low
      `32 - p` bits cleared. */
  function Mask(x: Addr, p: Prefix): (m: Addr)
    ensures m <= x < m + BlockSize(p)
    ensures m % BlockSize(p) == 0
  {
    FloorTo(x, BlockSize(p))
  }

  /** The largest multiple of `h` not above `x`. */
  function FloorTo(x: nat, h: nat): (m: nat)
    requires h >= 1
    ensures m <= x < m + h
    ensures m % h == 0
  {
    FloorToMultiple(x, h);
    x / h * h
  }

  /** A network address is its own network address. */
  lemma MaskIdempotent(x: Addr, p: Prefix)
    ensures Mask(Mask(x, p), p) == Mask(x, p)
  {
    var h := BlockSize(p);
    var q := x / h;
    var m := Mask(x, p);
    assert m == q * h;
    DivMulExact(q, h);
    assert m / h == q;
    assert Mask(m, p) == m / h * h;
  }

  /** Rounding down to a multiple of `h` lands in the block holding `x`. */
  lemma FloorToMultiple(x: nat, h: nat)
    requires h >= 1
    ensures x / h * h <= x < x / h * h + h
    ensures x / h * h % h == 0
  {
    var q := x / h;
    var r := x % h;
    assert x == q * h + r;
    assert 0 <= r < h;
    DivMulExact(q, h);
  }

  lemma MulMono(a: int, b: int, h: int)
    requires a <= b && h >= 0
    ensures a * h <= b * h
  {
    var d := b - a;
    assert d * h >= 0;
    assert b * h == a * h + d * h;
  }

  lemma DivMulExact(q: nat, h: nat)
    requires h >= 1
    ensures q * h / h == q
    ensures q * h % h == 0
  {
    var y := q * h;
    var q' := y / h;
    var r := y % h;
    assert y == q' * h + r;
    if q' < q {
      assert (q' + 1) * h == q' * h + h;
      MulMono(q' + 1, q, h);
    } else if q' > q {
      assert (q + 1) * h == q * h + h;
      MulMono(q + 1, q', h);
    }
  }

  /** Every number of the aligned block `[k * h, k * h + h)` has quotient `k`. */
  lemma DivInBlock(x: nat, k: nat, h: nat)
    requires h >= 1
    requires k * h <= x < k * h + h
    ensures x / h == k
  {
    var q := x / h;
    var r := x % h;
    assert x == q * h + r;
    if q < k {
      assert (q + 1) * h == q * h + h;
      MulMono(q + 1, k, h);
    } else if q > k {
      assert (k + 1) * h == k * h + h;
      MulMono(k + 1, q, h);
    }
  }

  /** `x` lies in the block of `p` bits around `net` (Python's
      `address in interface.network`). */
  predicate InNetwork(x: Addr, net: Addr, p: Prefix) {
    Mask(x, p) == Mask(net, p)
  }

  /** Membership is the address range of the block, section 3.1 of RFC 4632:
      from the network address up to, not including, the next block. */
  lemma InNetworkIsRange(x: Addr, net: Addr, p: Prefix)
    ensures InNetwork(x, net, p) <==> Mask(net, p) <= x < Mask(net, p) + BlockSize(p)
  {
    var h := BlockSize(p);
    var m := Mask(net, p);
    if m <= x < m + h {
      DivInBlock(x, net / h, h);
    }
  }

  // ---------------------------------------------------------------------------
  // Classification (properties of `ipaddress.IPv4Address`)
  // ---------------------------------------------------------------------------

  /** The block of `p` bits starting at the aligned address `net` holds
      exactly the addresses from `net` up to, not including, `net` plus the
      block size. */
  lemma AlignedBlock(x: Addr, q: nat, p: Prefix)
    requires q * BlockSize(p) < 0x1_0000_0000
    ensures InNetwork(x, q * BlockSize(p), p) <==> q * BlockSize(p) <= x < q * BlockSize(p) + BlockSize(p)
  {
    DivMulExact(q, BlockSize(p));
    InNetworkIsRange(x, q * BlockSize(p), p);
  }

  /** 127.0.0.0/8, section 3.2.1.3 of RFC 1122: 127.0.0.0 to 127.255.255.255. */
  function IsLoopback(x: Addr): (b: bool)
    ensures b <==> 127 * 0x100_0000 <= x < 128 * 0x100_0000
  {
    Pow2Values();
    assert BlockSize(8) == 0x100_0000;
    AlignedBlock(x, 127, 8);
    InNetwork(x, FromOctets([127, 0, 0, 0]), 8)
  }

  /** 169.254.0.0/16, section 2.1 of RFC 3927: 169.254.0.0 to
      169.254.255.255. */
  function IsLinkLocal(x: Addr): (b: bool)
    ensures b <==> 169 * 0x100_0000 + 254 * 0x1_0000 <= x < 169 * 0x100_0000 + 255 * 0x1_0000
  {
    Pow2Values();
    assert BlockSize(16) == 0x1_0000;
    AlignedBlock(x, 169 * 0x100 + 254, 16);
    InNetwork(x, FromOctets([169, 254, 0, 0]), 16)
  }

  /** 224.0.0.0/4, section 4 of RFC 5771: 224.0.0.0 to 239.255.255.255. */
  function IsMulticast(x: Addr): (b: bool)
    ensures b <==> 224 * 0x100_0000 <= x < 240 * 0x100_0000
  {
    Pow2Values();
    assert BlockSize(4) == 0x1000_0000;
    AlignedBlock(x, 14, 4);
    InNetwork(x, FromOctets([224, 0, 0, 0]), 4)
  }

  /** Loopback means the first byte is 127. */
  lemma LoopbackIsFirstOctet(x: Addr)
    ensures IsLoopback(x) <==> OctetsOf(x)[0] == 127
  {
    LeadingOctets(x);
  }

  /** Link-local means the first two bytes are 169 and 254. */
  lemma LinkLocalIsFirstOctets(x: Addr)
    ensures IsLinkLocal(x) <==> OctetsOf(x)[0] == 169 && OctetsOf(x)[1] == 254
  {
    LeadingOctets(x);
  }

  /** Multicast means the first byte is between 224 and 239. */
  lemma MulticastIsFirstOctet(x: Addr)
    ensures IsMulticast(x) <==> 224 <= OctetsOf(x)[0] <= 239
  {
    LeadingOctets(x);
  }
}

=== FILE: nvpairs.dfy ===
/** `nvpairs2dict(pairs)`: `name=value` strings to a dictionary. Each string
    is split at its first `=`; a string without `=` is a name whose value
    is `None`. Building a `dict` from the list keeps, for a repeated name,
    the value of its last occurrence. */
module NvPairs {
  import opened Wrappers
  import opened Text
  import opened Seqs

  datatype Pair = Pair(name: string, value: Option<string>)

  /** `var.split('=', 1)`, or `[var, None]` when there is no `=`. */
  function SplitPair(v: string): (p: Pair)
    ensures '=' !in p.name
    ensures p.value.None? <==> '=' !in v
    ensures p.value.None? ==> p.name == v
    ensures p.value.Some? ==> v == p.name + "=" + p.value.value
  {
    var k := IndexOf(v, '=');
    if k == |v| then Pair(v, None)
    else
      assert v == v[..k] + "=" + v[k + 1..];
      Pair(v[..k], Some(v[k + 1..]))
  }

  /** Splitting undoes writing `name=value` for a name without `=`; the
      value may itself hold `=` signs. */
  lemma SplitPairOfJoined(name: string, value: string)
    requires '=' !in name
    ensures SplitPair(name + "=" + value) == Pair(name, Some(value))
  {
    var v := name + "=" + value;
    IndexOfUnique(v, '=', |name|);
    assert v[..|name|] == name;
    assert v[|name| + 1..] == value;
  }

  /** `dict(data)`: the pairs entered in order, later entries replacing
      earlier ones. */
  function DictOf(ps: seq<Pair>): (d: map<string, Option<string>>)
    decreases |ps|
  {
    if ps == [] then map[]
    else DictOf(ps[..|ps| - 1])[ps[|ps| - 1].name := ps[|ps| - 1].value]
  }

  /** `ps[i]` is the last pair naming `name`. */
  predicate LastNaming(ps: seq<Pair>, name: string, i: int) {
    0 <= i < |ps| && ps[i].name == name &&
    forall j :: i < j < |ps| ==> ps[j].name != name
  }

  /** The keys are exactly the names of the pairs, and each key's value is
      the value of the last pair naming it. */
  lemma {:induction false} DictOfSpec(ps: seq<Pair>, name: string)
    ensures name in DictOf(ps) <==> exists i :: 0 <= i < |ps| && ps[i].name == name
    ensures name in DictOf(ps) ==> exists i :: LastNaming(ps, name, i) && DictOf(ps)[name] == ps[i].value
    decreases |ps|
  {
    if ps != [] {
      var n := |ps| - 1;
      var init := ps[..n];
      DictOfStep(ps, name);
      DictOfSpec(init, name);
      assert forall i :: 0 <= i < n ==> init[i] == ps[i];
      if ps[n].name == name {
        assert LastNaming(ps, name, n);
      } else if name in DictOf(ps) {
        var i :| LastNaming(init, name, i) && DictOf(init)[name] == init[i].value;
        assert LastNaming(ps, name, i);
      }
    }
  }

  /** One step of `DictOf`: the last pair decides its own name, and every
      other name keeps what the earlier pairs gave it. */
  lemma DictOfStep(ps: seq<Pair>, name: string)
    requires ps != []
    ensures ps[|ps| - 1].name == name ==> name in DictOf(ps) && DictOf(ps)[name] == ps[|ps| - 1].value
    ensures ps[|ps| - 1].name != name ==>
              (name in DictOf(ps) <==> name in DictOf(ps[..|ps| - 1])) &&
              (name in DictOf(ps) ==> DictOf(ps)[name] == DictOf(ps[..|ps| - 1])[name])
  {
  }

  /** `nvpairs2dict(pairs)`: every name a string starts with is a key,
      nothing else is, and the last string naming a key gives its value. */
  function NvPairsToDict(pairs: seq<string>): (d: map<string, Option<string>>)
    ensures forall i :: 0 <= i < |pairs| ==> SplitPair(pairs[i]).name in d
    ensures forall k :: k in d ==> exists i :: 0 <= i < |pairs| && SplitPair(pairs[i]).name == k
    ensures forall i :: 0 <= i < |pairs| && (forall j :: i < j < |pairs| ==> SplitPair(pairs[j]).name != SplitPair(pairs[i]).name) ==>
              d[SplitPair(pairs[i]).name] == SplitPair(pairs[i]).value
  {
    var ps := Map(pairs, SplitPair);
    assert forall i :: 0 <= i < |pairs| ==> ps[i] == SplitPair(pairs[i]);
    forall i | 0 <= i < |pairs|
      ensures SplitPair(pairs[i]).name in DictOf(ps)
      ensures (forall j :: i < j < |pairs| ==> SplitPair(pairs[j]).name != SplitPair(pairs[i]).name) ==>
                DictOf(ps)[SplitPair(pairs[i]).name] == SplitPair(pairs[i]).value
    {
      var name := ps[i].name;
      DictOfSpec(ps, name);
      if forall j :: i < j < |pairs| ==> SplitPair(pairs[j]).name != name {
        var i' :| LastNaming(ps, name, i') && DictOf(ps)[name] == ps[i'].value;
        assert i' == i;
      }
    }
    forall k | k in DictOf(ps)
      ensures exists i :: 0 <= i < |pairs| && SplitPair(pairs[i]).name == k
    {
      DictOfSpec(ps, k);
    }
    DictOf(ps)
  }

  /** The keys are exactly the names the strings start with, and each
      key's value is what follows the first `=` of the last string naming
      it, or `None` when that string has no `=`. */
  lemma NvPairsToDictSpec(pairs: seq<string>, name: string)
    ensures name in NvPairsToDict(pairs) <==> exists i :: 0 <= i < |pairs| && SplitPair(pairs[i]).name == name
    ensures name in NvPairsToDict(pairs) ==>
              exists i :: LastNaming(Map(pairs, SplitPair), name, i) &&
                NvPairsToDict(pairs)[name] == SplitPair(pairs[i]).value
  {
    var ps := Map(pairs, SplitPair);
    DictOfSpec(ps, name);
    if name in NvPairsToDict(pairs) {
      var i :| LastNaming(ps, name, i) && DictOf(ps)[name] == ps[i].value;
      assert SplitPair(pairs[i]).value == ps[i].value;
    } else {
      assert forall i :: 0 <= i < |pairs| ==> ps[i] == SplitPair(pairs[i]);
    }
  }
}

=== FILE: olist.dfy ===
/** `olist`: a list that stores its entries lower-cased and answers
    membership ignoring letter case. */
module OLists {
  import opened Text

  datatype OList = OList(items: seq<string>)

  /** `append(key)`: the lower-cased key goes to the end. */
  function Append(l: OList, key: string): (r: OList)
    ensures |r.items| == |l.items| + 1 && IsLower(r.items[|l.items|])
    ensures r.items[..|l.items|] == l.items
    ensures r.items[|l.items|] == Lower(key)
  {
    LowerIsLower(key);
    OList(l.items + [Lower(key)])
  }

  /** `olist(keys)`: an empty list with every key appended in order. */
  function Make(keys: seq<string>): (l: OList)
    ensures |l.items| == |keys|
    ensures forall k :: 0 <= k < |keys| ==> l.items[k] == Lower(keys[k])
    decreases |keys|
  {
    if keys == [] then OList([])
    else Append(Make(keys[..|keys| - 1]), keys[|keys| - 1])
  }

  /** `key in l`: whether the lower-cased key is stored. On a list whose
      entries are lower case, as `Append` keeps them, that is whether some
      entry equals the key up to letter case. */
  function Contains(l: OList, key: string): (b: bool)
    ensures (forall k :: 0 <= k < |l.items| ==> IsLower(l.items[k])) ==>
              (b <==> exists k :: 0 <= k < |l.items| && Lower(l.items[k]) == Lower(key))
  {
    forall k | 0 <= k < |l.items| && IsLower(l.items[k]) ensures Lower(l.items[k]) == l.items[k] {
      LowerOfLower(l.items[k]);
    }
    Lower(key) in l.items
  }

  /** Building keeps the keys' order and count, each lower-cased, so every
      stored entry is lower case. */
  lemma {:induction false} MakeItems(keys: seq<string>)
    ensures |Make(keys).items| == |keys|
    ensures forall k :: 0 <= k < |keys| ==> Make(keys).items[k] == Lower(keys[k])
    ensures forall k :: 0 <= k < |keys| ==> IsLower(Make(keys).items[k])
    decreases |keys|
  {
    if keys != [] {
      var n := |keys| - 1;
      MakeItems(keys[..n]);
      forall k | 0 <= k < |keys| ensures IsLower(Make(keys).items[k]) {
        LowerIsLower(keys[k]);
      }
    }
  }

  /** A key and its lower-case form are members alike. */
  lemma ContainsIgnoresCase(l: OList, key: string)
    ensures Contains(l, key) == Contains(l, Lower(key))
  {
    LowerIsLower(key);
  }

  /** After appending a key, a key is a member exactly when it was one
      before or it equals the appended key up to letter case. */
  lemma AppendContains(l: OList, key: string, probe: string)
    ensures Contains(Append(l, key), probe) <==> Contains(l, probe) || Lower(probe) == Lower(key)
  {
  }

  /** A key is a member of a built list exactly when it equals one of the
      keys up to letter case. */
  lemma MakeContains(keys: seq<string>, probe: string)
    ensures Contains(Make(keys), probe) <==> exists k :: 0 <= k < |keys| && Lower(keys[k]) == Lower(probe)
  {
    MakeItems(keys);
    if Contains(Make(keys), probe) {
      var k :| 0 <= k < |keys| && Make(keys).items[k] == Lower(probe);
    }
  }
}

=== FILE: sanity.dfy ===
/** The checks the shell applies to names before using them: a path, a
    file name or a plain name must not hold characters a shell or the CIB
    would treat specially, and an identifier must be an XML name. */
module Sanity {

  /** Characters refused in a path: `'`, backquote, `#`, `*`, `?`, `$`,
      `[`, `]` and `;`. */
  const PathBad: set<char> := {'\'', '`', '#', '*', '?', '$', '[', ']', ';'}

  /** A file name also refuses `/`. */
  const FilenameBad: set<char> := PathBad + {'/'}

  /** A name only refuses the single quote. */
  const NameBad: set<char> := {'\''}

  /** Whether a search for any of `bad` in `s` comes back empty, scanning
      from the left. */
  function NoneIn(s: string, bad: set<char>): (b: bool)
  {
    if s == [] then true
    else if s[0] in bad then false
    else NoneIn(s[1..], bad)
  }

  /** The scan finds nothing exactly when no character of `s` is bad. */
  lemma {:induction false} NoneInIff(s: string, bad: set<char>)
    ensures NoneIn(s, bad) <==> forall i :: 0 <= i < |s| ==> s[i] !in bad
  {
    if s != [] {
      NoneInIff(s[1..], bad);
      assert forall i :: 1 <= i < |s| ==> s[i] == s[1..][i - 1];
    }
  }

  /** `is_path_sane(name)`: no character is one a path refuses. */
  function IsPathSane(s: string): (b: bool)
    ensures b <==> forall i :: 0 <= i < |s| ==> s[i] !in PathBad
  {
    NoneInIff(s, PathBad);
    NoneIn(s, PathBad)
  }

  /** `is_filename_sane(name)`: no character is one a path refuses, and
      none is `/`. */
  function IsFilenameSane(s: string): (b: bool)
    ensures b <==> forall i :: 0 <= i < |s| ==> s[i] !in PathBad && s[i] != '/'
  {
    NoneInIff(s, FilenameBad);
    NoneIn(s, FilenameBad)
  }

  /** `is_name_sane(name)`: no character is a single quote. */
  function IsNameSane(s: string): (b: bool)
    ensures b <==> forall i :: 0 <= i < |s| ==> s[i] != '\''
  {
    NoneInIff(s, NameBad);
    NoneIn(s, NameBad)
  }

  /** A path is sane exactly when none of its characters is refused, and
      sanity is decided character by character, so a path built from two
      pieces is sane exactly when both pieces are. */
  lemma PathSaneIff(a: string, b: string)
    ensures IsPathSane(a) <==> forall i :: 0 <= i < |a| ==> a[i] !in PathBad
    ensures IsPathSane(a + b) <==> IsPathSane(a) && IsPathSane(b)
  {
    NoneInIff(a, PathBad);
    NoneInIff(b, PathBad);
    NoneInIff(a + b, PathBad);
    assert forall i :: 0 <= i < |b| ==> b[i] == (a + b)[|a| + i];
    assert forall i :: 0 <= i < |a| ==> a[i] == (a + b)[i];
  }

  /** A file name is a sane path without `/`; a sane path is a sane name. */
  lemma SanityLevels(s: string)
    ensures IsFilenameSane(s) <==> IsPathSane(s) && '/' !in s
    ensures IsPathSane(s) ==> IsNameSane(s)
  {
    NoneInIff(s, PathBad);
    NoneInIff(s, FilenameBad);
    NoneInIff(s, NameBad);
  }

  predicate IsAsciiLetter(c: char) {
    'a' <= c <= 'z' || 'A' <= c <= 'Z'
  }

  /** A character `[\w._-]` accepts: letter, digit, `_`, `.` or `-`. */
  predicate IsIdChar(c: char) {
    IsAsciiLetter(c) || '0' <= c <= '9' || c in {'_', '.', '-'}
  }

  /** The first `k` characters of `s` spell an identifier: a letter or `_`,
      then identifier characters only. */
  predicate IdUpTo(s: string, k: int) {
    0 < k <= |s| && (IsAsciiLetter(s[0]) || s[0] == '_') &&
    forall i :: 1 <= i < k ==> IsIdChar(s[i])
  }

  /** The pattern `[A-Za-z_][\w._-]*` over the whole of `t`, read by a
      left-to-right scan. */
  function IdPattern(t: string): (b: bool)
    ensures b <==> IdUpTo(t, |t|)
  {
    if t == [] then false
    else
      AllIdCharsIff(t[1..]);
      assert forall i :: 1 <= i < |t| ==> t[i] == t[1..][i - 1];
      (IsAsciiLetter(t[0]) || t[0] == '_') && AllIdChars(t[1..])
  }

  /** `is_id_valid(ident)`: `re.match(r"^[A-Za-z_][\w._-]*$", ident)`. The
      `$` also matches just before a final newline, so an identifier
      followed by one `\n` is accepted too. Never empty, and never starting
      with a digit. */
  function IsIdValid(s: string): (b: bool)
    ensures b <==> IdUpTo(s, |s|) || (s != [] && s[|s| - 1] == '\n' && IdUpTo(s, |s| - 1))
    ensures b ==> s != [] && !('0' <= s[0] <= '9')
  {
    if IdPattern(s) then true
    else if s != [] && s[|s| - 1] == '\n' then
      var t := s[..|s| - 1];
      var r := IdPattern(t);
      assert r <==> IdUpTo(s, |s| - 1) by {
        assert forall i :: 0 <= i < |t| ==> t[i] == s[i];
      }
      r
    else false
  }

  function AllIdChars(s: string): bool {
    s == [] || (IsIdChar(s[0]) && AllIdChars(s[1..]))
  }

  /** The character scan accepts exactly the strings of identifier
      characters. */
  lemma {:induction false} AllIdCharsIff(s: string)
    ensures AllIdChars(s) <==> forall i :: 0 <= i < |s| ==> IsIdChar(s[i])
  {
    if s != [] {
      AllIdCharsIff(s[1..]);
      assert forall i :: 1 <= i < |s| ==> s[i] == s[1..][i - 1];
    }
  }

  /** A valid identifier is a sane file name, hence a sane path and name;
      one without the trailing newline stays valid when identifier
      characters are appended. */
  lemma IdValidIsSane(s: string, more: string)
    requires IsIdValid(s)
    ensures IsFilenameSane(s) && IsPathSane(s) && IsNameSane(s)
    ensures s[|s| - 1] != '\n' && (forall i :: 0 <= i < |more| ==> IsIdChar(more[i])) ==> IsIdValid(s + more)
  {
    assert forall i :: 0 <= i < |s| ==> IsIdChar(s[i]) || s[i] == '\n';
    NoneInIff(s, FilenameBad);
    SanityLevels(s);
    if s[|s| - 1] != '\n' && forall i :: 0 <= i < |more| ==> IsIdChar(more[i]) {
      var t := s + more;
      assert IdUpTo(t, |t|) by {
        forall i | 1 <= i < |t| ensures IsIdChar(t[i]) {
          if i < |s| {
            assert t[i] == s[i];
          } else {
            assert t[i] == more[i - |s|];
          }
        }
      }
    }
  }
}

=== FILE: selection.dfy ===
/** Choosing the addresses for the cluster rings: the NIC of the default
    route (`get_default_nic_list_from_route`), and the first address of each
    candidate NIC, with a second NIC added for a second heartbeat
    (`get_default_ip_list`). */
module Selection {
  import opened Wrappers
  import opened Seqs
  import Text
  import IPv4
  import opened Cidr
  import opened Errors
  import opened Inventory
  import opened Discovery

  const NoDefaultRouteWarning := "No default route configured. Using the first found nic"

  /** `j` is the first `dev` word at or after index `k`, and a word follows it. */
  predicate FirstDevAt(w: seq<string>, k: nat, j: int) {
    k <= j < |w| - 1 && w[j] == "dev" && forall i :: k <= i < j ==> w[i] != "dev"
  }

  /** The word after the first `dev` at or after index `k`, if any. */
  function DevNic(w: seq<string>, k: nat): (r: Option<string>)
    ensures r.Some? <==> exists j :: k <= j < |w| - 1 && w[j] == "dev"
    ensures r.Some? ==> exists j :: FirstDevAt(w, k, j) && r.value == w[j + 1]
    decreases |w| - k
  {
    if k + 1 >= |w| then None
    else if w[k] == "dev" then
      assert FirstDevAt(w, k, k);
      Some(w[k + 1])
    else
      var r := DevNic(w, k + 1);
      assert r.Some? ==> exists j :: FirstDevAt(w, k, j) && r.value == w[j + 1] by {
        if r.Some? {
          var j :| FirstDevAt(w, k + 1, j) && r.value == w[j + 1];
          assert FirstDevAt(w, k, j);
        }
      }
      r
  }

  /** The NIC a route line sends default traffic through: the line reads
      `default via <gateway> ... dev <nic> ...`. */
  function DefaultRouteNic(w: seq<string>): Option<string> {
    if |w| < 2 || w[0] != "default" || w[1] != "via" then None
    else DevNic(w, 3)
  }

  /** Line `j` is the first line that names a default-route NIC. */
  predicate FirstDefaultAt(rows: seq<seq<string>>, j: int) {
    0 <= j < |rows| && DefaultRouteNic(rows[j]).Some? &&
    forall i :: 0 <= i < j ==> DefaultRouteNic(rows[i]).None?
  }

  /** The default-route NIC of the first line that names one. */
  function RouteDefaultNic(rows: seq<seq<string>>): (r: Option<string>)
    ensures r.Some? <==> exists j :: 0 <= j < |rows| && DefaultRouteNic(rows[j]).Some?
    ensures r.Some? ==> exists j :: FirstDefaultAt(rows, j) && DefaultRouteNic(rows[j]) == r
  {
    if rows == [] then None
    else if DefaultRouteNic(rows[0]).Some? then
      assert FirstDefaultAt(rows, 0);
      DefaultRouteNic(rows[0])
    else
      var r := RouteDefaultNic(rows[1..]);
      assert forall j :: 1 <= j < |rows| ==> rows[j] == rows[1..][j - 1];
      assert r.Some? ==> exists j :: FirstDefaultAt(rows, j) && DefaultRouteNic(rows[j]) == r by {
        if r.Some? {
          var j :| FirstDefaultAt(rows[1..], j) && DefaultRouteNic(rows[1..][j]) == r;
          assert FirstDefaultAt(rows, j + 1);
        }
      }
      r
  }

  /** A line `default via <gateway> dev <nic> ...` names `<nic>`. */
  lemma DefaultLineNamesNic(gateway: string, nic: string, rest: seq<string>)
    ensures DefaultRouteNic(["default", "via", gateway, "dev", nic] + rest) == Some(nic)
  {
    var w := ["default", "via", gateway, "dev", nic] + rest;
    assert w[3] == "dev" && w[4] == nic;
  }

  /** The NICs to use, and the warning logged on the way, if any. */
  datatype NicChoice = NicChoice(nics: seq<string>, warning: Option<string>)

  /** `get_default_nic_list_from_route()`: a failed route dump reports its
      standard error; otherwise the default route's NIC, or, with the
      "No default route configured" warning, the first NIC of a discovery. */
  function NicsFromRoute(config: Config, addrCmd: CommandResult, routeCmd: CommandResult): (r: Result<NicChoice, Error>)
    ensures routeCmd.rc != 0 ==> r == Failure(CommandFailed(routeCmd.err))
    ensures routeCmd.rc == 0 && RouteDefaultNic(Text.Tokenize(routeCmd.out)).Some? ==>
              r == Success(NicChoice([RouteDefaultNic(Text.Tokenize(routeCmd.out)).value], None))
    ensures r.Success? ==> |r.value.nics| == 1
    ensures r.Success? ==> r.value.warning == None || r.value.warning == Some(NoDefaultRouteWarning)
    ensures r.Success? && r.value.warning == None ==>
              exists j :: FirstDefaultAt(Text.Tokenize(routeCmd.out), j) &&
                DefaultRouteNic(Text.Tokenize(routeCmd.out)[j]) == Some(r.value.nics[0])
    ensures r.Success? && r.value.warning == Some(NoDefaultRouteWarning) ==>
              (forall row :: row in Text.Tokenize(routeCmd.out) ==> DefaultRouteNic(row).None?) &&
              Discover(config, addrCmd).Success? &&
              Names(Discover(config, addrCmd).value) != [] &&
              r.value.nics[0] == Names(Discover(config, addrCmd).value)[0]
    ensures routeCmd.rc == 0 && r.Failure? ==>
              Discover(config, addrCmd).Failure? && r.error == Discover(config, addrCmd).error
  {
    if routeCmd.rc != 0 then Failure(CommandFailed(routeCmd.err))
    else
      var route := RouteDefaultNic(Text.Tokenize(routeCmd.out));
      if route.Some? then Success(NicChoice([route.value], None))
      else
        var d := Discover(config, addrCmd);
        if d.Failure? then Failure(d.error)
        else Success(NicChoice([Names(d.value)[0]], Some(NoDefaultRouteWarning)))
  }

  /** `nics[k]` is the first entry of `nics` that is not in `names`. */
  predicate FirstMissingAt(names: seq<string>, nics: seq<string>, k: int) {
    0 <= k < |nics| && nics[k] !in names && forall j :: 0 <= j < k ==> nics[j] in names
  }

  /** `names[k]` is the first name that is not among `chosen`. */
  predicate FirstOtherAt(names: seq<string>, chosen: seq<string>, k: int) {
    0 <= k < |names| && names[k] !in chosen && forall j :: 0 <= j < k ==> names[j] in chosen
  }

  /** The first name not among the chosen ones. */
  function OtherNic(names: seq<string>, chosen: seq<string>): (r: Option<string>)
    ensures r.None? <==> forall k :: 0 <= k < |names| ==> names[k] in chosen
    ensures r.Some? ==> exists k :: FirstOtherAt(names, chosen, k) && names[k] == r.value
  {
    if names == [] then None
    else if names[0] !in chosen then
      assert FirstOtherAt(names, chosen, 0);
      Some(names[0])
    else
      var r := OtherNic(names[1..], chosen);
      assert forall k :: 1 <= k < |names| ==> names[k] == names[1..][k - 1];
      assert r.Some? ==> exists k :: FirstOtherAt(names, chosen, k) && names[k] == r.value by {
        if r.Some? {
          var k :| FirstOtherAt(names[1..], chosen, k) && names[1..][k] == r.value;
          assert FirstOtherAt(names, chosen, k + 1);
        }
      }
      r
  }

  /** `get_default_ip_list` after discovery, with a given address lookup
      for the known NICs: the address of every candidate in order, the
      first candidate that is not a known NIC failing; then, when a second
      heartbeat is wanted and there is exactly one address, the address of
      the first known NIC that is not a candidate, if there is one. */
  function Pick(secondHeartbeat: bool, known: seq<string>, nics: seq<string>, first: string -> Option<string>): (r: Result<seq<string>, Error>)
    requires forall n :: n in known ==> first(n).Some?
  {
    var ips :- LookupAll(nics, known, first);
    if secondHeartbeat && |ips| == 1 then
      var other := OtherNic(known, nics);
      if other.None? then Success(ips)
      else
        assert known[IndexIn(known, other.value)] == other.value;
        Success(ips + [first(other.value).value])
    else
      Success(ips)
  }

  /** Position of a member of `s`. */
  function IndexIn(s: seq<string>, x: string): (k: nat)
    requires x in s
    ensures k < |s| && s[k] == x
  {
    if s[0] == x then 0 else 1 + IndexIn(s[1..], x)
  }

  /** The address loop over the candidates. */
  function LookupAll(nics: seq<string>, known: seq<string>, first: string -> Option<string>): (r: Result<seq<string>, Error>)
    requires forall n :: n in known ==> first(n).Some?
  {
    if nics == [] then Success([])
    else if nics[0] !in known then Failure(NicNotDetected(nics[0]))
    else
      var rest := LookupAll(nics[1..], known, first);
      if rest.Failure? then rest
      else Success([first(nics[0]).value] + rest.value)
  }

  /** The loop succeeds exactly when every candidate is known, and then
      gives each candidate's address in candidate order; otherwise it names
      the first candidate that is not known. */
  lemma {:induction false} LookupAllSpec(nics: seq<string>, known: seq<string>, first: string -> Option<string>)
    requires forall n :: n in known ==> first(n).Some?
    ensures LookupAll(nics, known, first).Success? <==> forall k :: 0 <= k < |nics| ==> nics[k] in known
    ensures LookupAll(nics, known, first).Success? ==>
              |LookupAll(nics, known, first).value| == |nics| &&
              forall k :: 0 <= k < |nics| ==> first(nics[k]) == Some(LookupAll(nics, known, first).value[k])
    ensures LookupAll(nics, known, first).Failure? ==>
              exists k :: FirstMissingAt(known, nics, k) && LookupAll(nics, known, first).error == NicNotDetected(nics[k])
  {
    if nics == [] {
    } else if nics[0] !in known {
      assert FirstMissingAt(known, nics, 0);
    } else {
      var r := LookupAll(nics, known, first);
      var rest := LookupAll(nics[1..], known, first);
      LookupAllSpec(nics[1..], known, first);
      assert forall k :: 1 <= k < |nics| ==> nics[k] == nics[1..][k - 1];
      if rest.Failure? {
        var k :| FirstMissingAt(known, nics[1..], k) && rest.error == NicNotDetected(nics[1..][k]);
        assert FirstMissingAt(known, nics, k + 1);
      } else {
        assert r.value == [first(nics[0]).value] + rest.value;
        forall k | 0 <= k < |nics| ensures first(nics[k]) == Some(r.value[k]) {
          if k > 0 {
            assert r.value[k] == rest.value[k - 1];
          }
        }
      }
    }
  }

  /** What `Pick` promises for any lookup: failure exactly when a candidate
      is unknown, naming the first such; otherwise each candidate's address
      in order, and one more address exactly when a second heartbeat is
      wanted, there is one candidate and a known NIC outside the candidates
      exists, that address being the first such NIC's. */
  lemma PickSpec(secondHeartbeat: bool, known: seq<string>, nics: seq<string>, first: string -> Option<string>)
    requires forall n :: n in known ==> first(n).Some?
    ensures Pick(secondHeartbeat, known, nics, first).Success? <==> forall k :: 0 <= k < |nics| ==> nics[k] in known
    ensures Pick(secondHeartbeat, known, nics, first).Failure? ==>
              exists k :: FirstMissingAt(known, nics, k) &&
                Pick(secondHeartbeat, known, nics, first).error == NicNotDetected(nics[k])
    ensures Pick(secondHeartbeat, known, nics, first).Success? ==>
              var r := Pick(secondHeartbeat, known, nics, first).value;
              |nics| <= |r| <= |nics| + 1 &&
              (forall k :: 0 <= k < |nics| ==> first(nics[k]) == Some(r[k])) &&
              (|r| == |nics| + 1 <==> secondHeartbeat && |nics| == 1 && OtherNic(known, nics).Some?) &&
              (|r| == |nics| + 1 ==> first(OtherNic(known, nics).value) == Some(r[|nics|]))
  {
    LookupAllSpec(nics, known, first);
  }

  /** Every NIC of a well-formed map has a first address. */
  lemma KnownNicsHaveFirstIp(m: NicMap)
    requires WellFormed(m)
    ensures forall n :: n in Names(m) ==> NicFirstIp(m, n).Some?
  {
    forall n | n in Names(m) ensures NicFirstIp(m, n).Some? {
      InterfacesOfPresent(m, n);
    }
  }

  /** `ip` is the first address of the discovered NIC `n`. */
  predicate IsFirstIpOf(m: NicMap, n: string, ip: string) {
    n in Names(m) && NicFirstIp(m, n) == Some(ip)
  }

  /** What the address list `r` for a discovered map and candidate NICs
      must be, looking addresses up with `_nic_first_ip`: a failure exactly
      when a candidate is not a discovered NIC, naming the first such;
      otherwise each candidate's first address in order, and one more
      address exactly when a second heartbeat is wanted, there is one
      candidate and some other NIC was discovered: the first address of
      the first such NIC. */
  ghost predicate Resolution(config: Config, m: NicMap, nics: seq<string>, r: Result<seq<string>, Error>) {
    (r.Success? <==> forall k :: 0 <= k < |nics| ==> nics[k] in Names(m)) &&
    (r.Failure? ==> exists k :: FirstMissingAt(Names(m), nics, k) && r.error == NicNotDetected(nics[k])) &&
    (r.Success? ==>
       |nics| <= |r.value| <= |nics| + 1 &&
       (forall k :: 0 <= k < |nics| ==> IsFirstIpOf(m, nics[k], r.value[k])) &&
       (|r.value| == |nics| + 1 <==> config.secondHeartbeat && |nics| == 1 && OtherNic(Names(m), nics).Some?) &&
       (|r.value| == |nics| + 1 ==> IsFirstIpOf(m, OtherNic(Names(m), nics).value, r.value[|nics|])))
  }

  /** The address list for a discovered map and candidate NICs. */
  function Resolve(config: Config, m: NicMap, nics: seq<string>): (r: Result<seq<string>, Error>)
    requires WellFormed(m)
    ensures Resolution(config, m, nics, r)
  {
    KnownNicsHaveFirstIp(m);
    var first := n => NicFirstIp(m, n);
    PickSpec(config.secondHeartbeat, Names(m), nics, first);
    var r := Pick(config.secondHeartbeat, Names(m), nics, first);
    if r.Success? && OtherNic(Names(m), nics).Some? then
      var o := OtherNic(Names(m), nics).value;
      assert Names(m)[IndexIn(Names(m), o)] == o;
      r
    else
      r
  }

  /** The candidate NICs: the operator's list when one was given, otherwise
      the default-route NIC. */
  function DefaultNics(config: Config, addrCmd: CommandResult, routeCmd: CommandResult): (r: Result<seq<string>, Error>)
    ensures config.customNics != [] ==> r == Success(config.customNics)
    ensures config.customNics == [] ==>
              (r.Success? <==> NicsFromRoute(config, addrCmd, routeCmd).Success?) &&
              (r.Success? ==> r.value == NicsFromRoute(config, addrCmd, routeCmd).value.nics) &&
              (r.Failure? ==> r.error == NicsFromRoute(config, addrCmd, routeCmd).error)
    ensures r.Success? ==> r.value != []
  {
    if config.customNics != [] then Success(config.customNics)
    else
      var choice :- NicsFromRoute(config, addrCmd, routeCmd);
      Success(choice.nics)
  }

  /** `get_default_ip_list()`: discovery, then the candidate NICs, then
      their addresses. A failure of either of the first two steps is the
      result; otherwise the result is the resolution of the candidates
      against the discovered map. */
  function DefaultIpList(config: Config, addrCmd: CommandResult, routeCmd: CommandResult): (r: Result<seq<string>, Error>)
    ensures Discover(config, addrCmd).Failure? ==> r == Failure(Discover(config, addrCmd).error)
    ensures Discover(config, addrCmd).Success? && DefaultNics(config, addrCmd, routeCmd).Failure? ==>
              r == Failure(DefaultNics(config, addrCmd, routeCmd).error)
    ensures Discover(config, addrCmd).Success? && DefaultNics(config, addrCmd, routeCmd).Success? ==>
              Resolution(config, Discover(config, addrCmd).value, DefaultNics(config, addrCmd, routeCmd).value, r)
  {
    var d := Discover(config, addrCmd);
    if d.Failure? then Failure(d.error)
    else
      var nics := DefaultNics(config, addrCmd, routeCmd);
      if nics.Failure? then Failure(nics.error)
      else Resolve(config, d.value, nics.value)
  }

  /** A successful default list follows a successful discovery, is not
      empty, and every address in it is the first address of a discovered
      NIC and one of the discovered `ip_list`. */
  lemma DefaultIpListSpec(config: Config, addrCmd: CommandResult, routeCmd: CommandResult)
    requires DefaultIpList(config, addrCmd, routeCmd).Success?
    ensures Discover(config, addrCmd).Success?
    ensures DefaultIpList(config, addrCmd, routeCmd).value != []
    ensures forall ip :: ip in DefaultIpList(config, addrCmd, routeCmd).value ==>
              ip in IpList(Discover(config, addrCmd).value) &&
              exists n :: IsFirstIpOf(Discover(config, addrCmd).value, n, ip)
  {
    var m := Discover(config, addrCmd).value;
    var nics := DefaultNics(config, addrCmd, routeCmd).value;
    DefaultIpsListed(config, m, nics);
  }

  /** Every address `Pick` returns is the lookup of some known NIC. */
  lemma PickedAreLookups(secondHeartbeat: bool, known: seq<string>, nics: seq<string>, first: string -> Option<string>)
    requires forall n :: n in known ==> first(n).Some?
    requires Pick(secondHeartbeat, known, nics, first).Success?
    ensures forall ip :: ip in Pick(secondHeartbeat, known, nics, first).value ==>
              exists n :: n in known && first(n) == Some(ip)
  {
    PickSpec(secondHeartbeat, known, nics, first);
    var ips := Pick(secondHeartbeat, known, nics, first).value;
    forall ip | ip in ips ensures exists n :: n in known && first(n) == Some(ip) {
      var k :| 0 <= k < |ips| && ips[k] == ip;
      if k < |nics| {
        assert nics[k] in known && first(nics[k]) == Some(ip);
      } else {
        var o := OtherNic(known, nics).value;
        assert known[IndexIn(known, o)] == o;
        assert o in known && first(o) == Some(ip);
      }
    }
  }

  /** Every address `Resolve` picks is the first address of a discovered
      NIC. */
  lemma ResolvedAreFirstIps(config: Config, m: NicMap, nics: seq<string>)
    requires WellFormed(m) && Resolve(config, m, nics).Success?
    ensures forall ip :: ip in Resolve(config, m, nics).value ==> exists n :: IsFirstIpOf(m, n, ip)
  {
    KnownNicsHaveFirstIp(m);
    var first := n => NicFirstIp(m, n);
    PickedAreLookups(config.secondHeartbeat, Names(m), nics, first);
    forall ip | ip in Resolve(config, m, nics).value ensures exists n :: IsFirstIpOf(m, n, ip) {
      var n :| n in Names(m) && first(n) == Some(ip);
      assert IsFirstIpOf(m, n, ip);
    }
  }

  /** The first address of a discovered NIC is in the map's `ip_list`. */
  lemma FirstIpsListed(m: NicMap)
    requires WellFormed(m)
    ensures forall n, ip :: IsFirstIpOf(m, n, ip) ==> ip in IpList(m)
  {
    forall n, ip | IsFirstIpOf(m, n, ip) ensures ip in IpList(m) {
      FirstIpIsListed(m, n);
    }
  }

  /** Every address `Resolve` picks is the first address of a discovered
      NIC, and so is in the map's `ip_list`. */
  lemma DefaultIpsListed(config: Config, m: NicMap, nics: seq<string>)
    requires WellFormed(m) && Resolve(config, m, nics).Success?
    ensures forall ip :: ip in Resolve(config, m, nics).value ==>
              ip in IpList(m) && exists n :: IsFirstIpOf(m, n, ip)
  {
    ResolvedAreFirstIps(config, m, nics);
    FirstIpsListed(m);
  }
}

=== FILE: seqs.dfy ===
/** Sequence helpers: duplicate removal keeping first occurrences, which is
    how both the NIC list (dictionary keys in insertion order) and the
    network list (a `set` turned back into a list) come about. */
module Seqs {

  predicate NoDuplicates<T(==)>(s: seq<T>) {
    forall i, j :: 0 <= i < j < |s| ==> s[i] != s[j]
  }

  /** The distinct elements of `s`, each at its first occurrence. */
  function Dedup<T(==)>(s: seq<T>): (r: seq<T>)
    ensures NoDuplicates(r)
    ensures forall i :: 0 <= i < |r| ==> r[i] in s
    ensures forall i :: 0 <= i < |s| ==> s[i] in r
    ensures |r| <= |s|
    decreases |s|
  {
    if s == [] then []
    else
      var d := Dedup(s[..|s| - 1]);
      var x := s[|s| - 1];
      if x in d then d else d + [x]
  }

  /** A sequence without duplicates is left as it is. */
  lemma {:induction false} DedupOfDistinct<T>(s: seq<T>)
    requires NoDuplicates(s)
    ensures Dedup(s) == s
    decreases |s|
  {
    if s != [] {
      var p := s[..|s| - 1];
      DedupOfDistinct(p);
      assert s[|s| - 1] !in p;
      assert s == p + [s[|s| - 1]];
    }
  }

  /** `[f(x) for x in s]`. */
  function Map<A, B>(s: seq<A>, f: A -> B): (r: seq<B>)
    ensures |r| == |s|
    ensures forall k :: 0 <= k < |s| ==> r[k] == f(s[k])
  {
    seq(|s|, k requires 0 <= k < |s| => f(s[k]))
  }

  /** The distinct images of `s` under `f`: each image of an element of `s`
      once, and nothing else. */
  lemma DedupMap<A, B>(s: seq<A>, f: A -> B)
    ensures forall k :: 0 <= k < |Dedup(Map(s, f))| ==>
              exists j :: 0 <= j < |s| && Dedup(Map(s, f))[k] == f(s[j])
    ensures forall j :: 0 <= j < |s| ==> f(s[j]) in Dedup(Map(s, f))
  {
    var d := Dedup(Map(s, f));
    forall k | 0 <= k < |d| ensures exists j :: 0 <= j < |s| && d[k] == f(s[j]) {
      var j :| 0 <= j < |s| && Map(s, f)[j] == d[k];
    }
  }
}

=== FILE: text.dfy ===
/** Text primitives the source gets from Python's `str`: `find`, `split(sep)`,
    `sep.join`, whitespace `split()`, and `lower()` restricted to ASCII. */
module Text {

  /** The ASCII whitespace `str.split()` and `\s` break on: space, tab,
      newline, vertical tab, form feed, carriage return and the separators
      0x1C to 0x1F. */
  predicate IsSpace(c: char) {
    c == ' ' || '\t' <= c <= '\r' || 0x1C <= c as int <= 0x1F
  }

  /** A word of `str.split()`: non-empty and free of whitespace. */
  predicate IsWord(w: string) {
    w != [] && forall i :: 0 <= i < |w| ==> !IsSpace(w[i])
  }

  // ---------------------------------------------------------------------------
  // Searching and splitting on one separator character
  // ---------------------------------------------------------------------------

  /** Position of the first `c` in `s`, or `|s|` when there is none. */
  function IndexOf(s: string, c: char): (k: nat)
    ensures k <= |s|
    ensures k < |s| ==> s[k] == c
    ensures forall i :: 0 <= i < k ==> s[i] != c
  {
    if s == [] then 0
    else if s[0] == c then 0
    else 1 + IndexOf(s[1..], c)
  }

  /** The first occurrence is unique: any position with the two defining
      properties is the one `IndexOf` returns. */
  lemma IndexOfUnique(s: string, c: char, j: nat)
    requires j <= |s|
    requires j < |s| ==> s[j] == c
    requires forall i :: 0 <= i < j ==> s[i] != c
    ensures IndexOf(s, c) == j
  {
  }

  /** Python's `s.split(sep)`: the pieces between separators, always at
      least one, none of them containing the separator. */
  function SplitOn(s: string, sep: char): (parts: seq<string>)
    ensures |parts| >= 1
    ensures forall i :: 0 <= i < |parts| ==> sep !in parts[i]
    decreases |s|
  {
    var k := IndexOf(s, sep);
    if k == |s| then [s] else [s[..k]] + SplitOn(s[k + 1..], sep)
  }

  /** Python's `sep.join(parts)`. */
  function Join(parts: seq<string>, sep: char): string
    requires |parts| >= 1
    decreases |parts|
  {
    if |parts| == 1 then parts[0] else parts[0] + [sep] + Join(parts[1..], sep)
  }

  /** Joining the pieces of a split gives the original text back. */
  lemma {:induction false} JoinSplit(s: string, sep: char)
    ensures Join(SplitOn(s, sep), sep) == s
    decreases |s|
  {
    var k := IndexOf(s, sep);
    if k < |s| {
      var tail := SplitOn(s[k + 1..], sep);
      var parts := [s[..k]] + tail;
      assert SplitOn(s, sep) == parts;
      assert parts[1..] == tail;
      assert Join(parts, sep) == s[..k] + [sep] + Join(tail, sep);
      JoinSplit(s[k + 1..], sep);
      assert s == s[..k] + [sep] + s[k + 1..];
    } else {
      assert SplitOn(s, sep) == [s];
    }
  }

  /** Splitting a join of separator-free pieces gives the pieces back. */
  lemma {:induction false} SplitJoin(parts: seq<string>, sep: char)
    requires |parts| >= 1
    requires forall i :: 0 <= i < |parts| ==> sep !in parts[i]
    ensures SplitOn(Join(parts, sep), sep) == parts
    decreases |parts|
  {
    var s := Join(parts, sep);
    var p := parts[0];
    if |parts| == 1 {
      IndexOfUnique(p, sep, |p|);
    } else {
      var rest := Join(parts[1..], sep);
      assert s == p + [sep] + rest;
      assert s[|p|] == sep;
      assert forall i :: 0 <= i < |p| ==> s[i] == p[i];
      IndexOfUnique(s, sep, |p|);
      assert s[..|p|] == p;
      assert s[|p| + 1..] == rest;
      SplitJoin(parts[1..], sep);
    }
  }

  // ---------------------------------------------------------------------------
  // Lines and whitespace-separated words
  // ---------------------------------------------------------------------------

  /** Length of the leading run of non-space characters. */
  function WordLength(s: string): (n: nat)
    ensures n <= |s|
    ensures forall i :: 0 <= i < n ==> !IsSpace(s[i])
    ensures n < |s| ==> IsSpace(s[n])
  {
    if s == [] || IsSpace(s[0]) then 0 else 1 + WordLength(s[1..])
  }

  lemma WordLengthUnique(s: string, j: nat)
    requires j <= |s|
    requires forall i :: 0 <= i < j ==> !IsSpace(s[i])
    requires j < |s| ==> IsSpace(s[j])
    ensures WordLength(s) == j
  {
  }

  /** `s[lo..hi]` is a maximal run of characters satisfying `p`: what a
      greedy `[...]*` consumes from `lo`. */
  predicate IsRun(s: string, p: char -> bool, lo: int, hi: int) {
    0 <= lo <= hi <= |s| && (forall i :: lo <= i < hi ==> p(s[i])) && (hi < |s| ==> !p(s[hi]))
  }

  /** Where the run from `lo` of characters satisfying `p` ends. */
  function RunEnd(s: string, p: char -> bool, lo: nat): (hi: nat)
    requires lo <= |s|
    ensures IsRun(s, p, lo, hi)
    decreases |s| - lo
  {
    if lo == |s| || !p(s[lo]) then lo else RunEnd(s, p, lo + 1)
  }

  /** A run is determined by where it starts. */
  lemma {:induction false} RunEndUnique(s: string, p: char -> bool, lo: nat, hi: nat)
    requires IsRun(s, p, lo, hi)
    ensures RunEnd(s, p, lo) == hi
    decreases hi - lo
  {
    if lo < hi {
      RunEndUnique(s, p, lo + 1, hi);
    }
  }

  /** A run keeps its shape behind a prefix. */
  lemma RunShift(pre: string, s: string, p: char -> bool, lo: int, hi: int)
    requires 0 <= lo
    ensures IsRun(pre + s, p, lo + |pre|, hi + |pre|) <==> IsRun(s, p, lo, hi)
  {
    assert forall i :: 0 <= i < |s| ==> (pre + s)[i + |pre|] == s[i];
    if IsRun(pre + s, p, lo + |pre|, hi + |pre|) {
      forall i | lo <= i < hi ensures p(s[i]) {
        assert p((pre + s)[i + |pre|]);
      }
      assert hi < |s| ==> (pre + s)[hi + |pre|] == s[hi];
    }
  }

  /** Python's `s.split()` with no argument: the maximal runs of
      non-whitespace characters, in order. */
  function Words(s: string): (ws: seq<string>)
    ensures forall i :: 0 <= i < |ws| ==> IsWord(ws[i])
    decreases |s|
  {
    if s == [] then []
    else if IsSpace(s[0]) then Words(s[1..])
    else
      var n := WordLength(s);
      [s[..n]] + Words(s[n..])
  }

  /** Words separated by single spaces split back into the same words. */
  lemma {:induction false} WordsOfJoin(ws: seq<string>)
    requires |ws| >= 1
    requires forall i :: 0 <= i < |ws| ==> IsWord(ws[i])
    ensures Words(Join(ws, ' ')) == ws
    decreases |ws|
  {
    var s := Join(ws, ' ');
    var w := ws[0];
    if |ws| == 1 {
      WordLengthUnique(w, |w|);
      assert w[..|w|] == w;
      assert w[|w|..] == [];
      assert Words(w) == [w] + Words([]);
    } else {
      var rest := Join(ws[1..], ' ');
      assert s == w + [' '] + rest;
      assert forall i :: 0 <= i < |w| ==> s[i] == w[i];
      WordLengthUnique(s, |w|);
      assert s[..|w|] == w;
      assert s[|w|..] == [' '] + rest;
      assert ([' '] + rest)[1..] == rest;
      WordsOfJoin(ws[1..]);
    }
  }

  /** A space-joined line of words contains no newline. */
  lemma {:induction false} NoNewlineInJoinedWords(ws: seq<string>)
    requires |ws| >= 1
    requires forall i :: 0 <= i < |ws| ==> IsWord(ws[i])
    ensures '\n' !in Join(ws, ' ')
    decreases |ws|
  {
    assert IsSpace('\n');
    if |ws| > 1 {
      NoNewlineInJoinedWords(ws[1..]);
    }
  }

  /** Python's `out.splitlines()` followed by `line.split()` on each line.
      Lines are broken at `\n` only; a trailing empty line has no words,
      which every consumer treats like an absent line. */
  function Tokenize(out: string): (rows: seq<seq<string>>)
    ensures |rows| == |SplitOn(out, '\n')|
  {
    var lines := SplitOn(out, '\n');
    seq(|lines|, i requires 0 <= i < |lines| => Words(lines[i]))
  }

  /** The text of a table: rows of words, words separated by one space,
      rows by one newline. */
  function Render(rows: seq<seq<string>>): string
    requires |rows| >= 1
    requires forall r :: 0 <= r < |rows| ==> |rows[r]| >= 1
  {
    var lines := seq(|rows|, r requires 0 <= r < |rows| => Join(rows[r], ' '));
    Join(lines, '\n')
  }

  /** Tokenizing a rendered table gives its rows back: this is what lets a
      statement about a table of words speak about the command's text. */
  lemma TokenizeRender(rows: seq<seq<string>>)
    requires |rows| >= 1
    requires forall r :: 0 <= r < |rows| ==> |rows[r]| >= 1
    requires forall r, i :: 0 <= r < |rows| && 0 <= i < |rows[r]| ==> IsWord(rows[r][i])
    ensures Tokenize(Render(rows)) == rows
  {
    var lines := seq(|rows|, r requires 0 <= r < |rows| => Join(rows[r], ' '));
    forall r | 0 <= r < |rows|
      ensures '\n' !in lines[r] && Words(lines[r]) == rows[r]
    {
      NoNewlineInJoinedWords(rows[r]);
      WordsOfJoin(rows[r]);
    }
    SplitJoin(lines, '\n');
  }

  // ---------------------------------------------------------------------------
  // Case
  // ---------------------------------------------------------------------------

  function LowerChar(c: char): char {
    if 'A' <= c <= 'Z' then (c as int + 32) as char else c
  }

  /** `str.lower()` on ASCII letters; every other character is kept. */
  function Lower(s: string): (r: string)
    ensures |r| == |s|
    ensures forall i :: 0 <= i < |s| ==> r[i] == LowerChar(s[i])
  {
    if s == [] then [] else [LowerChar(s[0])] + Lower(s[1..])
  }

  /** A string `lower()` leaves unchanged. */
  predicate IsLower(s: string) {
    forall i :: 0 <= i < |s| ==> !('A' <= s[i] <= 'Z')
  }

  /** Lower-casing yields a lower-case string, so doing it twice changes
      nothing more. */
  lemma LowerIsLower(s: string)
    ensures IsLower(Lower(s))
    ensures Lower(Lower(s)) == Lower(s)
  {
  }

  /** A lower-case string is its own lower-case form. */
  lemma LowerOfLower(s: string)
    requires IsLower(s)
    ensures Lower(s) == s
  {
  }
}

=== FILE: timeunits.dfy ===
/** `crm_msec(t)`: a Pacemaker duration such as `10s` or `500ms` in whole
    milliseconds. The text is read as optional whitespace, a decimal
    number, optional whitespace and an optional run of letters naming the
    unit; whatever follows is ignored. A bare number is seconds, and a unit
    the table does not know, or a text that does not start with a number,
    gives no value (the source returns -1). */
module TimeUnits {
  import opened Wrappers
  import opened Text
  import opened Decimal

  /** A unit converts `n` of itself to `n * mult / div` milliseconds,
      rounding down. */
  datatype Rate = Rate(mult: nat, div: nat)

  /** `n` of a unit with rate `r`, in whole milliseconds. */
  function Convert(n: nat, r: Rate): nat
    requires r.div >= 1
  {
    n * r.mult / r.div
  }

  /** The conversion table, looked up by the lower-cased unit. */
  function RateOf(unit: string): (r: Option<Rate>)
    ensures r.Some? ==> r.value.div >= 1
  {
    if unit in ["ms", "msec"] then Some(Rate(1, 1))
    else if unit in ["us", "usec"] then Some(Rate(1, 1000))
    else if unit in ["", "s", "sec"] then Some(Rate(1000, 1))
    else if unit in ["m", "min"] then Some(Rate(60 * 1000, 1))
    else if unit in ["h", "hr"] then Some(Rate(60 * 60 * 1000, 1))
    else None
  }

  predicate IsLetter(c: char) {
    'a' <= c <= 'z' || 'A' <= c <= 'Z'
  }

  /** A duration as `crm_msec` reads it: the number and the unit text, as
      written. */
  datatype Duration = Duration(digits: string, unit: string)

  /** Every character of `s` is an ASCII letter. */
  predicate Letters(s: string) {
    forall i :: 0 <= i < |s| ==> IsLetter(s[i])
  }

  /** `t` is blanks up to `a`, the digits of `d`, blanks up to `b`, the
      unit of `d` and a remainder, each run as long as it can be: how
      `\s*(\d+)\s*([a-zA-Z]+)?` matches at the start of `t`. */
  predicate ScansAt(t: string, d: Duration, a: int, b: int) {
    var e := a + |d.digits|;
    var f := b + |d.unit|;
    d.digits != [] && AllDigits(d.digits) &&
    IsRun(t, IsSpace, 0, a) && IsRun(t, IsDigit, a, e) && t[a..e] == d.digits &&
    IsRun(t, IsSpace, e, b) && IsRun(t, IsLetter, b, f) && t[b..f] == d.unit
  }

  /** The match of `\s*(\d+)\s*([a-zA-Z]+)?` at the start of `t`, if any:
      there is none exactly when no digit follows the leading blanks, and a
      match splits the text into maximal runs. */
  function Scan(t: string): (r: Option<Duration>)
    ensures r.None? <==> RunEnd(t, IsSpace, 0) == |t| || !IsDigit(t[RunEnd(t, IsSpace, 0)])
    ensures r.Some? ==> exists a, b :: ScansAt(t, r.value, a, b)
  {
    var a := RunEnd(t, IsSpace, 0);
    var e := RunEnd(t, IsDigit, a);
    if e == a then None
    else
      var c := RunEnd(t, IsSpace, e);
      var f := RunEnd(t, IsLetter, c);
      var d := Duration(t[a..e], t[c..f]);
      assert AllDigits(d.digits) by {
        assert forall i :: 0 <= i < e - a ==> d.digits[i] == t[a + i];
      }
      assert ScansAt(t, d, a, c);
      Some(d)
  }

  /** A text split into maximal runs scans as those runs: with the
      postcondition of `Scan`, the match is exactly the decomposition. */
  lemma ScanOfParts(t: string, d: Duration, a: int, b: int)
    requires ScansAt(t, d, a, b)
    ensures Scan(t) == Some(d)
  {
    RunEndUnique(t, IsSpace, 0, a);
    RunEndUnique(t, IsDigit, a, a + |d.digits|);
    RunEndUnique(t, IsSpace, a + |d.digits|, b);
    RunEndUnique(t, IsLetter, b, b + |d.unit|);
  }

  /** Milliseconds for a scanned duration: the number converted by the
      unit's rate, or nothing for a unit the table does not know. */
  function MsecOf(d: Duration): Option<nat>
    requires AllDigits(d.digits)
  {
    var rate := RateOf(Lower(d.unit));
    if rate.None? then None else Some(Convert(Value(d.digits), rate.value))
  }

  /** `crm_msec(t)`: a text that does not start with a number, after
      blanks, has no value; otherwise the value is that of its maximal
      decomposition, which is nothing for an unknown unit. */
  function CrmMsec(t: string): (r: Option<nat>)
    ensures (exists d, a, b :: ScansAt(t, d, a, b)) || r.None?
    ensures forall d, a, b :: ScansAt(t, d, a, b) ==> r == MsecOf(d)
  {
    forall d, a, b | ScansAt(t, d, a, b) ensures Scan(t) == Some(d) {
      ScanOfParts(t, d, a, b);
    }
    var d := Scan(t);
    if d.None? then None
    else MsecOf(d.value)
  }

  /** A numeral followed by letters is read as that number and unit. */
  lemma NumeralScans(n: nat, unit: string)
    requires Letters(unit)
    ensures ScansAt(FromNat(n) + unit, Duration(FromNat(n), unit), 0, |FromNat(n)|)
  {
    var t := FromNat(n) + unit;
    var digits := FromNat(n);
    var e := |digits|;
    assert t[0..e] == digits && t[e..e + |unit|] == unit;
    assert forall i :: 0 <= i < e ==> t[i] == digits[i];
    assert forall i :: e <= i < |t| ==> t[i] == unit[i - e];
    assert IsRun(t, IsSpace, 0, 0);
    assert IsRun(t, IsDigit, 0, e);
    assert IsRun(t, IsSpace, e, e);
    assert IsRun(t, IsLetter, e, |t|);
  }

  /** A number followed by letters naming no unit of the table has no
      value, the source's -1. */
  lemma UnknownUnitNoValue(n: nat, unit: string)
    requires Letters(unit)
    requires RateOf(Lower(unit)).None?
    ensures CrmMsec(FromNat(n) + unit).None?
  {
    NumeralScans(n, unit);
  }

  /** A number written in decimal, followed by a unit the table knows (or
      none), reads back as that many units in milliseconds: a bare number
      and `s` are seconds, `ms` milliseconds, `us` microseconds rounded down
      to whole milliseconds, `m` minutes and `h` hours. */
  lemma MsecOfNumeral(n: nat, unit: string)
    requires Letters(unit)
    requires RateOf(Lower(unit)).Some?
    ensures CrmMsec(FromNat(n) + unit) == Some(Convert(n, RateOf(Lower(unit)).value))
  {
    NumeralScans(n, unit);
    ValueFromNat(n);
  }

  /** Whitespace in front of a duration is skipped: the text reads the same
      with blanks in front of it. */
  lemma LeadingBlanksIgnored(blanks: string, t: string)
    requires forall i :: 0 <= i < |blanks| ==> IsSpace(blanks[i])
    requires t != [] && !IsSpace(t[0])
    ensures CrmMsec(blanks + t) == CrmMsec(t)
  {
    var s := blanks + t;
    var k := |blanks|;
    if CrmMsec(s).Some? {
      var d, a, b :| ScansAt(s, d, a, b);
      BlanksEndAt(blanks, t, a);
      var bt := b - k;
      ShiftedScan(blanks, t, d, bt, b);
      assert ScansAt(t, d, 0, bt);
      assert CrmMsec(s) == MsecOf(d) == CrmMsec(t);
    } else if CrmMsec(t).Some? {
      var d, a, b :| ScansAt(t, d, a, b);
      assert [] + t == t;
      BlanksEndAt([], t, a);
      var bs := b + k;
      ShiftedScan(blanks, t, d, b, bs);
      assert ScansAt(s, d, k, bs);
      assert CrmMsec(s) == MsecOf(d) == CrmMsec(t);
    }
  }

  /** The leading blanks of `t` behind blanks end where `t` starts. */
  lemma BlanksEndAt(blanks: string, t: string, a: int)
    requires forall i :: 0 <= i < |blanks| ==> IsSpace(blanks[i])
    requires t != [] && !IsSpace(t[0])
    requires IsRun(blanks + t, IsSpace, 0, a)
    ensures a == |blanks|
  {
    var s := blanks + t;
    assert s[|blanks|] == t[0];
    assert forall i :: 0 <= i < |blanks| ==> s[i] == blanks[i];
  }

  /** A scan of `t` is a scan of `t` behind blanks, starting after them. */
  lemma ShiftedScan(blanks: string, t: string, d: Duration, b: int, bs: int)
    requires forall i :: 0 <= i < |blanks| ==> IsSpace(blanks[i])
    requires t != [] && !IsSpace(t[0]) && bs == b + |blanks|
    ensures ScansAt(blanks + t, d, |blanks|, bs) <==> ScansAt(t, d, 0, b)
  {
    var k := |blanks|;
    var e := |d.digits|;
    var f := b + |d.unit|;
    LeadingRun(blanks, t);
    RunShift(blanks, t, IsDigit, 0, e);
    RunShift(blanks, t, IsSpace, e, b);
    if 0 <= b {
      RunShift(blanks, t, IsLetter, b, f);
    }
    if e <= |t| {
      SliceShift(blanks, t, 0, e);
    }
    if 0 <= b <= f <= |t| {
      SliceShift(blanks, t, b, f);
    }
  }

  /** Blanks in front of a text that starts with no blank are exactly its
      leading run of blanks. */
  lemma LeadingRun(blanks: string, t: string)
    requires forall i :: 0 <= i < |blanks| ==> IsSpace(blanks[i])
    requires t != [] && !IsSpace(t[0])
    ensures IsRun(blanks + t, IsSpace, 0, |blanks|) && IsRun(t, IsSpace, 0, 0)
  {
    var s := blanks + t;
    assert s[|blanks|] == t[0];
    assert forall i :: 0 <= i < |blanks| ==> s[i] == blanks[i];
  }

  lemma SliceShift(pre: string, t: string, lo: int, hi: int)
    requires 0 <= lo <= hi <= |t|
    ensures (pre + t)[lo + |pre|..hi + |pre|] == t[lo..hi]
  {
  }

  /** A text that does not start with a number, after blanks, has no
      value. */
  lemma NoNumberNoValue(t: string)
    requires RunEnd(t, IsSpace, 0) == |t| || !IsDigit(t[RunEnd(t, IsSpace, 0)])
    ensures CrmMsec(t).None?
  {
  }
}

=== FILE: wrappers.dfy ===
/** Failure-compatible wrappers: an optional value and a value-or-error result.
    Both can be used with `:-` so that an error raised deep inside a parse
    travels to the caller unchanged, as an exception does in the source. */
module Wrappers {

  datatype Option<+T> = None | Some(value: T) {

    predicate IsFailure() {
      None?
    }

    function PropagateFailure<U>(): Option<U>
      requires None?
    {
      None
    }

    function Extract(): T
      requires Some?
    {
      value
    }
  }

  datatype Result<+T, +E> = Success(value: T) | Failure(error: E) {

    predicate IsFailure() {
      Failure?
    }

    function PropagateFailure<U>(): Result<U, E>
      requires Failure?
    {
      Failure(error)
    }

    function Extract(): T
      requires Success?
    {
      value
    }
  }
}
